=== FILE: README.md ===
# Lotto: a Dafny model of the game engine

This project models the core of the Lotto client/server game. Users sign up and
log in. They place bets ("schedine") on some of the eleven wheels ("ruote").
Every few minutes the server draws five numbers from 1 to 90 for each wheel.
Users can list their bets, list past draws, and collect their winnings. The
model covers the following parts and proves properties about each.

- The text codec of a bet (`serializza_schedina_txt` / `deserializza_schedina_txt`).
  It includes the C conversions it relies on: `%i` and `%.2lf` on output, and
  `%i`, `%ld` and `%lf` on input.
- The per-user bet ledger. Its 8-byte header holds two cursors, the first
  bet not yet covered by a draw and the first bet not yet checked for winnings.
  The model covers every operation that moves those cursors, and the bet
  listing.
- The winnings engine:
  - the binomial coefficient in 32-bit unsigned arithmetic;
  - the two-pointer intersection of sorted numbers;
  - the prize tiers as exact rationals;
  - the sweep that pairs each bet with the draw that covers it.
- The draw itself: rejection sampling from a stream of generator values, the
  fixed-size blocks of the draw log, and the backward walk that lists the
  newest draws in network byte order.
- Login:
  - the newest-first lockout scan;
  - the failure counter with its lockout on the third strike;
  - the session identifier alphabet, as the unparenthesised macro makes it
    and as its comment intends;
  - the per-connection request gate of the server.
- The client's command line: the word splitter, the token checks, the
  command grammar and the login-state gate.

The model is mostly functional. Bets, draws, ledgers and connections are
immutable datatypes, and files are sequences of records or of bytes.
Methods with loop invariants model the loops whose shape matters. Each one is
proved equal to a functional reference:

- the decoder's group loops;
- the two-pointer merge;
- the sweep;
- the bet-listing reader;
- the backward draw walk (with its 16-bit counter, and with a corrected one);
- the sampling loops;
- the lockout scan;
- the session-id loop;
- the command splitter.

The clock, the client address and the values of `rand()` are parameters of
the operations that use them.

The bet listing's kind 0 is "bets for draws already held"
(`lotto_server.c:642`): every record from the header up to the first cursor
(`lotto_server.c:696-701`), whether or not its winnings have been checked.
The model follows this (`Ledger.Window`).

Modules, one file each: `Constants`, `Common`, `Decimal`, `Codec`, `Wheels`,
`BetList`, `Binomial`, `Sorting`, `Winnings`, `Sweep`, `Ledger`, `DrawLog`,
`Extraction`, `Login`, `Gate`, `Client`.

## Model

| member | source | states |
|---|---|---|
| Common.Min | lotto_server.c:212-215 | the result is at most both arguments and is one of them |
| Common.Max | lotto_server.c:205-208 | the result is at least both arguments and is one of them |
| Constants.LayoutSizes | lotto_server.c:47-48 | a wheel record is 1 + 5·4 bytes and a draw block is 8 + 21·11 bytes, matching the literal sizes the log layout uses |
| Codec.EncodeShape | lotto_utility.c:64-86 | an encoded bet is non-empty, starts with a digit and holds only digits, '-', '.' and blanks, so it never contains the ledger's '\|' delimiter |
| Codec.Serialize | lotto_utility.c:57-101 | the text is the bet's encoding and holds no record separator (the vertical bar); the reported length is the text length plus one for the NUL and fits the 2048-byte buffer (that the text decodes back is Codec.DecodeEncodeAlone) |
| Codec.DecodeEncode | lotto_utility.c:110-148 | decoding an encoded bet followed by the end or a non-space gives back the same wheels, numbers and stakes and consumes exactly the encoded length |
| Codec.DecodeEncodeAlone | lotto_utility.c:57-148 | the round trip decode(encode(b)) = (b, \|encode(b)\|) |
| Codec.DecodeConcatenation | lotto_utility.c:110-148 | decoding two encodings written back to back yields the first bet and stops exactly where the second begins |
| Codec.DecodeAllEncodeAll | lotto_client.c:948-958 | the client's loop of decode-and-advance over a listing reads back exactly the list of bets that was encoded |
| Codec.ReadIntGroup | lotto_utility.c:115-133 | the count-then-tokens loop succeeds exactly when the reference scan does and returns its values and end position; a negative count reads no token, since the loop `i < count` does not run |
| Codec.ReadCentsGroup | lotto_utility.c:135-143 | the same for the stakes group read with `%lf` |
| Codec.Deserialize | lotto_utility.c:110-148 | the decoder's three loops compute the reference decoding, errors included |
| Codec.NegativeCountDecodes | lotto_utility.c:115-143 | the text "-1 0 0 " decodes to a bet with no wheels, no numbers and no stakes, consuming all seven characters |
| Decimal.ScanIntText | lotto_utility.c:121 | `%i` reading a token that `%i` printed, followed by one blank, returns the printed value and stops after the blank |
| Decimal.ScanCentsText | lotto_utility.c:141 | `%lf` reading an amount printed with `%.2lf` returns the same number of cents |
| Decimal.ScanLongText | lotto_server.c:1267 | `%ld` reading a printed time stamp returns it and stops after the blank |
| Wheels.CodeOf | lotto_utility.c:159-173 | a name maps to -1 exactly when it is not one of the eleven names, and otherwise to the index of that name |
| Wheels.NameOf | lotto_client.c:182-197 | a name comes back exactly for the codes 0..10, it is one of the wheel names, and the name-to-code conversion reads it back as the same code; every other integer gives "" |
| Wheels.NameCodeRoundTrip | lotto_client.c:182-197 | name-of and code-of are inverse on the eleven codes and the eleven names |
| Wheels.NamesDistinct | costanti.h:67-77 | the eleven names are pairwise distinct and non-empty, so the name-to-code map is injective |
| Wheels.CodesMatchConstants | costanti.h:52-62 | each name's position is its wheel code constant, and "tutte" and "" are not wheel names |
| BetList.InsertLast | lotto_utility.c:180-200 | the list's items become the old items followed by the new one, and the new cell is last with no successor |
| BetList.FromSeq | lotto_server.c:1284-1291 | building the list by appending each record read keeps the reading order |
| Binomial.BinomialFactors | lotto_server.c:242-255 | returns -1 exactly when k > n, and otherwise the falling product and k!, each reduced modulo 2^32 |
| Binomial.FallingIsChooseTimesFactorial | lotto_server.c:242-255 | the falling product n·…·(n-k+1) equals C(n,k)·k!, with C defined by Pascal's rule |
| Binomial.FactorsExact | lotto_server.c:242-255 | for n ≤ 12 nothing wraps, so the quotient of the two factors is exactly C(n,k), and the -1 branch stands where C(n,k) = 0 |
| Sorting.Sort | lotto_server.c:938 | the result is ascending and a permutation of the input |
| Sorting.SortDistinct | lotto_server.c:1123 | sorting pairwise distinct numbers gives a strictly ascending sequence |
| Winnings.TwoPointerIsIntersection | lotto_server.c:956-972 | on ascending inputs the merge keeps exactly the values present in both, in ascending order, and strictly ascending when the draw is |
| Winnings.Intersect | lotto_server.c:944-972 | the index-cursor loop computes the merge, whose result is the strictly ascending intersection, no longer than either input |
| Winnings.MultiplierCents | lotto_server.c:226-236 | the five prize tiers have a multiplier of at least 11.23, and any other index gets 1.00 |
| Winnings.TierPayouts | lotto_server.c:992-1010 | one payout per evaluated tier, tier j being C(hits, j+1)·multiplier over C(played, j+1)·wheels |
| Winnings.EvaluatedTiersInRange | lotto_server.c:931-1009 | every evaluated tier j < min(stakes, hits) keeps both binomials off their -1 branch and stays inside the prize table |
| Winnings.TierPayoutExact | lotto_server.c:1006-1009 | with at most twelve numbers played the payout is the exact rational C(k,j+1)·multiplier / (C(m,j+1)·wheels) |
| Winnings.WheelOutcome | lotto_server.c:944-1011 | the wheel code is read as an 8-bit index; an index past the eleven wheels is an error, standing for the out-of-bounds read of line 958; otherwise a winning wheel records that index and a non-empty hit list bounded by the played and drawn counts, with min(stakes, hits) payouts |
| Winnings.EvaluateSpec | lotto_server.c:913-1047 | the corrected evaluation fails exactly when some wheel's index lies past the draw; otherwise there is no record exactly when no wheel matches a number, and else the header counts its entries, and each entry's hits are the bet's numbers present in that wheel's draw, ascending, with min(stakes, hits) payouts |
| Winnings.StakeAmountsIgnored | lotto_server.c:992-1009 | the payouts depend on how many stakes the bet declares, not on their amounts |
| Winnings.WinnersCodeNotZero | lotto_server.c:1022-1028 | the wheels written are exactly the winning wheels whose code is not 0 |
| Winnings.AsWrittenAgreesWithoutBari | lotto_server.c:1022-1044 | for a bet none of whose wheels selects Bari, the record as written equals the corrected one |
| Winnings.BariWinDropped | lotto_server.c:1019-1028 | a bet on Bari alone whose number is drawn gets a record announcing one winning wheel and listing none |
| Winnings.TutteCodeOutOfRange | lotto_server.c:944-958 | the code -1 is read as wheel index 255, so both evaluations of a bet holding it fail, whatever the draw |
| Sweep.Associate | lotto_server.c:1092-1149 | the nested loops produce the (bet, draw) pairs of the recursive description of the sweep |
| Sweep.SweepMatchesReference | lotto_server.c:1097-1100 | with bets in time order and draws strictly increasing, the interval test pairs each bet with the first draw at or after it |
| Sweep.RefMembers | lotto_server.c:1092-1149 | a bet is evaluated at most once, exactly when some draw is at or after it, and against the first such draw |
| Sweep.SortedNumbers | lotto_server.c:1106-1124 | each wheel of the draw is read as an ascending permutation of its five numbers |
| Sweep.SweepSpec | lotto_server.c:1055-1153 | with either evaluation, the one as written or the corrected one, the records written are, bet by bet, the outcome against the first draw at or after the bet, with nothing for bets no draw has reached; the sweep fails exactly when one of those outcomes fails |
| Sweep.SweepAgreesWithoutBari | lotto_server.c:1055-1153 | when no wheel of an unchecked bet selects Bari, the sweep as written appends the same records as the corrected one |
| Ledger.Signup | lotto_server.c:583-587 | a new ledger has no records and both header offsets equal 8, the file size |
| Ledger.Submit | lotto_server.c:612-639 | one record with the receipt time is appended, the file grows by its text, and both header offsets are unchanged |
| Ledger.Extract | lotto_server.c:1524-1568 | the first header offset becomes the file size, records and the second offset are unchanged, and the cursor never moves back |
| Ledger.ViewWinnings | lotto_server.c:1233-1260 | the second offset takes the first's value, and the bets handed to evaluation are exactly those between the two cursors (none when the offsets are equal) |
| Ledger.OffsetStrict | lotto_server.c:1260 | record counts and byte offsets determine each other, so the reader's offset comparisons are comparisons of record counts |
| Ledger.HeaderOrdered | lotto_server.c:696-705 | for a valid ledger 8 ≤ unchecked ≤ unextracted ≤ size holds in bytes |
| Ledger.RunMonotone | lotto_server.c:1239-1240 | under any sequence of submissions, draws and winnings views, records are only appended and both cursors only move forward, in records and in bytes |
| Ledger.LedgerInUse | lotto_server.c:583-587 | every ledger reached from signup satisfies 8 ≤ unchecked ≤ unextracted ≤ size |
| Ledger.Window | lotto_server.c:696-711 | kind 0 is the records before the first cursor, kind 1 those from it to the end, any other kind is refused, and offset and length agree with the records |
| Ledger.ScanRecordAt | lotto_server.c:742 | scanning the ledger at the start of a record returns its time stamp and bet text and stops at the next record |
| Ledger.ReadWindow | lotto_server.c:732-749 | the record loop over a window returns the window's bets encoded back to back |
| Ledger.ServeListBets | lotto_server.c:656-754 | the file-level listing computes the reference listing |
| Ledger.ListBetsSpec | lotto_server.c:693-751 | malformed exactly for an unknown kind, empty exactly when the window has no record, and otherwise text that decodes to the window's bets and fits the window-sized buffer with its NUL |
| DrawLog.ReverseLittleEndian | lotto_server.c:885-889 | byte-swapping a stored little-endian number gives its network-order bytes |
| DrawLog.NumberRoundTrip | lotto_server.c:790-791 | a 32-bit number in network order reads back as itself |
| DrawLog.LogBlock | lotto_server.c:1604-1634 | block b of the log is the time stamp and the eleven wheel records of draw b |
| DrawLog.LogWheel | lotto_server.c:829 | wheel w of block b sits at offset 239·b + 8 + 21·w, which is the listing's seek arithmetic |
| DrawLog.Span | lotto_server.c:829-851 | the part of a block the listing reads lies after the time stamp, inside the block, and is whole wheel records |
| DrawLog.Walk | lotto_server.c:815-866 | the backward walk, with a wide enough counter, reads the span of each of the min(n, blocks) newest blocks, newest first |
| DrawLog.WalkAsWritten | lotto_server.c:775-856 | with the 16-bit counter, the length sent is the bytes read modulo 2^16, and the reply is correct only while the total stays below 2^16 |
| DrawLog.AllWheelsListingWraps | lotto_server.c:853-856 | listing 284 draws of all wheels reads 65604 bytes, but the counter ends at 68 |
| DrawLog.WheelsNetwork | lotto_server.c:879-893 | the conversion loop keeps each code byte and turns each stored number into its network-order bytes |
| DrawLog.NewestOfLog | lotto_server.c:815-893 | on a log written by the draws, the walk followed by the conversion yields the requested wheel (or all) of the newest draws, newest first, in network order |
| DrawLog.ServeListDraws | lotto_server.c:769-899 | the checks, the walk with a counter as wide as the reply (the corrected side of the counter finding) and the conversion compute the reference listing |
| DrawLog.ListDrawsSpec | lotto_server.c:783-873 | malformed exactly for n = 0 or an unknown wheel byte, empty exactly when no draw exists, otherwise the min(n, draws) newest draws of the requested wheel(s) in network order |
| Extraction.Candidate | lotto_server.c:1619 | every generator value proposes a number in 1..90 |
| Extraction.FreshSpec | lotto_server.c:1613-1629 | the reference selection is pairwise distinct, in 1..90, and contains every number the stream proposes |
| Extraction.TakeFresh | lotto_server.c:1617-1628 | the recursion keeps the numbers accepted so far equal to the reference and stops at the first point where five are found |
| Extraction.SampleSpec | lotto_server.c:1613-1629 | sampling one wheel fails exactly when the rest of the stream proposes fewer than five distinct numbers; otherwise it returns the first five distinct ones from the shortest stretch holding them |
| Extraction.SampleWheel | lotto_server.c:1613-1629 | the do-while and duplicate-scan loops compute the reference sampling |
| Extraction.DrawNumbersWellFormed | lotto_server.c:1607-1634 | every wheel of a generated draw holds five pairwise distinct numbers in 1..90 |
| Extraction.ExtractSpec | lotto_server.c:1585-1647 | a draw appends exactly one well-formed block to the log and moves every ledger's first cursor to its end, leaving records and the second cursor untouched |
| Login.SessionSymbol | lotto_server.c:271-291 | the symbol is alphanumeric, and its position in the ordered alphabet of digits, lower-case and upper-case letters is the index the generator value became |
| Login.AsWrittenSymbolLetters | lotto_server.c:271-291 | as written, the index is (value mod 26)·2 + 10, so no digit is ever produced: every symbol is a letter an even distance from 'a' or 'A', and it gives back the value mod 26 |
| Login.SymbolBijection | lotto_server.c:268-291 | with the corrected index, value mod 62 and the symbol determine each other, the bijection onto the 62 alphanumerics the comment at line 268 promises |
| Login.SessionId | lotto_server.c:263-295 | ten alphanumeric characters and a terminating NUL, under either map |
| Login.GenerateSessionId | lotto_server.c:263-295 | the loop builds that identifier |
| Login.SessionIdInjective | lotto_server.c:263-295 | two streams give the same identifier exactly when their first ten values agree modulo 26 as written, and modulo 62 with the corrected map |
| Login.SymbolMapDiffers | lotto_server.c:271-291 | the value 0 gives 'a' as written where the comment's order gives '0', and 13 gives 'A' where it gives 'd' |
| Login.AsWrittenIdsCollide | lotto_server.c:263-295 | the streams of ten 0s and of ten 26s give the same identifier as written and different ones with the corrected map |
| Login.ScanLockouts | lotto_server.c:382-436 | the newest-first scan with its early exit reports "blocked" exactly when a record for the address lies in the run of recent records at the end of the file |
| Login.BlockedAscending | lotto_server.c:402-434 | when the records are in time order, the early exit loses nothing: blocked exactly when some record for the address is within 30 minutes |
| Login.Lookup | lotto_server.c:305-338 | no match exactly when no line has the name; otherwise a line of the table pairs the name with the returned password |
| Login.SplitAtSpace | lotto_server.c:442-446 | there is no split exactly when there is no space; otherwise the text is the name, one space, and the rest, and the name holds no space |
| Login.AttemptSpec | lotto_server.c:359-495 | the blocked check comes first and changes nothing; a request without a space aborts; a name and password the table pairs are granted the session built from the generator values with the corrected symbol map (the corrected side of the session-alphabet finding), and a session is granted only then; any other credentials count one failure, answered as the third strike exactly when the new count is three or more, which is exactly when one lockout record is appended |
| Login.ThirdFailureBlocks | lotto_server.c:457-472 | after a third failure, every login from that address within the next 30 minutes is refused as blocked |
| Gate.AdmitSpec | lotto_server.c:1363-1390 | a request reaches its handler exactly when it is signup or login before login, or another request carrying the session id after login; otherwise one of the three gate errors is returned |
| Gate.HandleSound | lotto_server.c:1392-1406 | one request keeps the connection invariant; a connection becomes logged in only by a granted login; only signup or session-matching requests are dispatched |
| Gate.RunSound | lotto_server.c:1342-1406 | over any request sequence the failure counter never exceeds three, an open connection has fewer than three, and a logged-in one holds a user and an alphanumeric session id |
| Client.Split | lotto_client.c:282-316 | the number of words is the number of spaces plus one, and no word contains a space |
| Client.JoinSplit | lotto_client.c:304-312 | the words, joined with single spaces, give back the line |
| Client.SplitJoin | lotto_client.c:293-312 | splitting space-free words joined by single spaces gives back the words |
| Client.ParseCommand | lotto_client.c:282-316 | the count-then-`strsep` loops compute the reference split |
| Client.IntTokenSpec | lotto_client.c:338-352 | every number 1..90 written out is accepted, and an accepted token is non-empty and all digits |
| Client.DoubleTokenSpec | lotto_client.c:360-375 | a token is accepted exactly when it holds only digits and at most one '.', the empty token included |
| Client.CentsTextAccepted | lotto_client.c:360-375 | every amount printed with two decimals passes the decimal check |
| Client.CommandCode | lotto_client.c:243-271 | -1 exactly for words that are not command names, otherwise the code whose name it is |
| Client.ValidateArity | lotto_client.c:387-518 | a first word without '!' is refused; signup and login take exactly three words, help at most two, winnings and quit exactly one, bet listing a "0" or "1", draw listing a number and an optional wheel |
| Client.ValidateNamesCommand | lotto_client.c:384-521 | an accepted command starts with '!' followed by the name of the code returned |
| Client.TutteAfterWheelAccepted | lotto_client.c:422-436 | the validator as written accepts "-r bari tutte", which the grammar and the corrected validator refuse |
| Client.ValidatedWheelsKnown | lotto_client.c:780-806 | every bet command the corrected validator accepts builds a bet whose wheel codes are all 0..10, so the server's evaluation can read them |
| Client.TutteAfterWheelBuildsBadWheel | lotto_client.c:780-806 | the command "-r bari tutte" that the validator as written accepts builds the wheels [0, -1], and the server's evaluation of that bet reads past the draw |
| Client.BetGrammarAccepted | lotto_client.c:412-471 | every bet command built from the grammar ("tutte" alone or wheel names, 1..10 numbers, at least one amount) is accepted |
| Client.BetAcceptedGrammar | lotto_client.c:412-471 | every accepted bet command splits into sections that follow the grammar |
| Client.ClientAgreesWithServer | lotto_client.c:1315-1327 | for the commands that reach the server, the client's login-state gate allows exactly what the server's gate admits |

## Left out

- Sockets, message framing, `send`/`recv`, the accept/fork loop and the two `main` functions: I/O plumbing. A reply longer than 65535 bytes cannot be framed by the 16-bit length prefix, and that limit is not modelled.
- The SIGUSR1/SIGUSR2 pause and resume of sibling processes around a draw: concurrency.
- Floating point. Stakes are whole cents. A payout is an exact rational. `moltiplicatorePremio` is scaled to cents, with 11.23 as 1123.
- The text form of the winnings file and its printing: the model keeps a winnings record as a datatype.
- `time()`, `rand()` and the client address are parameters. Termination of the rejection sampling for an unbounded generator is not modelled: the stream is finite and may run out (`Extraction.SampleSpec`).
- File system failures, `malloc` failures and the ERRORE_INTERNO_SERVER replies they cause; the user table is a list of name/password pairs.
- `effettuaSignup` apart from its ledger header: the username check and the user-table append.
- `eseguiInviaGiocata` apart from the record it appends.
- Ledger.Submit: a record holds a decoded bet, so the model's ledger only ever stores canonical encodings. The server appends the client's text after the session id unchecked (`lotto_server.c:635`), so a hand-made request can store text that is no encoding, or that holds '|' and is later read as two records by the listing scan (`lotto_server.c:742`). Ledger.ScanRecordAt, Ledger.ReadWindow and Ledger.ListBetsSpec are stated only for ledgers of canonical records, such as the shipped client writes.
- Ledger.ServeListBets: the model starts after the message-length check (`lotto_server.c:669`), and the 32-bit header fields are unbounded record counts, so offsets beyond 2^32 do not wrap.
- Codec.Decode: C's `sscanf` leaves garbage on a failed conversion, where the model reports `Malformed`. `%i` and `atoi` overflow are not modelled. `%lf` is accepted only as digits with at most one '.' and at most two decimals, so exponent forms, signs, "inf" and "nan" are not read.
- Decimal.CentsText: `%.2lf` rounding of amounts that are not whole cents does not arise, because the model carries cents.
- Gate.Handle: the failure counter is a `nat`, not the source's `uint8_t`. `Gate.RunSound` shows it never exceeds 3, so it cannot wrap.
- Login.Attempt: a login text without a space makes `strsep` leave a null pointer that is then copied. The model answers `Aborted` and closes the connection.
- Login.Attempt: the name and the password are copied with `strcpy` into 512-byte buffers (`lotto_server.c:365,443,446`; signup likewise at `lotto_server.c:533,542,545`), and the client sends whatever its 1024-byte input line holds (`lotto_client.c:686-703`). A name or password of 512 bytes or more overflows the server's stack, which is undefined. The model compares texts of any length and answers as for any other credentials.
- Gate.SessionMatches: `strncmp` on a message shorter than the session id reads past the message, so the model treats such a message as not matching.
- Client.ValidateWith: the source reads the second word of `!invia_giocata` and `!vedi_estrazione` without checking that it exists, so the model requires it (`lotto_client.c:418,495`).
- Distinct played numbers: `validaComando` never checks them (`lotto_client.c:443-448`), and neither does the model. The intersection lemmas need no distinctness of the played numbers.
- The newline removal after `fgets` in the client's `main`: the line the splitter sees is an input.
- The client's bet builder apart from its wheel codes (`Client.BuiltWheels`), command execution and printing (`eseguiInviaGiocata` and the other `esegui*` functions of the client, `stampaAiuto`, `stampaVincite`, `getTipoDiPuntata`): UI.
- `costruisci_vincita` and `distruggi_vincita`: memory management only.
- Winnings.WheelOutcome, Winnings.EvaluateSpec, Sweep.SweepSpec: a stored wheel code whose 8-bit index is 11 or more (the -1 that "tutte" after another wheel produces becomes 255) makes the source read the draw array out of bounds (`lotto_server.c:945,958`). Its behaviour is then undefined, and the model reports `WheelOutOfRange` for the whole evaluation and sweep instead of a particular result.
- Codec.ReadIntGroup, Codec.ReadCentsGroup, Codec.Deserialize: a negative count reads as an empty group, as the source's loops do, but the source keeps the negative count in the bet, where the evaluation later uses it as an array size (`lotto_server.c:931,938,948`), which is undefined. The model's bet holds only the empty sequence.
- Codec.Serialize: the source's `sprintf` into `char buffer[2048]` is unchecked (`lotto_utility.c:62`). The model requires the text to fit, so it does not describe the overflow of an encoding of 2048 bytes or more, which the client can produce with about 495 stakes of "1" (`lotto_client.c:829-836` caps nothing).
- Client.ParseCommand, Login.SplitAtSpace: `strsep` is given the address of a single `char` as its delimiter string (`lotto_client.c:285,305`, `lotto_server.c:367,442,535,541`), which has no terminating NUL, so the delimiter set is whatever bytes follow it in memory. The model takes the set to be exactly the space.
- Sorting.Sort: the `qsort` comparator returns `*a - *b` (`lotto_server.c:198-201`), which overflows for numbers more than 2^31 apart, as a hand-written ledger record can hold. The model sorts by the mathematical order.
- Client.IntTokenOk: `atoi` of an all-digit token beyond the `int` range is undefined; with glibc "4294967301" reads as 5 and passes the 1..90 check. The model reads the exact value and refuses such a token.
- Binomial.BinomialFactors: the source's `double` quotient of the two 32-bit factors is kept as the pair of factors. Exactness is proved for up to twelve numbers (`Binomial.FactorsExact`), which covers the ten-number limit of a bet.

## Findings

| source | as written | input that shows it | evidently intended | confidence | as-written member | corrected member |
|---|---|---|---|---|---|---|
| lotto_server.c:952-1028 | wheel code 0 marks "this wheel did not win", but Bari's code is also 0, so a Bari win is counted in the header (980) and then skipped when the wheels are written (1026) | a bet on Bari alone with number 1, and a draw with 1 on Bari: the header says one winning wheel, and no wheel follows | every winning wheel is written, so the header count matches the list | not executed | Winnings.EvaluateAsWritten, Winnings.BariWinDropped, Sweep.SweepAgreesWithoutBari | Winnings.Evaluate, Winnings.EvaluateSpec, Sweep.SweepSpec |
| lotto_server.c:775-856 | the byte counter of the draw listing is a `uint16_t`; it positions each read in the reply buffer and is the length sent | a log of 284 draws listed with n = 284 and no wheel: 65604 bytes are read, but the counter ends at 68 | a counter as wide as the reply, so that every span read is sent in order | not executed | DrawLog.WalkAsWritten, DrawLog.AllWheelsListingWraps | DrawLog.Walk, DrawLog.ListDrawsSpec |
| lotto_client.c:422-436 | "tutte" is refused only when another wheel follows it, so it is accepted after other wheels | `!invia_giocata -r bari tutte -n 5 -i 1` is accepted; the client then builds a bet with wheel code -1 (`lotto_client.c:797-803`), the server stores it, and its evaluation reads the draw array at index 255 (`lotto_server.c:945,958`) | "tutte" only alone, as the comment at lines 424-425 and the help text say | not executed | Client.ValidateAsWritten, Client.TutteAfterWheelAccepted, Client.TutteAfterWheelBuildsBadWheel | Client.Validate, Client.BetGrammarAccepted, Client.BetAcceptedGrammar, Client.ValidatedWheelsKnown |
| lotto_server.c:271 | `QUANTI_CARATTERI_ALFANUMERICI` (costanti.h:46) expands without parentheses, so `rand() % QUANTI_CARATTERI_ALFANUMERICI` is `(rand() % 26) * 2 + 10`: always even and at least 10, so the digit branch never runs and only 26 letters occur | the value 0 gives 'a' (intended '0'); 13 gives 'A' (intended 'd'); ten 0s and ten 26s give the same identifier | `rand() % 62`, a bijection onto digits, lower-case and upper-case letters, as the comment at lines 268-270 says | not executed | Login.AsWrittenSymbolLetters, Login.SymbolMapDiffers, Login.AsWrittenIdsCollide | Login.SymbolBijection, Login.SessionIdInjective, Login.AttemptSpec |

=== FILE: betlist.dfy ===
/** The singly linked list of bets the server builds while reading a ledger
    (`struct schedina_list` and `inserisci_lista_schedina`). */
module BetList {

  /** A list cell holds an item and the rest of the list. */
  datatype List<T> = Nil | Cell(item: T, next: List<T>)

  /** The items of a list, front to back. */
  function Items<T>(l: List<T>): seq<T> {
    match l
    case Nil => []
    case Cell(x, rest) => [x] + Items(rest)
  }

  /** The last cell of a non-empty list. */
  function LastCell<T>(l: List<T>): (c: List<T>)
    requires l.Cell?
    ensures c.Cell? && c.next == Nil
    ensures c.item == Items(l)[|Items(l)| - 1]
  {
    if l.next == Nil then l else LastCell(l.next)
  }

  /** `inserisci_lista_schedina`: `elem` becomes the last cell of the list,
      whatever it pointed to before; every cell already in the list keeps its
      place. */
  function InsertLast<T>(l: List<T>, elem: List<T>): (r: List<T>)
    requires elem.Cell?
    ensures Items(r) == Items(l) + [elem.item]
    ensures r.Cell? && LastCell(r) == Cell(elem.item, Nil)
  {
    match l
    case Nil => Cell(elem.item, Nil)
    case Cell(x, rest) => Cell(x, InsertLast(rest, elem))
  }

  /** Building a list by repeated insertion, as the server does while reading
      the ledger, keeps the reading order. */
  function FromSeq<T>(xs: seq<T>): (l: List<T>)
    ensures Items(l) == xs
  {
    if xs == [] then Nil else InsertLast(FromSeq(xs[..|xs| - 1]), Cell(xs[|xs| - 1], Nil))
  }
}

=== FILE: binomial.dfy ===
/** The binomial coefficient as the server computes it
    (`coefficienteBinomiale`): the falling product over the factorial,
    both accumulated in 32-bit unsigned arithmetic, and -1 when k > n. */
module Binomial {
  import opened Common

  /** Reference definition: Pascal's rule. */
  function Choose(n: nat, k: nat): nat {
    if k == 0 then 1
    else if n == 0 then 0
    else Choose(n - 1, k - 1) + Choose(n - 1, k)
  }

  /** n * (n-1) * ... * (n-k+1). */
  function Falling(n: nat, k: nat): nat {
    if k == 0 then 1
    else if n == 0 then 0
    else n * Falling(n - 1, k - 1)
  }

  function Factorial(k: nat): nat {
    if k == 0 then 1 else Factorial(k - 1) * k
  }

  lemma FallingUnfold(n: nat, k: nat)
    requires n > 0 && k > 0
    ensures Falling(n, k) == n * Falling(n - 1, k - 1)
  {
  }

  lemma FactorialUnfold(k: nat)
    requires k > 0
    ensures Factorial(k) == Factorial(k - 1) * k
  {
  }

  lemma FallingZero(n: nat)
    ensures Falling(n, 0) == 1
  {
  }

  lemma MulDistrib(x: int, y: int, z: int)
    ensures (x + y) * z == x * z + y * z
  {
  }

  lemma MulAssoc(x: int, y: int, z: int)
    ensures x * (y * z) == (x * y) * z
  {
  }

  lemma FactorialPositive(k: nat)
    ensures Factorial(k) >= 1
  {
  }

  lemma {:induction false} ChooseBeyond(n: nat, k: nat)
    requires k > n
    ensures Choose(n, k) == 0
    decreases n
  {
    if n > 0 { ChooseBeyond(n - 1, k - 1); ChooseBeyond(n - 1, k); }
  }

  lemma {:induction false} FallingBeyond(n: nat, k: nat)
    requires k > n
    ensures Falling(n, k) == 0
    decreases n
  {
    if n > 0 { FallingBeyond(n - 1, k - 1); }
  }

  /** The loop's order of multiplication: the next factor is n - i. */
  lemma {:induction false} FallingStep(n: nat, i: nat)
    requires i < n
    ensures Falling(n, i + 1) == Falling(n, i) * (n - i)
    decreases i
  {
    hide *;
    if i > 0 {
      var a := Falling(n - 1, i - 1);
      FallingStep(n - 1, i - 1);
      FallingUnfold(n, i + 1);
      FallingUnfold(n, i);
      assert Falling(n - 1, i) == a * (n - i);
      assert Falling(n, i + 1) == n * (a * (n - i));
      assert Falling(n, i) == n * a;
      MulAssoc(n, a, n - i);
    } else {
      FallingUnfold(n, 1);
      FallingZero(n - 1);
      FallingZero(n);
    }
  }

  lemma FallingPascal(n: nat, k: nat)
    requires n >= 1 && k >= 1
    ensures Falling(n, k) == Falling(n - 1, k) + k * Falling(n - 1, k - 1)
  {
    hide *;
    FallingUnfold(n, k);
    if k < n {
      var f := Falling(n - 1, k - 1);
      FallingStep(n - 1, k - 1);
      assert Falling(n - 1, k) == f * (n - k);
      MulDistrib(n - k, k, f);
    } else if k == n {
      FallingBeyond(n - 1, k);
    } else {
      FallingBeyond(n, k);
      FallingBeyond(n - 1, k);
      FallingBeyond(n - 1, k - 1);
    }
  }

  /** The falling product is the binomial coefficient times k!, so the
      source's quotient is exactly C(n, k) when nothing wraps. */
  lemma {:induction false} FallingIsChooseTimesFactorial(n: nat, k: nat)
    ensures Falling(n, k) == Choose(n, k) * Factorial(k)
    decreases n
  {
    if k > 0 && n > 0 {
      FallingPascal(n, k);
      FallingIsChooseTimesFactorial(n - 1, k);
      FallingIsChooseTimesFactorial(n - 1, k - 1);
      var c1, c2, f1 := Choose(n - 1, k - 1), Choose(n - 1, k), Factorial(k - 1);
      assert Factorial(k) == f1 * k;
      MulAssoc(k, c1, f1);
      MulAssoc(c1, f1, k);
      assert k * (c1 * f1) == c1 * (f1 * k);
      assert Falling(n, k) == c2 * Factorial(k) + c1 * Factorial(k);
      assert c2 * Factorial(k) + c1 * Factorial(k) == (c1 + c2) * Factorial(k);
    }
  }

  lemma {:induction false} FallingTimesRest(n: nat, k: nat)
    requires k <= n
    ensures Falling(n, k) * Factorial(n - k) == Factorial(n)
    decreases k
  {
    hide *;
    if k > 0 {
      var a, f := Falling(n - 1, k - 1), Factorial(n - k);
      FallingTimesRest(n - 1, k - 1);
      assert a * f == Factorial(n - 1);
      FallingUnfold(n, k);
      FactorialUnfold(n);
      MulAssoc(n, a, f);
    } else {
      FallingZero(n);
    }
  }

  lemma {:induction false} FactorialMonotone(a: nat, b: nat)
    requires a <= b
    ensures Factorial(a) <= Factorial(b)
    decreases b - a
  {
    if a < b {
      FactorialMonotone(a, b - 1);
      FactorialPositive(b - 1);
      MulGrows(Factorial(b - 1), b);
    }
  }

  lemma MulGrows(x: nat, y: nat)
    requires y >= 1
    ensures x <= x * y
  {
  }

  lemma FactorialTwelve()
    ensures Factorial(12) == 479001600
  {
    assert Factorial(4) == 24;
    assert Factorial(8) == 40320;
  }

  /** `unsigned int` arithmetic: products reduced modulo 2^32. */
  lemma MulMod(a: nat, b: nat)
    ensures (a % Two32) * b % Two32 == a * b % Two32
  {
    var q := a / Two32;
    var r := a % Two32;
    assert a * b == (q * b) * Two32 + r * b;
    ModShift(q * b, r * b);
  }

  lemma ModShift(x: nat, y: nat)
    ensures (x * Two32 + y) % Two32 == y % Two32
  {
  }

  lemma SmallMod(x: nat)
    requires x < Two32
    ensures x % Two32 == x
  {
  }

  /** `coefficienteBinomiale` as written: -1 (here `None`) when k > n,
      otherwise the two products accumulated in 32-bit unsigned arithmetic;
      the returned value is their quotient. */
  method BinomialFactors(n: nat, k: nat) returns (r: Option<(nat, nat)>)
    requires n < Two32 && k < Two32
    ensures r.None? <==> k > n
    ensures r.Some? ==> r.value == (Falling(n, k) % Two32, Factorial(k) % Two32)
  {
    if k > n { return None; }
    var above: nat, below: nat := 1, 1;
    var i: nat := 0;
    while i < k
      invariant i <= k
      invariant above == Falling(n, i) % Two32
      invariant below == Factorial(i) % Two32
    {
      FallingStep(n, i);
      MulMod(Falling(n, i), n - i);
      MulMod(Factorial(i), i + 1);
      above := above * (n - i) % Two32;
      below := below * (i + 1) % Two32;
      i := i + 1;
    }
    r := Some((above, below));
  }

  /** The factors the method returns, as a function. */
  function Factors(n: nat, k: nat): Option<(nat, nat)> {
    if k > n then None else Some((Falling(n, k) % Two32, Factorial(k) % Two32))
  }

  /** Up to twelve numbers nothing wraps, and the quotient of the two factors
      is exactly C(n, k); beyond n the source's -1 stands where C(n, k) = 0. */
  lemma FactorsExact(n: nat, k: nat)
    requires n <= 12
    ensures k > n ==> Factors(n, k).None? && Choose(n, k) == 0
    ensures k <= n ==> Factors(n, k) == Some((Falling(n, k), Factorial(k)))
    ensures k <= n ==> Falling(n, k) == Choose(n, k) * Factorial(k) && Factorial(k) >= 1
  {
    if k > n {
      ChooseBeyond(n, k);
    } else {
      FallingTimesRest(n, k);
      FactorialPositive(n - k);
      MulGrows(Falling(n, k), Factorial(n - k));
      FactorialMonotone(n, 12);
      FactorialMonotone(k, 12);
      FactorialTwelve();
      assert Falling(n, k) < Two32 && Factorial(k) < Two32;
      SmallMod(Falling(n, k));
      SmallMod(Factorial(k));
      FactorialPositive(k);
      FallingIsChooseTimesFactorial(n, k);
    }
  }
}

=== FILE: client.dfy ===
/** The client's command line (`lotto_client.c`): splitting a line into
    words (`parseComando`), the token checks (`controllaAsciiInt`,
    `controllaAsciiDouble`, `controllaRuota`), the command grammar
    (`validaComando`), the command names (`convertiComandoStringToInt`) and
    which commands the login state allows. */
module Client {
  import opened Common
  import opened Constants
  import opened Decimal
  import Wheels
  import Gate
  import Codec
  import Winnings

  /** Command codes. */
  const CmdHelp: int := 0
  const CmdSignup: int := 1
  const CmdLogin: int := 2
  const CmdSubmitBet: int := 3
  const CmdListBets: int := 4
  const CmdListDraws: int := 5
  const CmdListWinnings: int := 6
  const CmdQuit: int := 7

  /** The command names, indexed by code. */
  const CommandNames: seq<string> := ["help", "signup", "login", "invia_giocata", "vedi_giocate",
                                      "vedi_estrazione", "vedi_vincite", "esci"]

  // ------------------------------------------------------- splitting a line

  function Spaces(s: string): nat {
    if s == [] then 0 else (if s[0] == ' ' then 1 else 0) + Spaces(s[1..])
  }

  /** The words of a line: the pieces between single spaces, so that two
      adjacent spaces give an empty word. */
  function Split(s: string): (words: seq<string>)
    ensures |words| == Spaces(s) + 1
    ensures forall i :: 0 <= i < |words| ==> ' ' !in words[i]
  {
    if s == [] then [""]
    else
      var rest := Split(s[1..]);
      if s[0] == ' ' then [""] + rest
      else
        assert forall i :: 1 <= i < |rest| ==> rest[1..][i - 1] == rest[i];
        [[s[0]] + rest[0]] + rest[1..]
  }

  /** The inverse: the words put back together with one space between. */
  function Join(words: seq<string>): string
    requires |words| >= 1
  {
    if |words| == 1 then words[0] else words[0] + " " + Join(words[1..])
  }

  lemma {:induction false} JoinSplit(s: string)
    ensures Join(Split(s)) == s
    decreases |s|
  {
    if s != [] {
      JoinSplit(s[1..]);
      var rest := Split(s[1..]);
      if s[0] != ' ' {
        if |rest| == 1 {
          assert Join(Split(s)) == [s[0]] + rest[0];
        } else {
          assert Join(Split(s)) == ([s[0]] + rest[0]) + " " + Join(rest[1..]);
        }
      }
    }
  }

  lemma {:induction false} SplitJoin(words: seq<string>)
    requires |words| >= 1
    requires forall i :: 0 <= i < |words| ==> ' ' !in words[i]
    ensures Split(Join(words)) == words
    decreases |words|, |words[0]|
  {
    var w := words[0];
    if w == [] {
      if |words| > 1 {
        SplitJoin(words[1..]);
        assert Join(words) == " " + Join(words[1..]);
        assert (" " + Join(words[1..]))[1..] == Join(words[1..]);
      }
    } else {
      var words' := [w[1..]] + words[1..];
      assert words'[1..] == words[1..];
      SplitJoin(words');
      assert Join(words) == [w[0]] + Join(words') by {
        if |words| == 1 {
          assert w == [w[0]] + w[1..];
        } else {
          assert w == [w[0]] + w[1..];
          assert Join(words') == w[1..] + " " + Join(words[1..]);
        }
      }
      assert (Join(words))[1..] == Join(words');
      assert [w[0]] + w[1..] == w;
    }
  }

  /** `parseComando`: count the spaces, then cut one word per `strsep`. */
  method ParseCommand(line: string) returns (words: seq<string>)
    ensures words == Split(line)
  {
    hide Split, Spaces, FirstSpace;
    var count := 1;
    var i := 0;
    SpacesNone(line[..0]);
    while i < |line|
      invariant i <= |line|
      invariant count == Spaces(line[..i]) + 1
    {
      SpacesAppend(line[..i], line[i]);
      assert line[..i + 1] == line[..i] + [line[i]];
      if line[i] == ' ' {
        count := count + 1;
      }
      i := i + 1;
    }
    assert line[..|line|] == line;
    words := [];
    var rest := line;
    var k := 0;
    while k < count
      invariant k <= count && |words| == k
      invariant k < count ==> count - k == Spaces(rest) + 1 && words + Split(rest) == Split(line)
      invariant k == count ==> words == Split(line)
    {
      var cut := FirstSpace(rest);
      CutSpec(rest);
      if cut == |rest| {
        words := words + [rest];
        rest := [];
      } else {
        words := words + [rest[..cut]];
        rest := rest[cut + 1..];
      }
      k := k + 1;
    }
  }

  /** One `strsep` cut: the first word, and the spaces left after it. */
  lemma CutSpec(s: string)
    ensures FirstSpace(s) == |s| ==> Split(s) == [s] && Spaces(s) == 0
    ensures FirstSpace(s) < |s| ==>
              Split(s) == [s[..FirstSpace(s)]] + Split(s[FirstSpace(s) + 1..])
              && Spaces(s) == Spaces(s[FirstSpace(s) + 1..]) + 1
  {
    hide *;
    var cut := FirstSpace(s);
    if cut == |s| {
      assert ' ' !in s by {
        forall k | 0 <= k < |s| ensures s[k] != ' ' { }
      }
      SplitWithoutSpace(s);
      SpacesNone(s);
    } else {
      SplitAtCut(s, cut);
    }
  }

  lemma SpacesNone(s: string)
    requires ' ' !in s
    ensures Spaces(s) == 0
  {
  }

  lemma SpacesAppend(s: string, c: char)
    ensures Spaces(s + [c]) == Spaces(s) + (if c == ' ' then 1 else 0)
  {
    if s != [] {
      assert (s + [c])[1..] == s[1..] + [c];
      SpacesAppend(s[1..], c);
    }
  }

  /** Index of the first space, or the length. */
  function FirstSpace(s: string): (r: nat)
    ensures r <= |s|
    ensures forall k :: 0 <= k < r ==> s[k] != ' '
    ensures r < |s| ==> s[r] == ' '
  {
    if s == [] || s[0] == ' ' then 0 else 1 + FirstSpace(s[1..])
  }

  lemma SplitWithoutSpace(s: string)
    requires ' ' !in s
    ensures Split(s) == [s]
  {
    if s != [] {
      assert forall k :: 0 <= k < |s| - 1 ==> s[1..][k] == s[k + 1];
      SplitWithoutSpace(s[1..]);
      assert [s[0]] + s[1..] == s;
    }
  }

  lemma SplitAtCut(s: string, cut: nat)
    requires cut < |s| && s[cut] == ' '
    requires forall k :: 0 <= k < cut ==> s[k] != ' '
    ensures Split(s) == [s[..cut]] + Split(s[cut + 1..])
    ensures Spaces(s) == Spaces(s[cut + 1..]) + 1
  {
    if cut > 0 {
      SplitAtCut(s[1..], cut - 1);
      assert s[1..][cut..] == s[cut + 1..];
      assert [s[0]] + s[1..][..cut - 1] == s[..cut];
    }
  }

  // ------------------------------------------------------------ token checks

  predicate AllDigits(w: string) {
    forall k :: 0 <= k < |w| ==> IsDigit(w[k])
  }

  /** `controllaAsciiInt`: only digits, and `atoi` of it in 1..90 (`atoi`
      of the empty string is 0). */
  predicate IntTokenOk(w: string) {
    AllDigits(w) && 1 <= Value(w, 10) <= HighestNumber
  }

  /** `controllaAsciiDouble`'s loop: the first '.' is skipped, every other
      character must be a digit. */
  function DoubleScan(w: string, seenDot: bool): bool {
    if w == [] then true
    else if !seenDot && w[0] == '.' then DoubleScan(w[1..], true)
    else IsDigit(w[0]) && DoubleScan(w[1..], seenDot)
  }

  predicate DoubleTokenOk(w: string) {
    DoubleScan(w, false)
  }

  function Dots(w: string): nat {
    if w == [] then 0 else (if w[0] == '.' then 1 else 0) + Dots(w[1..])
  }

  lemma {:induction false} DoubleScanSpec(w: string, seenDot: bool)
    ensures DoubleScan(w, seenDot) <==>
            (forall k :: 0 <= k < |w| ==> IsDigit(w[k]) || w[k] == '.')
            && Dots(w) <= (if seenDot then 0 else 1)
    decreases |w|
  {
    if w != [] {
      DoubleScanSpec(w[1..], seenDot || w[0] == '.');
      DoubleScanSpec(w[1..], seenDot);
      assert forall k :: 1 <= k < |w| ==> w[k] == w[1..][k - 1];
    }
  }

  /** A decimal token is accepted exactly when it holds only digits and at
      most one '.', the empty token included. */
  lemma DoubleTokenSpec(w: string)
    ensures DoubleTokenOk(w) <==> (forall k :: 0 <= k < |w| ==> IsDigit(w[k]) || w[k] == '.') && Dots(w) <= 1
    ensures DoubleTokenOk("")
  {
    DoubleScanSpec(w, false);
  }

  lemma {:induction false} DotsOfDigits(w: string)
    requires AllDigits(w)
    ensures Dots(w) == 0
    decreases |w|
  {
    if w != [] {
      assert AllDigits(w[1..]) by {
        assert forall k :: 1 <= k < |w| ==> w[1..][k - 1] == w[k];
      }
      DotsOfDigits(w[1..]);
    }
  }

  lemma DotsAppend(a: string, b: string)
    ensures Dots(a + b) == Dots(a) + Dots(b)
  {
    if a == [] {
      assert a + b == b;
    } else {
      assert (a + b)[0] == a[0];
      assert (a + b)[1..] == a[1..] + b;
      DotsAppend(a[1..], b);
    }
  }

  /** Every amount the client prints with two decimals passes the check. */
  lemma CentsTextAccepted(cents: nat)
    ensures DoubleTokenOk(CentsText(cents))
  {
    var whole := NatText(cents / 100);
    var frac := [DigitChar(cents % 100 / 10), DigitChar(cents % 10)];
    DotsOfDigits(whole);
    DotsOfDigits(frac);
    DotsAppend(whole, ".");
    DotsAppend(whole + ".", frac);
    assert CentsText(cents) == whole + "." + frac;
    DoubleTokenSpec(CentsText(cents));
  }

  /** Every number the game draws, written out, passes the integer check,
      and no other all-digit value does. */
  lemma IntTokenSpec(w: string, n: nat)
    ensures 1 <= n <= HighestNumber ==> IntTokenOk(NatText(n))
    ensures IntTokenOk(w) ==> w != "" && AllDigits(w)
    ensures !IntTokenOk("")
  {
    NatTextValue(n);
  }

  /** `controllaRuota`: one of the eleven wheel names. */
  predicate IsWheelName(w: string) {
    w in Wheels.Names
  }

  // ---------------------------------------------------------- command names

  /** `convertiComandoStringToInt`: the code of a command name, -1 for any
      other word. */
  function CommandCode(name: string): (code: int)
    ensures -1 <= code < |CommandNames|
    ensures code >= 0 ==> CommandNames[code] == name
    ensures code == -1 <==> name !in CommandNames
  {
    CommandFrom(name, 0)
  }

  function CommandFrom(name: string, k: nat): (code: int)
    requires k <= |CommandNames|
    ensures code == -1 || k <= code < |CommandNames|
    ensures code >= 0 ==> CommandNames[code] == name
    ensures code == -1 <==> forall j :: k <= j < |CommandNames| ==> CommandNames[j] != name
    decreases |CommandNames| - k
  {
    if k == |CommandNames| then -1
    else if CommandNames[k] == name then k
    else CommandFrom(name, k + 1)
  }

  // ------------------------------------------------------- the bet command

  /** The wheel section of `!invia_giocata`, from word k: the index of the
      "-n" that ends it (or the number of words), or nothing when a word is
      rejected.  `tutte` means "all wheels" and no wheel may follow it; with
      `strict`, it must also come first. */
  function WheelSection(words: seq<string>, k: nat, tutte: bool, strict: bool): (r: Option<nat>)
    requires 2 <= k <= |words|
    ensures r.Some? ==> k <= r.value <= |words|
    decreases |words| - k
  {
    if k == |words| || words[k] == "-n" then Some(k)
    else if tutte then None
    else if words[k] == "tutte" then
      if strict && k > 2 then None else WheelSection(words, k + 1, true, strict)
    else if !IsWheelName(words[k]) then None
    else WheelSection(words, k + 1, false, strict)
  }

  /** The numbers section, from word k: the index of the "-i" that ends it
      (or the number of words), or nothing when a word is not a number
      from 1 to 90. */
  function NumberSection(words: seq<string>, k: nat): (r: Option<nat>)
    requires k <= |words|
    ensures r.Some? ==> k <= r.value <= |words|
    decreases |words| - k
  {
    if k == |words| || words[k] == "-i" then Some(k)
    else if !IntTokenOk(words[k]) then None
    else NumberSection(words, k + 1)
  }

  /** Every remaining word from k is an amount. */
  predicate AmountsOk(words: seq<string>, k: nat) {
    forall j :: k <= j < |words| ==> DoubleTokenOk(words[j])
  }

  /** `!invia_giocata -r <wheels> -n <numbers> -i <amounts>`: at least one
      wheel word, one to ten numbers and at least one amount. */
  predicate BetCommandOk(words: seq<string>, strict: bool)
    requires |words| >= 2
  {
    && words[1] == "-r"
    && match WheelSection(words, 2, false, strict)
       case None => false
       case Some(e) =>
         && e > 2
         && var numbers := e + 1;
            if numbers > |words| then false
            else
              match NumberSection(words, numbers)
              case None => false
              case Some(f) =>
                && 1 <= f - numbers <= MaxNumbersPerBet
                && f + 1 < |words|
                && AmountsOk(words, f + 1)
  }

  /** The words of a bet command built from its three sections. */
  function BetWords(wheels: seq<string>, numbers: seq<string>, amounts: seq<string>): seq<string> {
    ["!invia_giocata", "-r"] + wheels + ["-n"] + numbers + ["-i"] + amounts
  }

  /** The grammar the help text and the validator's comments describe:
      either `tutte` alone or one or more wheel names, one to ten numbers
      from 1 to 90, and one or more amounts. */
  predicate BetGrammar(wheels: seq<string>, numbers: seq<string>, amounts: seq<string>) {
    && (wheels == ["tutte"] || (|wheels| >= 1 && forall i :: 0 <= i < |wheels| ==> IsWheelName(wheels[i])))
    && 1 <= |numbers| <= MaxNumbersPerBet
    && (forall i :: 0 <= i < |numbers| ==> IntTokenOk(numbers[i]))
    && |amounts| >= 1
    && forall i :: 0 <= i < |amounts| ==> DoubleTokenOk(amounts[i])
  }

  // --------------------------------------------------------- the validator

  /** `validaComando` with the wheel rule as given by `strict`: the code of
      a well-formed command, -1 otherwise.  The source reads the second word
      of `!invia_giocata` and `!vedi_estrazione` without checking that it
      exists, so those commands need one. */
  function ValidateWith(words: seq<string>, strict: bool): (code: int)
    requires |words| >= 1
    requires words[0] in {"!invia_giocata", "!vedi_estrazione"} ==> |words| >= 2
  {
    var head := words[0];
    if head == [] || head[0] != '!' then -1
    else if head == "!help" then (if |words| > 2 then -1 else CmdHelp)
    else if head == "!signup" then (if |words| != 3 then -1 else CmdSignup)
    else if head == "!login" then (if |words| != 3 then -1 else CmdLogin)
    else if head == "!invia_giocata" then (if BetCommandOk(words, strict) then CmdSubmitBet else -1)
    else if head == "!vedi_giocate" then
      (if |words| != 2 || words[1] !in {"0", "1"} then -1 else CmdListBets)
    else if head == "!vedi_estrazione" then
      (if |words| > 3 || !IntTokenOk(words[1]) || (|words| == 3 && !IsWheelName(words[2])) then -1
       else CmdListDraws)
    else if head == "!vedi_vincite" then (if |words| != 1 then -1 else CmdListWinnings)
    else if head == "!esci" then (if |words| != 1 then -1 else CmdQuit)
    else -1
  }

  /** `validaComando` as written: `tutte` is refused only when a wheel
      follows it. */
  function ValidateAsWritten(words: seq<string>): int
    requires |words| >= 1
    requires words[0] in {"!invia_giocata", "!vedi_estrazione"} ==> |words| >= 2
  {
    ValidateWith(words, false)
  }

  /** `validaComando` with `tutte` allowed only alone. */
  function Validate(words: seq<string>): int
    requires |words| >= 1
    requires words[0] in {"!invia_giocata", "!vedi_estrazione"} ==> |words| >= 2
  {
    ValidateWith(words, true)
  }

  /** A bet command is validated by the bet rule alone. */
  lemma ValidateBet(words: seq<string>, strict: bool)
    requires |words| >= 2 && words[0] == "!invia_giocata"
    ensures ValidateWith(words, strict) == if BetCommandOk(words, strict) then CmdSubmitBet else -1
  {
  }

  /** The markers and "tutte" are not wheel names. */
  lemma NotWheelNames()
    ensures !IsWheelName("-n") && !IsWheelName("-i") && !IsWheelName("tutte")
    ensures IsWheelName("bari")
  {
    assert Wheels.Names[0] == "bari";
  }

  /** The validator as written takes "tutte" after another wheel, which the
      grammar does not allow. */
  lemma TutteAfterWheelAccepted()
    ensures var words := ["!invia_giocata", "-r", "bari", "tutte", "-n", "5", "-i", "1"];
            ValidateAsWritten(words) == CmdSubmitBet && Validate(words) == -1
            && forall wheels, numbers, amounts :: BetWords(wheels, numbers, amounts) == words ==>
                 !BetGrammar(wheels, numbers, amounts)
  {
    var words := ["!invia_giocata", "-r", "bari", "tutte", "-n", "5", "-i", "1"];
    NotWheelNames();
    assert IntTokenOk("5") by { assert Value("5", 10) == 5; }
    assert DoubleTokenOk("1");
    AsWrittenTakesTutteLate(words);
    assert WheelSection(words, 3, false, true) == None;
    assert WheelSection(words, 2, false, true) == None;
    forall wheels, numbers, amounts | BetWords(wheels, numbers, amounts) == words
      ensures !BetGrammar(wheels, numbers, amounts)
    {
      BetWordsShape(wheels, numbers, amounts);
    }
  }

  lemma AsWrittenTakesTutteLate(words: seq<string>)
    requires words == ["!invia_giocata", "-r", "bari", "tutte", "-n", "5", "-i", "1"]
    requires IsWheelName("bari") && IntTokenOk("5") && DoubleTokenOk("1")
    ensures ValidateAsWritten(words) == CmdSubmitBet
  {
    hide IntTokenOk, DoubleTokenOk, IsWheelName;
    assert WheelSection(words, 4, true, false) == Some(4);
    assert WheelSection(words, 3, false, false) == Some(4);
    assert WheelSection(words, 2, false, false) == Some(4);
    assert NumberSection(words, 6) == Some(6);
    assert NumberSection(words, 5) == Some(6);
    assert AmountsOk(words, 7);
  }

  // ------------------------------------------------------ the bet builder

  /** The wheel codes `eseguiInviaGiocata` stores for the words from k up to
      the "-n": `convertiRuotaStringToInt` of each. */
  function WheelCodes(words: seq<string>, k: nat): (codes: seq<int>)
    requires k <= |words|
    ensures k + |codes| <= |words|
    decreases |words| - k
  {
    if k == |words| || words[k] == "-n" then [] else [Wheels.CodeOf(words[k])] + WheelCodes(words, k + 1)
  }

  /** The wheels of the bet the client builds from a validated command: all
      eleven codes for "tutte" in first position, otherwise the code of each
      word of the wheel section. */
  function BuiltWheels(words: seq<string>): (codes: seq<int>)
    requires |words| >= 2
  {
    if |words| > 2 && words[2] == "tutte" then seq(WheelCount, i => i)
    else WheelCodes(words, 2)
  }

  lemma {:induction false} StrictSectionCodes(words: seq<string>, k: nat)
    requires 2 <= k <= |words|
    requires WheelSection(words, k, false, true).Some?
    requires k == 2 && k < |words| ==> words[k] != "tutte"
    ensures forall i :: 0 <= i < |WheelCodes(words, k)| ==> Wheels.IsWheel(WheelCodes(words, k)[i])
    decreases |words| - k
  {
    if k < |words| && words[k] != "-n" {
      assert IsWheelName(words[k]);
      StrictSectionCodes(words, k + 1);
      assert WheelCodes(words, k) == [Wheels.CodeOf(words[k])] + WheelCodes(words, k + 1);
    }
  }

  /** Every bet command the intended validator accepts builds a bet whose
      wheels are all wheel codes, so the server's evaluation can read them. */
  lemma ValidatedWheelsKnown(words: seq<string>, numbers: seq<int>, stakes: seq<nat>)
    requires |words| >= 2 && words[0] == "!invia_giocata"
    requires Validate(words) == CmdSubmitBet
    ensures forall i :: 0 <= i < |BuiltWheels(words)| ==> Wheels.IsWheel(BuiltWheels(words)[i])
    ensures Winnings.CoversKnownWheels(Codec.Bet(BuiltWheels(words), numbers, stakes))
  {
    ValidateBet(words, true);
    if !(|words| > 2 && words[2] == "tutte") {
      StrictSectionCodes(words, 2);
    }
    var b := Codec.Bet(BuiltWheels(words), numbers, stakes);
    forall i | 0 <= i < |b.wheels| ensures Winnings.WheelIndex(b.wheels[i]) < WheelCount {
      assert Wheels.IsWheel(b.wheels[i]);
    }
  }

  /** The command that the validator as written lets through builds a bet
      with the wheels Bari and -1; the server reads the -1 as wheel index
      255, past the draw, whatever the numbers and stakes. */
  lemma TutteAfterWheelBuildsBadWheel(numbers: seq<int>, stakes: seq<nat>, drawn: seq<seq<int>>, ts: int)
    requires |drawn| == WheelCount
    requires forall w :: 0 <= w < |drawn| ==> |drawn[w]| == DrawnPerWheel
    ensures var words := ["!invia_giocata", "-r", "bari", "tutte", "-n", "5", "-i", "1"];
            var b := Codec.Bet(BuiltWheels(words), numbers, stakes);
            && ValidateAsWritten(words) == CmdSubmitBet
            && BuiltWheels(words) == [Bari, -1]
            && !Winnings.CoversKnownWheels(b)
            && Winnings.EvaluateAsWritten(b, drawn, ts) == Err(WheelOutOfRange)
  {
    hide *;
    var words := ["!invia_giocata", "-r", "bari", "tutte", "-n", "5", "-i", "1"];
    TutteAfterWheelAccepted();
    BuiltWheelsTutteLate(words);
    var b := Codec.Bet(BuiltWheels(words), numbers, stakes);
    assert -1 in b.wheels;
    Winnings.TutteCodeOutOfRange(b, drawn, ts);
  }

  lemma BuiltWheelsTutteLate(words: seq<string>)
    requires words == ["!invia_giocata", "-r", "bari", "tutte", "-n", "5", "-i", "1"]
    ensures BuiltWheels(words) == [Bari, -1]
  {
    hide WheelCodes, BuiltWheels, Wheels.CodeOf;
    assert words[2] == "bari" && words[3] == "tutte" && words[4] == "-n";
    assert words[2] != "tutte" && words[2] != "-n" && words[3] != "-n" by {
      assert words[2][0] != "tutte"[0] && words[2][0] != "-n"[0] && words[3][0] != "-n"[0];
    }
    WheelCodesStep(words, 2);
    WheelCodesStep(words, 3);
    WheelCodesStep(words, 4);
    Wheels.CodeAt(0);
    assert Wheels.Names[0] == "bari";
    assert "tutte" !in Wheels.Names by { NotWheelNames(); }
    BuiltWheelsStep(words);
  }

  lemma WheelCodesStep(words: seq<string>, k: nat)
    requires k < |words|
    ensures words[k] == "-n" ==> WheelCodes(words, k) == []
    ensures words[k] != "-n" ==> WheelCodes(words, k) == [Wheels.CodeOf(words[k])] + WheelCodes(words, k + 1)
  {
    hide Wheels.CodeOf;
  }

  lemma BuiltWheelsStep(words: seq<string>)
    requires |words| > 2 && words[2] != "tutte"
    ensures BuiltWheels(words) == WheelCodes(words, 2)
  {
    hide WheelCodes;
  }


  lemma BetWordsShape(wheels: seq<string>, numbers: seq<string>, amounts: seq<string>)
    ensures var w := BetWords(wheels, numbers, amounts);
            && |w| == |wheels| + |numbers| + |amounts| + 4
            && w[0] == "!invia_giocata" && w[1] == "-r"
            && (forall i :: 0 <= i < |wheels| ==> w[2 + i] == wheels[i])
            && w[2 + |wheels|] == "-n"
            && (forall i :: 0 <= i < |numbers| ==> w[3 + |wheels| + i] == numbers[i])
            && w[3 + |wheels| + |numbers|] == "-i"
            && (forall i :: 0 <= i < |amounts| ==> w[4 + |wheels| + |numbers| + i] == amounts[i])
  {
  }

  lemma {:induction false} WheelSectionOfGrammar(words: seq<string>, wheels: seq<string>, k: nat, tutte: bool)
    requires 2 <= k <= 2 + |wheels| < |words|
    requires forall i :: 0 <= i < |wheels| ==> words[2 + i] == wheels[i]
    requires words[2 + |wheels|] == "-n"
    requires wheels == ["tutte"] || (|wheels| >= 1 && forall i :: 0 <= i < |wheels| ==> IsWheelName(wheels[i]))
    requires tutte ==> k == 2 + |wheels|
    ensures WheelSection(words, k, tutte, true) == Some(2 + |wheels|)
    decreases |words| - k
  {
    if k < 2 + |wheels| {
      assert words[k] == wheels[k - 2];
      NotWheelNames();
      assert words[k] != "-n" by {
        if wheels != ["tutte"] { assert IsWheelName(words[k]); }
      }
      if words[k] == "tutte" {
        assert wheels == ["tutte"];
        WheelSectionOfGrammar(words, wheels, k + 1, true);
      } else {
        assert IsWheelName(words[k]) by {
          if wheels == ["tutte"] { assert false; }
        }
        WheelSectionOfGrammar(words, wheels, k + 1, false);
      }
    }
  }

  lemma {:induction false} NumberSectionOfGrammar(words: seq<string>, start: nat, numbers: seq<string>, k: nat)
    requires start <= k <= start + |numbers| < |words|
    requires forall i :: 0 <= i < |numbers| ==> words[start + i] == numbers[i] && IntTokenOk(numbers[i])
    requires words[start + |numbers|] == "-i"
    ensures NumberSection(words, k) == Some(start + |numbers|)
    decreases |words| - k
  {
    if k < start + |numbers| {
      assert words[k] == numbers[k - start];
      assert IntTokenOk(words[k]);
      assert words[k] != "-i" by { assert !IsDigit('-'); }
      NumberSectionOfGrammar(words, start, numbers, k + 1);
    }
  }

  /** Completeness: every command built from the grammar is accepted. */
  lemma BetGrammarAccepted(wheels: seq<string>, numbers: seq<string>, amounts: seq<string>)
    requires BetGrammar(wheels, numbers, amounts)
    ensures Validate(BetWords(wheels, numbers, amounts)) == CmdSubmitBet
  {
    hide WheelSection, NumberSection, IntTokenOk, DoubleTokenOk, IsWheelName, BetWords, ValidateWith;
    var words := BetWords(wheels, numbers, amounts);
    BetWordsShape(wheels, numbers, amounts);
    NotWheelNames();
    WheelSectionOfGrammar(words, wheels, 2, false);
    NumberSectionOfGrammar(words, 3 + |wheels|, numbers, 3 + |wheels|);
    ValidateBet(words, true);
    assert AmountsOk(words, 4 + |wheels| + |numbers|) by {
      forall j | 4 + |wheels| + |numbers| <= j < |words|
        ensures DoubleTokenOk(words[j])
      {
        assert words[j] == amounts[j - (4 + |wheels| + |numbers|)];
      }
    }
    assert BetCommandOk(words, true);
  }

  lemma {:induction false} WheelSectionSound(words: seq<string>, k: nat, tutte: bool)
    requires 2 <= k <= |words|
    requires WheelSection(words, k, tutte, true).Some?
    requires tutte ==> k == 3 && words[2] == "tutte"
    requires !tutte ==> forall j :: 2 <= j < k ==> IsWheelName(words[j])
    ensures var e := WheelSection(words, k, tutte, true).value;
            && (e == |words| || words[e] == "-n")
            && (forall j :: k <= j < e ==> words[j] != "-n")
            && ((e == 3 && words[2] == "tutte") || forall j :: 2 <= j < e ==> IsWheelName(words[j]))
    decreases |words| - k
  {
    if k < |words| && words[k] != "-n" {
      if words[k] == "tutte" {
        WheelSectionSound(words, k + 1, true);
      } else {
        WheelSectionSound(words, k + 1, false);
      }
    }
  }

  lemma {:induction false} NumberSectionSound(words: seq<string>, k: nat)
    requires k <= |words|
    requires NumberSection(words, k).Some?
    ensures var f := NumberSection(words, k).value;
            && (f == |words| || words[f] == "-i")
            && forall j :: k <= j < f ==> IntTokenOk(words[j])
    decreases |words| - k
  {
    if k < |words| && words[k] != "-i" {
      NumberSectionSound(words, k + 1);
    }
  }

  /** Soundness: an accepted bet command splits into sections that follow
      the grammar. */
  lemma BetAcceptedGrammar(words: seq<string>)
    requires |words| >= 2 && words[0] == "!invia_giocata"
    requires Validate(words) == CmdSubmitBet
    ensures exists wheels, numbers, amounts ::
              BetWords(wheels, numbers, amounts) == words && BetGrammar(wheels, numbers, amounts)
  {
    assert BetCommandOk(words, true);
    var e := WheelSection(words, 2, false, true).value;
    WheelSectionSound(words, 2, false);
    assert e + 1 <= |words|;
    var f := NumberSection(words, e + 1).value;
    NumberSectionSound(words, e + 1);
    SectionsFollowGrammar(words, e, f);
  }

  lemma SectionsFollowGrammar(words: seq<string>, e: nat, f: nat)
    requires 2 < e < f < |words| - 1
    requires words[0] == "!invia_giocata" && words[1] == "-r" && words[e] == "-n" && words[f] == "-i"
    requires (e == 3 && words[2] == "tutte") || forall j :: 2 <= j < e ==> IsWheelName(words[j])
    requires 1 <= f - (e + 1) <= MaxNumbersPerBet
    requires forall j :: e + 1 <= j < f ==> IntTokenOk(words[j])
    requires AmountsOk(words, f + 1)
    ensures BetWords(words[2..e], words[e + 1..f], words[f + 1..]) == words
    ensures BetGrammar(words[2..e], words[e + 1..f], words[f + 1..])
  {
    SectionsJoin(words, e, f);
    SectionsGrammar(words, e, f);
  }

  lemma SectionsJoin(words: seq<string>, e: nat, f: nat)
    requires 2 < e < f < |words| - 1
    requires words[0] == "!invia_giocata" && words[1] == "-r" && words[e] == "-n" && words[f] == "-i"
    ensures BetWords(words[2..e], words[e + 1..f], words[f + 1..]) == words
  {
    assert words[..2] == ["!invia_giocata", "-r"];
    assert words[f..] == [words[f]] + words[f + 1..];
    assert words[e + 1..] == words[e + 1..f] + words[f..];
    assert words[e..] == [words[e]] + words[e + 1..];
    assert words[..e] == words[..2] + words[2..e];
    assert words == words[..e] + words[e..];
  }

  lemma SectionsGrammar(words: seq<string>, e: nat, f: nat)
    requires 2 < e < f < |words| - 1
    requires (e == 3 && words[2] == "tutte") || forall j :: 2 <= j < e ==> IsWheelName(words[j])
    requires 1 <= f - (e + 1) <= MaxNumbersPerBet
    requires forall j :: e + 1 <= j < f ==> IntTokenOk(words[j])
    requires AmountsOk(words, f + 1)
    ensures BetGrammar(words[2..e], words[e + 1..f], words[f + 1..])
  {
    hide IntTokenOk, DoubleTokenOk, IsWheelName;
    var wheels, numbers, amounts := words[2..e], words[e + 1..f], words[f + 1..];
    assert forall i :: 0 <= i < |numbers| ==> IntTokenOk(numbers[i]) by {
      forall i | 0 <= i < |numbers| ensures IntTokenOk(numbers[i]) {
        assert numbers[i] == words[e + 1 + i];
      }
    }
    assert forall i :: 0 <= i < |amounts| ==> DoubleTokenOk(amounts[i]) by {
      forall i | 0 <= i < |amounts| ensures DoubleTokenOk(amounts[i]) {
        assert amounts[i] == words[f + 1 + i];
      }
    }
    if e == 3 && words[2] == "tutte" {
      assert wheels == ["tutte"];
    } else {
      assert forall i :: 0 <= i < |wheels| ==> IsWheelName(wheels[i]) by {
        forall i | 0 <= i < |wheels| ensures IsWheelName(wheels[i]) {
          assert wheels[i] == words[2 + i];
        }
      }
    }
  }

  /** Whatever the validator accepts starts with '!' and the command name of
      the code it returns. */
  lemma ValidateNamesCommand(words: seq<string>)
    requires |words| >= 1
    requires words[0] in {"!invia_giocata", "!vedi_estrazione"} ==> |words| >= 2
    ensures var code := Validate(words);
            code != -1 ==> |words[0]| >= 1 && words[0][0] == '!' && CommandCode(words[0][1..]) == code
  {
    var code := Validate(words);
    if code != -1 {
      var name := words[0][1..];
      assert words[0] == "!" + name;
      assert name == CommandNames[code];
      assert CommandCode(name) == code by {
        assert forall i, j :: 0 <= i < j < |CommandNames| ==> CommandNames[i] != CommandNames[j];
      }
    }
  }

  /** The word counts and arguments of the commands other than the bet:
      a first word without '!' is refused; `!signup` and `!login` take
      exactly two arguments, `!help` at most one, `!vedi_vincite` and
      `!esci` none; `!vedi_giocate` takes "0" or "1"; `!vedi_estrazione`
      takes a number from 1 to 90 and optionally a wheel name.  The two
      validators differ only on bets. */
  lemma ValidateArity(words: seq<string>)
    requires |words| >= 1
    requires words[0] in {"!invia_giocata", "!vedi_estrazione"} ==> |words| >= 2
    ensures words[0] == [] || words[0][0] != '!' ==> Validate(words) == -1
    ensures words[0] == "!help" ==> (Validate(words) == CmdHelp <==> |words| <= 2)
    ensures words[0] == "!signup" ==> (Validate(words) == CmdSignup <==> |words| == 3)
    ensures words[0] == "!login" ==> (Validate(words) == CmdLogin <==> |words| == 3)
    ensures words[0] == "!vedi_giocate" ==>
              (Validate(words) == CmdListBets <==> |words| == 2 && words[1] in {"0", "1"})
    ensures words[0] == "!vedi_estrazione" ==>
              (Validate(words) == CmdListDraws <==>
                 |words| <= 3 && IntTokenOk(words[1]) && (|words| == 3 ==> IsWheelName(words[2])))
    ensures words[0] == "!vedi_vincite" ==> (Validate(words) == CmdListWinnings <==> |words| == 1)
    ensures words[0] == "!esci" ==> (Validate(words) == CmdQuit <==> |words| == 1)
    ensures Validate(words) == -1 || 0 <= Validate(words) < |CommandNames|
    ensures words[0] != "!invia_giocata" ==> ValidateAsWritten(words) == Validate(words)
  {
  }

  // -------------------------------------------------------- the login state

  /** The client's gate: once logged in, login and signup are refused;
      before, only login, signup, help and quit are allowed. */
  predicate Allowed(loggedIn: bool, code: int) {
    if loggedIn then code != CmdSignup && code != CmdLogin
    else code in {CmdSignup, CmdHelp, CmdLogin, CmdQuit}
  }

  /** The commands that reach the server carry their code as the message
      code, and the client's gate lets through exactly what the server's
      gate admits for the same login state and a matching session. */
  lemma ClientAgreesWithServer(c: Gate.Conn, code: int, msg: seq<byte>)
    requires CmdSignup <= code <= CmdListWinnings
    requires |msg| >= 1 && msg[0] as int == code
    requires c.loggedIn ==> Gate.SessionMatches(c, msg)
    ensures Allowed(c.loggedIn, code) <==> Gate.Admit(c, msg).None?
  {
    assert code == MsgSignup <==> code == CmdSignup;
    assert code == MsgLogin <==> code == CmdLogin;
  }
}

=== FILE: codec.dfy ===
/** The text encoding of a bet (`serializza_schedina_txt` and
    `deserializza_schedina_txt`): three count-prefixed groups (wheels,
    played numbers, stakes), every token followed by one blank. */
module Codec {
  import opened Common
  import opened Decimal
  import opened Constants

  /** A bet ("schedina"): the wheels it covers, the numbers played and one
      stake per prize tier, in cents. */
  datatype Bet = Bet(wheels: seq<int>, numbers: seq<int>, stakes: seq<nat>)

  /** Characters the encoder can emit. */
  predicate CodecChar(c: char) {
    IsDigit(c) || c == '-' || c == '.' || c == ' '
  }

  predicate CodecText(t: string) {
    forall k :: 0 <= k < |t| ==> CodecChar(t[k])
  }

  lemma CodecTextJoin(a: string, b: string)
    requires CodecText(a) && CodecText(b)
    ensures CodecText(a + b)
  {
    forall k | 0 <= k < |a + b| ensures CodecChar((a + b)[k]) {
      if k < |a| { assert (a + b)[k] == a[k]; } else { assert (a + b)[k] == b[k - |a|]; }
    }
  }

  /** `IntText(x) + " "` for every element, in order. */
  function IntTokens(xs: seq<int>): (t: string)
    ensures CodecText(t)
    ensures xs == [] <==> t == []
  {
    if xs == [] then []
    else
      var head := IntText(xs[0]) + " ";
      var tail := IntTokens(xs[1..]);
      CodecTextJoin(IntText(xs[0]), " ");
      CodecTextJoin(head, tail);
      head + tail
  }

  /** `CentsText(c) + " "` for every stake, in order. */
  function CentsTokens(cs: seq<nat>): (t: string)
    ensures CodecText(t)
    ensures cs == [] <==> t == []
  {
    if cs == [] then []
    else
      var head := CentsText(cs[0]) + " ";
      var tail := CentsTokens(cs[1..]);
      CodecTextJoin(CentsText(cs[0]), " ");
      CodecTextJoin(head, tail);
      head + tail
  }

  /** A count-prefixed group of integers. */
  function IntGroup(xs: seq<int>): string {
    IntText(|xs|) + " " + IntTokens(xs)
  }

  /** The count-prefixed group of stakes. */
  function CentsGroup(cs: seq<nat>): string {
    IntText(|cs|) + " " + CentsTokens(cs)
  }

  /** The encoding of a bet, without the terminating NUL. */
  function Encode(b: Bet): string {
    IntGroup(b.wheels) + IntGroup(b.numbers) + CentsGroup(b.stakes)
  }

  /** The encoded text is never empty, starts with a digit (the wheel count)
      and uses only digits, '-', '.' and blanks; in particular it never holds
      the '|' that closes a ledger record. */
  lemma EncodeShape(b: Bet)
    ensures |Encode(b)| > 0 && IsDigit(Encode(b)[0])
    ensures CodecText(Encode(b))
    ensures '|' !in Encode(b)
  {
    var g1, g2, g3 := IntGroup(b.wheels), IntGroup(b.numbers), CentsGroup(b.stakes);
    CodecTextJoin(IntText(|b.wheels|), " ");
    CodecTextJoin(IntText(|b.wheels|) + " ", IntTokens(b.wheels));
    CodecTextJoin(IntText(|b.numbers|), " ");
    CodecTextJoin(IntText(|b.numbers|) + " ", IntTokens(b.numbers));
    CodecTextJoin(IntText(|b.stakes|), " ");
    CodecTextJoin(IntText(|b.stakes|) + " ", CentsTokens(b.stakes));
    CodecTextJoin(g1, g2);
    CodecTextJoin(g1 + g2, g3);
    assert Encode(b)[0] == IntText(|b.wheels|)[0] == NatText(|b.wheels|)[0];
  }

  /** `serializza_schedina_txt`: the text and the length it reports, which
      counts the NUL and is stored in 16 bits.  The text must fit the
      encoder's 2048-byte buffer together with its NUL.  The text decodes
      back to the bet, consuming all of it (`DecodeEncodeAlone`), and holds
      no record separator '|' (`EncodeShape`). */
  function Serialize(b: Bet): (r: (string, nat))
    requires |Encode(b)| < EncodeBufferSize
    ensures r.0 == Encode(b)
    ensures '|' !in r.0
    ensures r.1 == |r.0| + 1 && r.1 <= EncodeBufferSize
  {
    var t := Encode(b);
    EncodeShape(b);
    (t, (|t| + 1) % Two16)
  }

  // ---------------------------------------------------------------- decoding

  /** `count` successive `%i` tokens starting at `pos`. */
  function ScanInts(s: string, pos: nat, count: nat): (r: Option<(seq<int>, nat)>)
    requires pos <= |s|
    ensures r.Some? ==> |r.value.0| == count && pos <= r.value.1 <= |s|
    decreases count
  {
    if count == 0 then Some(([], pos))
    else
      match ScanInt(s, pos)
      case None => None
      case Some((v, p)) =>
        match ScanInts(s, p, count - 1)
        case None => None
        case Some((vs, q)) => Some(([v] + vs, q))
  }

  /** `count` successive `%lf` tokens starting at `pos`. */
  function ScanCentsList(s: string, pos: nat, count: nat): (r: Option<(seq<nat>, nat)>)
    requires pos <= |s|
    ensures r.Some? ==> |r.value.0| == count && pos <= r.value.1 <= |s|
    decreases count
  {
    if count == 0 then Some(([], pos))
    else
      match ScanCents(s, pos)
      case None => None
      case Some((v, p)) =>
        match ScanCentsList(s, p, count - 1)
        case None => None
        case Some((vs, q)) => Some(([v] + vs, q))
  }

  /** A count followed by that many integers.  A negative count reads no
      item: the source's loop `i < count` does not run. */
  function ScanIntGroup(s: string, pos: nat): (r: Option<(seq<int>, nat)>)
    requires pos <= |s|
    ensures r.Some? ==> pos < r.value.1 <= |s|
  {
    match ScanInt(s, pos)
    case None => None
    case Some((k, p)) => ScanInts(s, p, if k < 0 then 0 else k)
  }

  /** A count followed by that many stakes; a negative count reads none. */
  function ScanCentsGroup(s: string, pos: nat): (r: Option<(seq<nat>, nat)>)
    requires pos <= |s|
    ensures r.Some? ==> pos < r.value.1 <= |s|
  {
    match ScanInt(s, pos)
    case None => None
    case Some((k, p)) => ScanCentsList(s, p, if k < 0 then 0 else k)
  }

  /** A negative count, as a hand-written record may hold, reads as an empty
      group: the bet "-1 0 0 " has no wheels, no numbers and no stakes. */
  lemma NegativeCountDecodes()
    ensures Decode("-1 0 0 ") == Ok((Bet([], [], []), 7))
  {
    var s := "-1 0 0 ";
    NegativeCountTokens(s);
    hide ScanInt, ScanCents, ScanInts, ScanCentsList;
    assert ScanIntGroup(s, 0) == Some(([], 3));
    assert ScanIntGroup(s, 3) == Some(([], 5));
    assert ScanCentsGroup(s, 5) == Some(([], 7));
  }

  lemma NegativeCountTokens(s: string)
    requires s == "-1 0 0 "
    ensures ScanInt(s, 0) == Some((-1, 3)) && ScanInt(s, 3) == Some((0, 5)) && ScanInt(s, 5) == Some((0, 7))
    ensures ScanInts(s, 3, 0) == Some(([], 3)) && ScanInts(s, 5, 0) == Some(([], 5))
    ensures ScanCentsList(s, 7, 0) == Some(([], 7))
  {
    assert IntText(-1) == "-1" && IntText(0) == "0" by {
      assert NatText(1) == "1" && NatText(0) == "0";
    }
    hide ScanInt, IntText, NatText;
    assert TokenAt(s, 0, "-1") && TokenAt(s, 3, "0") && TokenAt(s, 5, "0");
    ScanIntText(s, 0, -1);
    ScanIntText(s, 3, 0);
    ScanIntText(s, 5, 0);
  }

  /** `deserializza_schedina_txt`: the bet at the start of `s` and the number
      of characters consumed (trailing whitespace included).  Text that is not
      a bet yields `Malformed`. */
  function Decode(s: string): (r: Result<(Bet, nat)>)
    ensures r.Ok? ==> 0 < r.value.1 <= |s|
  {
    match ScanIntGroup(s, 0)
    case None => Err(Malformed)
    case Some((wheels, p1)) =>
      match ScanIntGroup(s, p1)
      case None => Err(Malformed)
      case Some((numbers, p2)) =>
        match ScanCentsGroup(s, p2)
        case None => Err(Malformed)
        case Some((stakes, p3)) => Ok((Bet(wheels, numbers, stakes), p3))
  }

  // ------------------------------------------------------------ round trip

  /** Position `p` of `s` is the end of `s` or a non-space character. */
  predicate CleanAt(s: string, p: nat) {
    p == |s| || (p < |s| && !IsSpace(s[p]))
  }

  /** `s` holds `t` at `pos`, and what follows is clean. */
  predicate HoldsAt(s: string, pos: nat, t: string) {
    pos + |t| <= |s| && s[pos..pos + |t|] == t && CleanAt(s, pos + |t|)
  }

  /** A token followed by one blank and by text that does not start with a
      space: the token is well delimited and the remainder is clean. */
  lemma SplitToken(s: string, pos: nat, t: string, body: string)
    requires HoldsAt(s, pos, t + " " + body)
    requires body != [] ==> !IsSpace(body[0])
    ensures TokenAt(s, pos, t)
    ensures HoldsAt(s, pos + |t| + 1, body)
  {
    var all := t + " " + body;
    var next := pos + |t| + 1;
    assert s[pos..pos + |t|] == t by { assert all[..|t|] == t; }
    assert s[pos + |t|] == ' ' by { assert all[|t|] == ' '; }
    assert s[next..next + |body|] == body by { assert all[|t| + 1..] == body; }
    if body != [] { assert s[next] == body[0]; }
  }

  lemma ScanIntsStep(s: string, pos: nat, count: nat, v: int, p: nat, vs: seq<int>, q: nat)
    requires pos <= |s| && p <= |s| && count > 0
    requires ScanInt(s, pos) == Some((v, p))
    requires ScanInts(s, p, count - 1) == Some((vs, q))
    ensures ScanInts(s, pos, count) == Some(([v] + vs, q))
  {
  }

  lemma ScanCentsListStep(s: string, pos: nat, count: nat, v: nat, p: nat, vs: seq<nat>, q: nat)
    requires pos <= |s| && p <= |s| && count > 0
    requires ScanCents(s, pos) == Some((v, p))
    requires ScanCentsList(s, p, count - 1) == Some((vs, q))
    ensures ScanCentsList(s, pos, count) == Some(([v] + vs, q))
  {
  }

  lemma IntTokensCons(xs: seq<int>)
    requires xs != []
    ensures IntTokens(xs) == IntText(xs[0]) + " " + IntTokens(xs[1..])
    ensures IsDigit(IntTokens(xs)[0]) || IntTokens(xs)[0] == '-'
  {
    assert IntTokens(xs)[0] == IntText(xs[0])[0];
  }

  lemma CentsTokensCons(cs: seq<nat>)
    requires cs != []
    ensures CentsTokens(cs) == CentsText(cs[0]) + " " + CentsTokens(cs[1..])
    ensures IsDigit(CentsTokens(cs)[0]) || CentsTokens(cs)[0] == '.'
  {
    assert CentsTokens(cs)[0] == CentsText(cs[0])[0];
  }

  lemma {:induction false} ScanIntsTokens(s: string, pos: nat, xs: seq<int>)
    requires HoldsAt(s, pos, IntTokens(xs))
    ensures ScanInts(s, pos, |xs|) == Some((xs, pos + |IntTokens(xs)|))
    decreases |xs|
  {
    hide IntText, CentsText, NatText, ScanInt, ScanCents, ScanMagnitude, SkipSpaces, RunEnd, Value;
    if xs != [] {
      var t, tail := IntText(xs[0]), IntTokens(xs[1..]);
      IntTokensCons(xs);
      if xs[1..] != [] { IntTokensCons(xs[1..]); }
      SplitToken(s, pos, t, tail);
      ScanIntText(s, pos, xs[0]);
      var next := pos + |t| + 1;
      ScanIntsTokens(s, next, xs[1..]);
      ScanIntsStep(s, pos, |xs|, xs[0], next, xs[1..], next + |tail|);
      assert [xs[0]] + xs[1..] == xs;
    }
  }

  lemma {:induction false} ScanCentsListTokens(s: string, pos: nat, cs: seq<nat>)
    requires HoldsAt(s, pos, CentsTokens(cs))
    ensures ScanCentsList(s, pos, |cs|) == Some((cs, pos + |CentsTokens(cs)|))
    decreases |cs|
  {
    hide IntText, CentsText, NatText, ScanInt, ScanCents, ScanMagnitude, SkipSpaces, RunEnd, Value;
    if cs != [] {
      var t, tail := CentsText(cs[0]), CentsTokens(cs[1..]);
      CentsTokensCons(cs);
      if cs[1..] != [] { CentsTokensCons(cs[1..]); }
      SplitToken(s, pos, t, tail);
      ScanCentsText(s, pos, cs[0]);
      var next := pos + |t| + 1;
      ScanCentsListTokens(s, next, cs[1..]);
      ScanCentsListStep(s, pos, |cs|, cs[0], next, cs[1..], next + |tail|);
      assert [cs[0]] + cs[1..] == cs;
    }
  }

  lemma ScanIntGroupText(s: string, pos: nat, xs: seq<int>)
    requires HoldsAt(s, pos, IntGroup(xs))
    ensures ScanIntGroup(s, pos) == Some((xs, pos + |IntGroup(xs)|))
  {
    hide IntText, CentsText, NatText, ScanInt, ScanCents, ScanMagnitude, SkipSpaces, RunEnd, Value;
    var body := IntTokens(xs);
    if xs != [] { IntTokensCons(xs); }
    SplitToken(s, pos, IntText(|xs|), body);
    ScanIntText(s, pos, |xs|);
    ScanIntsTokens(s, pos + |IntText(|xs|)| + 1, xs);
  }

  lemma ScanCentsGroupText(s: string, pos: nat, cs: seq<nat>)
    requires HoldsAt(s, pos, CentsGroup(cs))
    ensures ScanCentsGroup(s, pos) == Some((cs, pos + |CentsGroup(cs)|))
  {
    hide IntText, CentsText, NatText, ScanInt, ScanCents, ScanMagnitude, SkipSpaces, RunEnd, Value;
    var body := CentsTokens(cs);
    if cs != [] { CentsTokensCons(cs); }
    SplitToken(s, pos, IntText(|cs|), body);
    ScanIntText(s, pos, |cs|);
    ScanCentsListTokens(s, pos + |IntText(|cs|)| + 1, cs);
  }

  /** Round trip: decoding an encoded bet, followed by the end of the text or
      by a non-space character, gives back the bet and reports exactly the
      encoded length as consumed. */
  lemma DecodeEncode(b: Bet, rest: string)
    requires rest == [] || !IsSpace(rest[0])
    ensures Decode(Encode(b) + rest) == Ok((b, |Encode(b)|))
  {
    hide IntText, CentsText, NatText, ScanInt, ScanCents, ScanMagnitude, SkipSpaces, RunEnd, Value;
    hide ScanIntGroup, ScanCentsGroup, ScanInts, ScanCentsList, IntTokens, CentsTokens;
    var s := Encode(b) + rest;
    var g1, g2, g3 := IntGroup(b.wheels), IntGroup(b.numbers), CentsGroup(b.stakes);
    assert Encode(b) == g1 + g2 + g3;
    assert s == g1 + (g2 + (g3 + rest));
    var p1, p2, p3 := |g1|, |g1| + |g2|, |g1| + |g2| + |g3|;
    assert s[..p1] == g1;
    assert s[p1..p2] == g2;
    assert s[p2..p3] == g3;
    assert s[p1] == g2[0] == IntText(|b.numbers|)[0];
    assert s[p2] == g3[0] == IntText(|b.stakes|)[0];
    assert CleanAt(s, p3) by { if rest != [] { assert s[p3] == rest[0]; } }
    ScanIntGroupText(s, 0, b.wheels);
    ScanIntGroupText(s, p1, b.numbers);
    ScanCentsGroupText(s, p2, b.stakes);
  }

  /** The plain round trip. */
  lemma DecodeEncodeAlone(b: Bet)
    ensures Decode(Encode(b)) == Ok((b, |Encode(b)|))
  {
    hide *;
    DecodeEncode(b, []);
    assert Encode(b) + [] == Encode(b);
  }

  /** Decoding two encoded bets written back to back yields the first and
      consumes exactly its encoding, so the second starts where the first
      ends. */
  lemma DecodeConcatenation(b1: Bet, b2: Bet)
    ensures Decode(Encode(b1) + Encode(b2)) == Ok((b1, |Encode(b1)|))
    ensures (Encode(b1) + Encode(b2))[|Encode(b1)|..] == Encode(b2)
  {
    EncodeShape(b2);
    DecodeEncode(b1, Encode(b2));
  }

  // ---------------------------------------------- reading a list of bets

  /** The client's reading of a list of bets sent back to back: decode, move
      past the consumed characters, repeat until the text is exhausted. */
  function DecodeAll(t: string): (r: Result<seq<Bet>>)
    decreases |t|
  {
    if t == [] then Ok([])
    else
      match Decode(t)
      case Err(e) => Err(e)
      case Ok((b, n)) =>
        match DecodeAll(t[n..])
        case Err(e) => Err(e)
        case Ok(bs) => Ok([b] + bs)
  }

  /** The encodings of several bets, back to back. */
  function EncodeAll(bs: seq<Bet>): string {
    if bs == [] then [] else Encode(bs[0]) + EncodeAll(bs[1..])
  }

  /** Reading back a list of encoded bets yields exactly that list. */
  lemma {:induction false} DecodeAllEncodeAll(bs: seq<Bet>)
    ensures DecodeAll(EncodeAll(bs)) == Ok(bs)
    decreases |bs|
  {
    hide IntText, CentsText, NatText, ScanInt, ScanCents, ScanMagnitude, SkipSpaces, RunEnd, Value;
    hide Decode, Encode;
    if bs != [] {
      var rest := EncodeAll(bs[1..]);
      if bs[1..] != [] {
        EncodeShape(bs[1..][0]);
        assert rest[0] == Encode(bs[1])[0];
      }
      DecodeEncode(bs[0], rest);
      EncodeShape(bs[0]);
      var t := EncodeAll(bs);
      assert t == Encode(bs[0]) + rest;
      assert t[|Encode(bs[0])|..] == rest;
      DecodeAllEncodeAll(bs[1..]);
      assert [bs[0]] + bs[1..] == bs;
    }
  }

  // ------------------------------------------- the decoder as a token loop

  /** `prefix` placed in front of the values of a successful scan. */
  function Prepend<T>(prefix: seq<T>, o: Option<(seq<T>, nat)>): Option<(seq<T>, nat)> {
    match o
    case None => None
    case Some((vs, q)) => Some((prefix + vs, q))
  }

  lemma PrependNothing<T>(o: Option<(seq<T>, nat)>)
    ensures Prepend([], o) == o
  {
    if o.Some? { assert [] + o.value.0 == o.value.0; }
  }

  lemma PrependTwice<T>(a: seq<T>, b: seq<T>, o: Option<(seq<T>, nat)>)
    ensures Prepend(a, Prepend(b, o)) == Prepend(a + b, o)
  {
    if o.Some? { assert a + (b + o.value.0) == (a + b) + o.value.0; }
  }

  /** One loop of the decoder: a count, then that many `%i` tokens. */
  method ReadIntGroup(s: string, start: nat) returns (ok: bool, xs: seq<int>, pos: nat)
    requires start <= |s|
    ensures ok <==> ScanIntGroup(s, start).Some?
    ensures ok ==> ScanIntGroup(s, start) == Some((xs, pos))
  {
    hide ScanInt, ScanCents;
    var k := ScanInt(s, start);
    if k.None? { return false, [], start; }
    var count: nat := if k.value.0 < 0 then 0 else k.value.0;
    pos := k.value.1;
    xs := [];
    PrependNothing(ScanInts(s, pos, count));
    var i := 0;
    while i < count
      invariant 0 <= i <= count && pos <= |s| && |xs| == i
      invariant ScanInts(s, k.value.1, count) == Prepend(xs, ScanInts(s, pos, count - i))
    {
      var v := ScanInt(s, pos);
      if v.None? { return false, [], start; }
      var rest := ScanInts(s, v.value.1, count - i - 1);
      assert ScanInts(s, pos, count - i) == Prepend([v.value.0], rest);
      PrependTwice(xs, [v.value.0], rest);
      xs := xs + [v.value.0];
      pos := v.value.1;
      i := i + 1;
    }
    assert xs + [] == xs;
    ok := true;
  }

  /** The stakes loop of the decoder: a count, then that many `%lf` tokens. */
  method ReadCentsGroup(s: string, start: nat) returns (ok: bool, cs: seq<nat>, pos: nat)
    requires start <= |s|
    ensures ok <==> ScanCentsGroup(s, start).Some?
    ensures ok ==> ScanCentsGroup(s, start) == Some((cs, pos))
  {
    hide ScanInt, ScanCents;
    var k := ScanInt(s, start);
    if k.None? { return false, [], start; }
    var count: nat := if k.value.0 < 0 then 0 else k.value.0;
    pos := k.value.1;
    cs := [];
    PrependNothing(ScanCentsList(s, pos, count));
    var i := 0;
    while i < count
      invariant 0 <= i <= count && pos <= |s| && |cs| == i
      invariant ScanCentsList(s, k.value.1, count) == Prepend(cs, ScanCentsList(s, pos, count - i))
    {
      var v := ScanCents(s, pos);
      if v.None? { return false, [], start; }
      var rest := ScanCentsList(s, v.value.1, count - i - 1);
      assert ScanCentsList(s, pos, count - i) == Prepend([v.value.0], rest);
      PrependTwice(cs, [v.value.0], rest);
      cs := cs + [v.value.0];
      pos := v.value.1;
      i := i + 1;
    }
    assert cs + [] == cs;
    ok := true;
  }

  /** The decoder written as the source writes it: one loop per group, each
      reading exactly as many tokens as the group's count declares. */
  method Deserialize(s: string) returns (r: Result<(Bet, nat)>)
    ensures r == Decode(s)
  {
    var ok, wheels, numbers, stakes, p1, p2, p3;
    ok, wheels, p1 := ReadIntGroup(s, 0);
    if !ok { return Err(Malformed); }
    ok, numbers, p2 := ReadIntGroup(s, p1);
    if !ok { return Err(Malformed); }
    ok, stakes, p3 := ReadCentsGroup(s, p2);
    if !ok { return Err(Malformed); }
    r := Ok((Bet(wheels, numbers, stakes), p3));
  }
}

=== FILE: common.dfy ===
/** Failure-carrying results and small sequence predicates used across
    the model. */
module Common {

  datatype Option<T> = None | Some(value: T)

  /** The reasons an operation of the model can fail. `Malformed` stands for
      the MESSAGGIO_NON_COMPRENSIBILE reply and for text the decoders cannot
      read; `Empty` for the FILE_VUOTO reply; `WheelOutOfRange` for a
      stored wheel code whose 8-bit index lies past the draw's eleven wheels,
      where the source reads outside its array and its behaviour is
      undefined. */
  datatype Error = Malformed | Empty | WheelOutOfRange

  datatype Result<T> = Ok(value: T) | Err(error: Error)

  /** Machine-width types the source relies on. */
  newtype byte = x: int | 0 <= x < 0x100
  const Two32: int := 0x1_0000_0000
  const Two16: int := 0x1_0000

  predicate Ascending(s: seq<int>) {
    forall i, j :: 0 <= i < j < |s| ==> s[i] <= s[j]
  }

  predicate StrictlyAscending(s: seq<int>) {
    forall i, j :: 0 <= i < j < |s| ==> s[i] < s[j]
  }

  predicate PairwiseDistinct<T(==)>(s: seq<T>) {
    forall i, j :: 0 <= i < j < |s| ==> s[i] != s[j]
  }

  /** The smaller of two integers, ties going to the first (the server's
      `min`). */
  function Min(a: int, b: int): (r: int)
    ensures r <= a && r <= b
    ensures r == a || r == b
  {
    if a <= b then a else b
  }

  /** The larger of two integers, ties going to the first (the server's
      `max`). */
  function Max(a: int, b: int): (r: int)
    ensures r >= a && r >= b
    ensures r == a || r == b
  {
    if a >= b then a else b
  }

  /** Concatenation of a sequence of strings. */
  function Concat(parts: seq<string>): string {
    if parts == [] then [] else Concat(parts[..|parts| - 1]) + parts[|parts| - 1]
  }

  lemma ConcatAppend(parts: seq<string>, last: string)
    ensures Concat(parts + [last]) == Concat(parts) + last
  {
    assert (parts + [last])[..|parts|] == parts;
  }

  lemma {:induction false} ConcatSplit(a: seq<string>, b: seq<string>)
    ensures Concat(a + b) == Concat(a) + Concat(b)
    decreases |b|
  {
    if b == [] {
      assert a + b == a;
    } else {
      var b' := b[..|b| - 1];
      assert a + b == (a + b') + [b[|b| - 1]];
      ConcatAppend(a + b', b[|b| - 1]);
      ConcatSplit(a, b');
      ConcatAppend(b', b[|b| - 1]);
      assert b == b' + [b[|b| - 1]];
    }
  }

  lemma ConcatCons(head: string, tail: seq<string>)
    ensures Concat([head] + tail) == head + Concat(tail)
  {
    ConcatSplit([head], tail);
    assert Concat([head]) == Concat([]) + head;
  }

  // ---------------------------------------------------------------- slices

  lemma SliceOfSlice<T>(s: seq<T>, a: nat, b: nat, c: nat, d: nat)
    requires a <= b <= |s| && c <= d <= b - a
    ensures s[a..b][c..d] == s[a + c..a + d]
  {
    var t := s[a..b];
    forall k | 0 <= k < d - c
      ensures t[c..d][k] == s[a + c..a + d][k]
    {
      assert t[c..d][k] == t[c + k] == s[a + c + k];
    }
  }

  lemma SliceOfLeft<T>(x: seq<T>, y: seq<T>, i: nat, j: nat)
    requires i <= j <= |x|
    ensures (x + y)[i..j] == x[i..j]
  {
  }

  lemma SliceOfRight<T>(x: seq<T>, y: seq<T>)
    ensures (x + y)[|x|..|x| + |y|] == y
  {
  }
}

=== FILE: constants.dfy ===
/** Application constants shared by the Lotto server and client
    (the game sizes, the wheel codes, the protocol codes and the file
    layout sizes). */
module Constants {

  /** Number of wheels (ten cities plus the national wheel). */
  const WheelCount: nat := 11
  /** Numbers drawn per wheel in one extraction. */
  const DrawnPerWheel: nat := 5
  /** Numbers are drawn from 1..HighestNumber. */
  const HighestNumber: nat := 90
  /** At most this many numbers on one bet. */
  const MaxNumbersPerBet: nat := 10

  /** Session identifiers: length and alphabet sizes.  `AlphanumericCount`
      is the 62 the source means; its macro has no parentheses, and what
      that computes is modelled in `Login.SymbolIndexOf`. */
  const SessionIdLength: nat := 10
  const DigitCount: nat := 10
  const LetterCount: nat := 26
  const AlphanumericCount: nat := LetterCount * 2 + DigitCount
  const AsciiFirstDigit: nat := 48
  const AsciiFirstUpper: nat := 65
  const AsciiFirstLower: nat := 97

  /** Wheel codes. */
  const Bari: int := 0x00
  const Cagliari: int := 0x01
  const Firenze: int := 0x02
  const Genova: int := 0x03
  const Milano: int := 0x04
  const Napoli: int := 0x05
  const Palermo: int := 0x06
  const Roma: int := 0x07
  const Torino: int := 0x08
  const Venezia: int := 0x09
  const Nazionale: int := 0x0A
  /** Byte value meaning "no wheel given" in a draw-listing request. */
  const WheelUnspecified: int := 0xFF

  /** Number of prize tiers (single, pair, triple, quadruple, quintuple). */
  const PrizeTierCount: nat := 5

  /** Minutes an address stays blocked after a third failed login. */
  const BlockMinutes: nat := 30
  const SecondsPerMinute: nat := 60

  /** Message codes, client to server. */
  const MsgSignup: int := 0x01
  const MsgLogin: int := 0x02
  const MsgSubmitBet: int := 0x03
  const MsgListBets: int := 0x04
  const MsgListDraws: int := 0x05
  const MsgListWinnings: int := 0x06
  const MsgQuit: int := 0x07

  /** Error codes, server to client. */
  const ErrNotLoggedIn: int := 0x00
  const ErrAlreadyLoggedIn: int := 0x01
  const ErrBadSessionId: int := 0x02
  const ErrBadLogin: int := 0x03
  const ErrThirdBadLogin: int := 0x04
  const ErrAddressBlocked: int := 0x05
  const ErrUsernameTaken: int := 0x06
  const ErrFileEmpty: int := 0x07
  const ErrInternal: int := 0xFE
  const ErrMalformed: int := 0xFF

  /** File layout: the bet-ledger header is two 4-byte cursors. */
  const LedgerHeaderSize: nat := 8
  /** Bytes of a stored time stamp (a 64-bit time_t). */
  const TimeStampSize: nat := 8
  /** One wheel of a draw on disk: a code byte and five 4-byte numbers
      (1 + 5 * 4). */
  const WheelRecordSize: nat := 21
  /** One whole draw on disk: the time stamp and the eleven wheel records
      (8 + 21 * 11). */
  const DrawBlockSize: nat := 239

  lemma LayoutSizes()
    ensures WheelRecordSize == 1 + DrawnPerWheel * 4
    ensures DrawBlockSize == TimeStampSize + WheelRecordSize * WheelCount
  {
  }

  /** Size of the stack buffer the bet encoder writes into. */
  const EncodeBufferSize: nat := 2048
}

=== FILE: decimal.dfy ===
/** The C library text conversions the bet codec relies on: `%i` and
    `%.2lf` on output, `%i`, `%ld`, `%lf` and the whitespace-skipping
    directive on input.  Stakes are carried as whole cents. */
module Decimal {
  import opened Common

  /** The characters C's `isspace` accepts in the "C" locale. */
  predicate IsSpace(c: char) {
    c == ' ' || (9 <= c as int <= 13)
  }

  predicate IsDigit(c: char) {
    '0' <= c <= '9'
  }

  predicate IsHexDigit(c: char) {
    IsDigit(c) || 'a' <= c <= 'f' || 'A' <= c <= 'F'
  }

  /** Digits of the bases `%i` understands (8, 10, 16). */
  predicate IsDigitIn(c: char, base: nat) {
    if base == 8 then '0' <= c <= '7'
    else if base == 16 then IsHexDigit(c)
    else IsDigit(c)
  }

  function DigitValue(c: char): nat {
    if IsDigit(c) then c as nat - '0' as nat
    else if 'a' <= c <= 'f' then c as nat - 'a' as nat + 10
    else if 'A' <= c <= 'F' then c as nat - 'A' as nat + 10
    else 0
  }

  function DigitChar(d: nat): (c: char)
    requires d < 10
    ensures IsDigit(c) && DigitValue(c) == d
  {
    (48 + d) as char
  }

  /** The value of a digit string read most-significant digit first. */
  function Value(t: string, base: nat): nat {
    if t == [] then 0 else Value(t[..|t| - 1], base) * base + DigitValue(t[|t| - 1])
  }

  /** `printf("%i")` of a non-negative number: decimal, no leading zeros. */
  function NatText(n: nat): (t: string)
    ensures |t| >= 1
    ensures forall k :: 0 <= k < |t| ==> IsDigit(t[k])
    ensures n > 0 ==> t[0] != '0'
    ensures n == 0 ==> t == "0"
    decreases n
  {
    if n < 10 then [DigitChar(n)] else NatText(n / 10) + [DigitChar(n % 10)]
  }

  /** `printf("%i")` of any integer. */
  function IntText(i: int): (t: string)
    ensures |t| >= 1
    ensures forall k :: 0 <= k < |t| ==> IsDigit(t[k]) || t[k] == '-'
  {
    if i < 0 then "-" + NatText(-i) else NatText(i)
  }

  /** `printf("%.2lf")` of an amount that is a whole number of cents. */
  function CentsText(cents: nat): (t: string)
    ensures |t| >= 4
    ensures forall k :: 0 <= k < |t| ==> IsDigit(t[k]) || t[k] == '.'
  {
    NatText(cents / 100) + "." + [DigitChar(cents % 100 / 10), DigitChar(cents % 10)]
  }

  lemma {:induction false} NatTextValue(n: nat)
    ensures Value(NatText(n), 10) == n
    decreases n
  {
    if n < 10 {
      assert NatText(n) == [DigitChar(n)];
      assert NatText(n)[..0] == [];
    } else {
      var t := NatText(n);
      assert t == NatText(n / 10) + [DigitChar(n % 10)];
      assert t[..|t| - 1] == NatText(n / 10);
      NatTextValue(n / 10);
    }
  }

  /** Position of the first non-space character at or after `pos`
      (the effect of a blank in a scanf format). */
  function SkipSpaces(s: string, pos: nat): (r: nat)
    requires pos <= |s|
    ensures pos <= r <= |s|
    ensures forall k :: pos <= k < r ==> IsSpace(s[k])
    ensures r == |s| || !IsSpace(s[r])
    decreases |s| - pos
  {
    if pos < |s| && IsSpace(s[pos]) then SkipSpaces(s, pos + 1) else pos
  }

  /** End of the longest run of `base` digits starting at `pos`. */
  function RunEnd(s: string, pos: nat, base: nat): (r: nat)
    requires pos <= |s|
    ensures pos <= r <= |s|
    ensures forall k :: pos <= k < r ==> IsDigitIn(s[k], base)
    ensures r == |s| || !IsDigitIn(s[r], base)
    decreases |s| - pos
  {
    if pos < |s| && IsDigitIn(s[pos], base) then RunEnd(s, pos + 1, base) else pos
  }

  /** The number `%i` reads at `q` once whitespace and sign are consumed: a
      hexadecimal number after `0x`/`0X`, an octal number after a leading
      `0`, or a decimal number.  Yields the magnitude and the end of its
      digits, or `None` when no digit is found. */
  function ScanMagnitude(s: string, q: nat): (r: Option<(nat, nat)>)
    requires q <= |s|
    ensures r.Some? ==> q < r.value.1 <= |s|
  {
    if q < |s| && s[q] == '0' && q + 2 < |s| && (s[q + 1] == 'x' || s[q + 1] == 'X')
       && IsHexDigit(s[q + 2]) then
      var e := RunEnd(s, q + 2, 16);
      Some((Value(s[q + 2..e], 16), e))
    else if q < |s| && s[q] == '0' then
      var e := RunEnd(s, q, 8);
      Some((Value(s[q..e], 8), e))
    else
      var e := RunEnd(s, q, 10);
      if e == q then None else Some((Value(s[q..e], 10), e))
  }

  /** `sscanf(s + pos, "%i %n", ...)`: whitespace, an optional sign, a
      number as `ScanMagnitude` reads it, then any whitespace.  Yields the
      value and the position after the trailing whitespace. */
  function ScanInt(s: string, pos: nat): (r: Option<(int, nat)>)
    requires pos <= |s|
    ensures r.Some? ==> pos < r.value.1 <= |s|
  {
    var p := SkipSpaces(s, pos);
    var signed := p < |s| && (s[p] == '-' || s[p] == '+');
    var q := if signed then p + 1 else p;
    match ScanMagnitude(s, q)
    case None => None
    case Some((m, e)) =>
      var v: int := if signed && s[p] == '-' then -(m as int) else m;
      Some((v, SkipSpaces(s, e)))
  }

  /** `fscanf(f, "%ld ", ...)`: whitespace, an optional sign, a decimal
      number, then any whitespace.  Yields the value and the position after
      the trailing whitespace. */
  function ScanLong(s: string, pos: nat): (r: Option<(int, nat)>)
    requires pos <= |s|
    ensures r.Some? ==> pos < r.value.1 <= |s|
  {
    var p := SkipSpaces(s, pos);
    var signed := p < |s| && (s[p] == '-' || s[p] == '+');
    var q := if signed then p + 1 else p;
    var e := RunEnd(s, q, 10);
    if e == q then None
    else
      var m := Value(s[q..e], 10);
      var v: int := if signed && s[p] == '-' then -(m as int) else m;
      Some((v, SkipSpaces(s, e)))
  }

  /** `sscanf(s + pos, "%lf %n", ...)` restricted to amounts the model can
      carry exactly: unsigned, digits with at most one decimal point and at
      most two digits after it.  Yields cents and the position after the
      following whitespace. */
  function ScanCents(s: string, pos: nat): (r: Option<(nat, nat)>)
    requires pos <= |s|
    ensures r.Some? ==> pos < r.value.1 <= |s|
  {
    var p := SkipSpaces(s, pos);
    var e1 := RunEnd(s, p, 10);
    var dot := e1 < |s| && s[e1] == '.';
    var e2 := if dot then RunEnd(s, e1 + 1, 10) else e1;
    var whole := Value(s[p..e1], 10);
    var frac := if dot then s[e1 + 1..e2] else "";
    if e1 == p && |frac| == 0 then None
    else if |frac| > 2 then None
    else
      var fracCents := if |frac| == 0 then 0 else if |frac| == 1 then Value(frac, 10) * 10 else Value(frac, 10);
      Some((whole * 100 + fracCents, SkipSpaces(s, e2)))
  }

  /** `s` holds `t` at `pos`, followed by a single blank and then by the end
      of `s` or a non-space character. */
  predicate TokenAt(s: string, pos: nat, t: string) {
    && pos + |t| + 1 <= |s|
    && s[pos..pos + |t|] == t
    && s[pos + |t|] == ' '
    && (pos + |t| + 1 == |s| || !IsSpace(s[pos + |t| + 1]))
  }

  lemma SkipNone(s: string, p: nat)
    requires p < |s| && !IsSpace(s[p])
    ensures SkipSpaces(s, p) == p
  {
  }

  lemma SkipOneBlank(s: string, e: nat)
    requires e < |s| && s[e] == ' '
    requires e + 1 == |s| || !IsSpace(s[e + 1])
    ensures SkipSpaces(s, e) == e + 1
  {
  }

  /** The digits printed by `NatText` at `q`, followed by a blank, are read
      back as the printed number. */
  lemma ScanMagnitudeNatText(s: string, q: nat, n: nat)
    requires q + |NatText(n)| < |s|
    requires s[q..q + |NatText(n)|] == NatText(n)
    requires s[q + |NatText(n)|] == ' '
    ensures ScanMagnitude(s, q) == Some((n, q + |NatText(n)|))
  {
    var d := NatText(n);
    var end := q + |d|;
    assert s[q] == d[0];
    NatTextValue(n);
    if n == 0 {
      assert s[q + 1] == ' ';
      assert RunEnd(s, q, 8) == q + 1;
      assert s[q..q + 1] == "0";
      assert Value("0", 8) == 0 by { assert "0"[..0] == []; }
    } else {
      assert forall k :: q <= k < end ==> IsDigit(s[k]) by {
        forall k | q <= k < end ensures IsDigit(s[k]) { assert s[k] == d[k - q]; }
      }
      assert RunEnd(s, q, 10) == end;
    }
  }

  /** `ScanInt` at a non-space character: the sign handling composed with
      `ScanMagnitude` and the trailing whitespace. */
  lemma ScanIntAt(s: string, pos: nat, m: nat, e: nat, negative: bool)
    requires pos < |s| && !IsSpace(s[pos])
    requires negative ==> s[pos] == '-'
    requires !negative ==> s[pos] != '-' && s[pos] != '+'
    requires ScanMagnitude(s, if negative then pos + 1 else pos) == Some((m, e))
    ensures ScanInt(s, pos) == Some((if negative then -(m as int) else m, SkipSpaces(s, e)))
  {
    SkipNone(s, pos);
  }

  /** Scanning a token printed by `IntText` and the blank after it yields the
      printed value and stops right after the blank. */
  lemma ScanIntText(s: string, pos: nat, v: int)
    requires TokenAt(s, pos, IntText(v))
    ensures ScanInt(s, pos) == Some((v, pos + |IntText(v)| + 1))
  {
    hide NatText, ScanInt, ScanMagnitude, SkipSpaces, RunEnd, Value;
    var t := IntText(v);
    var end := pos + |t|;
    assert s[pos] == t[0];
    SkipOneBlank(s, end);
    if v < 0 {
      var d := NatText(-v);
      assert t == "-" + d;
      assert s[pos + 1..end] == d by { assert s[pos + 1..end] == t[1..]; }
      ScanMagnitudeNatText(s, pos + 1, -v);
      ScanIntAt(s, pos, -v, end, true);
    } else {
      assert t == NatText(v);
      assert IsDigit(t[0]);
      ScanMagnitudeNatText(s, pos, v);
      ScanIntAt(s, pos, v, end, false);
    }
  }

  lemma TwoDigitValue(a: nat, b: nat)
    requires a < 10 && b < 10
    ensures Value([DigitChar(a), DigitChar(b)], 10) == a * 10 + b
  {
    var t := [DigitChar(a), DigitChar(b)];
    assert t[..1] == [DigitChar(a)];
    assert [DigitChar(a)][..0] == [];
    assert Value([DigitChar(a)], 10) == a;
    assert Value(t, 10) == Value(t[..1], 10) * 10 + DigitValue(t[1]);
  }

  /** `ScanCents` over a whole part, a point and exactly two decimals. */
  lemma ScanCentsAt(s: string, p: nat, e1: nat)
    requires p < e1 && e1 + 2 < |s| && !IsSpace(s[p])
    requires RunEnd(s, p, 10) == e1 && s[e1] == '.'
    requires RunEnd(s, e1 + 1, 10) == e1 + 3
    ensures ScanCents(s, p)
         == Some((Value(s[p..e1], 10) * 100 + Value(s[e1 + 1..e1 + 3], 10), SkipSpaces(s, e1 + 3)))
  {
    SkipNone(s, p);
  }

  lemma CentsTextParts(cents: nat)
    ensures CentsText(cents) == NatText(cents / 100) + "." + [DigitChar(cents % 100 / 10), DigitChar(cents % 10)]
  {
  }

  lemma CentsDigits(c: nat)
    ensures (c / 100) * 100 + (c % 100 / 10) * 10 + c % 10 == c
  {
    var q, r := c / 100, c % 100;
    var a, b := r / 10, r % 10;
    assert c == 100 * q + r;
    assert r == 10 * a + b && 0 <= b < 10;
    ModTen(c, 10 * q + a, b);
  }

  lemma ModTen(x: int, q: int, b: int)
    requires x == 10 * q + b && 0 <= b < 10
    ensures x % 10 == b
  {
  }

  /** The decimal run starting at `p` covers exactly the digit string `t`
      found there when a non-digit follows it. */
  lemma RunEndOver(s: string, p: nat, t: string)
    requires p + |t| < |s| && s[p..p + |t|] == t
    requires forall k :: 0 <= k < |t| ==> IsDigit(t[k])
    requires !IsDigit(s[p + |t|])
    ensures RunEnd(s, p, 10) == p + |t|
  {
    assert forall k :: p <= k < p + |t| ==> IsDigit(s[k]) by {
      forall k | p <= k < p + |t| ensures IsDigit(s[k]) { assert s[k] == t[k - p]; }
    }
  }

  /** Scanning a token printed by `CentsText` and the blank after it yields
      the printed amount and stops right after the blank. */
  lemma ScanCentsText(s: string, pos: nat, cents: nat)
    requires TokenAt(s, pos, CentsText(cents))
    ensures ScanCents(s, pos) == Some((cents, pos + |CentsText(cents)| + 1))
  {
    hide NatText, Value, RunEnd, SkipSpaces, ScanCents, CentsText;
    var t := CentsText(cents);
    var w := NatText(cents / 100);
    var frac := [DigitChar(cents % 100 / 10), DigitChar(cents % 10)];
    CentsTextParts(cents);
    var end := pos + |t|;
    var e1 := pos + |w|;
    assert s[pos..end] == t;
    assert s[pos..e1] == w by { assert t[..|w|] == w; }
    assert s[e1] == '.' by { assert t[|w|] == '.'; }
    assert s[e1 + 1..end] == frac by { assert t[|w| + 1..] == frac; }
    assert s[pos] == w[0];
    RunEndOver(s, pos, w);
    RunEndOver(s, e1 + 1, frac);
    ScanCentsAt(s, pos, e1);
    assert end == e1 + 3;
    NatTextValue(cents / 100);
    var whole := Value(s[pos..e1], 10);
    assert whole == cents / 100;
    TwoDigitValue(cents % 100 / 10, cents % 10);
    var part := Value(s[e1 + 1..e1 + 3], 10);
    assert part == (cents % 100 / 10) * 10 + cents % 10;
    CentsDigits(cents);
    assert whole * 100 + part == cents;
    SkipOneBlank(s, end);
  }

  /** `ScanLong` at a non-space character once its sign and digit run are
      known. */
  lemma ScanLongAt(s: string, pos: nat, e: nat, negative: bool)
    requires pos < |s| && !IsSpace(s[pos])
    requires negative ==> s[pos] == '-'
    requires !negative ==> IsDigit(s[pos])
    requires (if negative then pos + 1 else pos) < e <= |s|
    requires RunEnd(s, if negative then pos + 1 else pos, 10) == e
    ensures var m := Value(s[if negative then pos + 1 else pos..e], 10);
            ScanLong(s, pos) == Some((if negative then -(m as int) else m, SkipSpaces(s, e)))
  {
    SkipNone(s, pos);
  }

  /** Scanning a token printed by `IntText` and the blank after it as a
      decimal `long` yields the printed value and stops right after the
      blank. */
  lemma ScanLongText(s: string, pos: nat, v: int)
    requires TokenAt(s, pos, IntText(v))
    ensures ScanLong(s, pos) == Some((v, pos + |IntText(v)| + 1))
  {
    hide NatText, ScanLong, SkipSpaces, RunEnd, Value;
    var t := IntText(v);
    var end := pos + |t|;
    var n: nat := if v < 0 then -v else v;
    var d := NatText(n);
    var q := if v < 0 then pos + 1 else pos;
    assert s[pos..end] == t;
    assert t == if v < 0 then "-" + d else d;
    assert s[q..end] == d by {
      if v < 0 { assert s[pos + 1..end] == t[1..]; }
    }
    assert s[pos] == t[0];
    assert s[end] == ' ';
    RunEndOver(s, q, d);
    SkipOneBlank(s, end);
    NatTextValue(n);
    ScanLongAt(s, pos, end, v < 0);
  }
}

=== FILE: drawlog.dfy ===
/** The draw log (`estrazioni.bin`) and the draw listing
    (`eseguiVediEstrazione`).  The log is a sequence of fixed-size blocks,
    one per draw: the 8-byte time stamp, then for each wheel in code order
    a record of the code byte and the five numbers as 4-byte integers, all
    in the server's little-endian byte order.  The listing walks the log
    backwards from its end, one block per step, and sends the records it
    read with the numbers turned to network byte order. */
module DrawLog {
  import opened Common
  import opened Constants
  import opened Draws

  // ----------------------------------------------------- integers as bytes

  function Pow256(w: nat): (p: nat)
    ensures p >= 1
  {
    if w == 0 then 1 else 256 * Pow256(w - 1)
  }

  /** The `w` bytes of x modulo 256^w, least significant first: what
      `fwrite` stores for an integer on the little-endian server. */
  function LittleEndian(x: int, w: nat): (r: seq<byte>)
    ensures |r| == w
    decreases w
  {
    if w == 0 then [] else [(x % 256) as byte] + LittleEndian(x / 256, w - 1)
  }

  /** The `w` bytes of x modulo 256^w, most significant first: network byte
      order, what `htonl` produces. */
  function BigEndian(x: int, w: nat): (r: seq<byte>)
    ensures |r| == w
    decreases w
  {
    if w == 0 then [] else BigEndian(x / 256, w - 1) + [(x % 256) as byte]
  }

  /** The number a receiver reads from bytes in network order (`ntohl`). */
  function FromBigEndian(bs: seq<byte>): nat {
    if bs == [] then 0 else FromBigEndian(bs[..|bs| - 1]) * 256 + bs[|bs| - 1] as nat
  }

  function Reverse<T>(s: seq<T>): (r: seq<T>)
    ensures |r| == |s|
  {
    if s == [] then [] else Reverse(s[1..]) + [s[0]]
  }

  /** Byte-swapping the stored bytes gives network order. */
  lemma {:induction false} ReverseLittleEndian(x: int, w: nat)
    ensures Reverse(LittleEndian(x, w)) == BigEndian(x, w)
    decreases w
  {
    if w > 0 {
      var le := LittleEndian(x, w);
      assert le[1..] == LittleEndian(x / 256, w - 1);
      ReverseLittleEndian(x / 256, w - 1);
    }
  }

  /** Reading network-order bytes back yields the number, when it fits in
      the `w` bytes. */
  lemma {:induction false} BigEndianRoundTrip(x: int, w: nat)
    requires 0 <= x < Pow256(w)
    ensures FromBigEndian(BigEndian(x, w)) == x
    decreases w
  {
    if w > 0 {
      var be := BigEndian(x, w);
      assert be[..|be| - 1] == BigEndian(x / 256, w - 1);
      BigEndianRoundTrip(x / 256, w - 1);
    }
  }

  lemma NumberRoundTrip(x: int)
    requires 0 <= x < Two32
    ensures FromBigEndian(BigEndian(x, 4)) == x
  {
    assert Pow256(4) == Two32;
    BigEndianRoundTrip(x, 4);
  }

  // --------------------------------------------------------- the log bytes

  function NumbersBytes(ns: seq<int>): (r: seq<byte>)
    ensures |r| == 4 * |ns|
  {
    if ns == [] then [] else LittleEndian(ns[0], 4) + NumbersBytes(ns[1..])
  }

  /** One wheel on disk: the code byte, then the five numbers. */
  function WheelBytes(code: nat, ns: seq<int>): (r: seq<byte>)
    ensures |r| == 1 + 4 * |ns|
  {
    [(code % 256) as byte] + NumbersBytes(ns)
  }

  /** Wheels 0..k-1 of a draw, in code order. */
  function WheelsBytes(nss: seq<seq<int>>, k: nat): (r: seq<byte>)
    requires k <= |nss|
    requires forall w :: 0 <= w < |nss| ==> |nss[w]| == DrawnPerWheel
    ensures |r| == WheelRecordSize * k
  {
    if k == 0 then [] else WheelsBytes(nss, k - 1) + WheelBytes(k - 1, nss[k - 1])
  }

  /** The block `effettuaEstrazione` appends for one draw. */
  function Block(d: Draw): (r: seq<byte>)
    requires Shaped(d)
    ensures |r| == DrawBlockSize
  {
    LittleEndian(d.ts, TimeStampSize) + WheelsBytes(d.numbers, WheelCount)
  }

  predicate AllShaped(ds: seq<Draw>) {
    forall j :: 0 <= j < |ds| ==> Shaped(ds[j])
  }

  /** The draw log after the given draws, oldest first. */
  function Log(ds: seq<Draw>): (r: seq<byte>)
    requires AllShaped(ds)
    ensures |r| == DrawBlockSize * |ds| && |r| % DrawBlockSize == 0
  {
    BlockMultiple(|ds|);
    if ds == [] then [] else Log(ds[..|ds| - 1]) + Block(ds[|ds| - 1])
  }

  lemma BlockMultiple(k: nat)
    ensures (DrawBlockSize * k) % DrawBlockSize == 0
  {
    assert (239 * k) % 239 == 0;
  }

  lemma BlockParts(d: Draw)
    requires Shaped(d)
    ensures Block(d)[..TimeStampSize] == LittleEndian(d.ts, TimeStampSize)
    ensures Block(d)[TimeStampSize..] == WheelsBytes(d.numbers, WheelCount)
  {
  }

  /** Block b of the log is the block of draw b. */
  lemma LogLast(ds: seq<Draw>)
    requires AllShaped(ds) && ds != []
    ensures AllShaped(ds[..|ds| - 1])
    ensures Log(ds) == Log(ds[..|ds| - 1]) + Block(ds[|ds| - 1])
  {
  }

  lemma {:induction false} LogBlock(ds: seq<Draw>, b: nat)
    requires AllShaped(ds) && b < |ds|
    ensures Log(ds)[DrawBlockSize * b..DrawBlockSize * (b + 1)] == Block(ds[b])
    decreases |ds|
  {
    hide Log, Block;
    var init := ds[..|ds| - 1];
    LogLast(ds);
    if b < |ds| - 1 {
      LogBlock(init, b);
      assert init[b] == ds[b];
      SliceOfLeft(Log(init), Block(ds[|ds| - 1]), DrawBlockSize * b, DrawBlockSize * (b + 1));
    } else {
      SliceOfRight(Log(init), Block(ds[|ds| - 1]));
    }
  }

  /** Wheel w of a run of wheel records sits at 21 * w. */
  lemma {:induction false} WheelsAt(nss: seq<seq<int>>, k: nat, w: nat)
    requires w < k <= |nss|
    requires forall v :: 0 <= v < |nss| ==> |nss[v]| == DrawnPerWheel
    ensures WheelsBytes(nss, k)[WheelRecordSize * w..WheelRecordSize * (w + 1)] == WheelBytes(w, nss[w])
    decreases k
  {
    hide WheelsBytes, WheelBytes;
    WheelsLast(nss, k);
    if w < k - 1 {
      WheelsAt(nss, k - 1, w);
      SliceOfLeft(WheelsBytes(nss, k - 1), WheelBytes(k - 1, nss[k - 1]), WheelRecordSize * w, WheelRecordSize * (w + 1));
    } else {
      SliceOfRight(WheelsBytes(nss, k - 1), WheelBytes(k - 1, nss[k - 1]));
    }
  }

  lemma WheelsLast(nss: seq<seq<int>>, k: nat)
    requires 0 < k <= |nss|
    requires forall v :: 0 <= v < |nss| ==> |nss[v]| == DrawnPerWheel
    ensures WheelsBytes(nss, k) == WheelsBytes(nss, k - 1) + WheelBytes(k - 1, nss[k - 1])
  {
  }

  /** Bytes c..d of block b of the log are bytes c..d of draw b's block. */
  lemma LogWithinBlock(ds: seq<Draw>, b: nat, c: nat, d: nat)
    requires AllShaped(ds) && b < |ds| && c <= d <= DrawBlockSize
    ensures DrawBlockSize * b + d <= |Log(ds)|
    ensures Log(ds)[DrawBlockSize * b + c..DrawBlockSize * b + d] == Block(ds[b])[c..d]
  {
    hide Log, Block;
    LogBlock(ds, b);
    assert DrawBlockSize * (b + 1) == DrawBlockSize * b + DrawBlockSize;
    SliceOfSlice(Log(ds), DrawBlockSize * b, DrawBlockSize * b + DrawBlockSize, c, d);
  }

  /** Wheel w of a block starts at 8 + 21 * w. */
  lemma BlockWheel(dr: Draw, w: nat)
    requires Shaped(dr) && w < WheelCount
    ensures var at := TimeStampSize + WheelRecordSize * w;
            at + WheelRecordSize <= DrawBlockSize &&
            Block(dr)[at..at + WheelRecordSize] == WheelBytes(w, dr.numbers[w])
  {
    hide Block, WheelsBytes, WheelBytes;
    BlockParts(dr);
    WheelsAt(dr.numbers, WheelCount, w);
    SliceOfSlice(Block(dr), TimeStampSize, DrawBlockSize, WheelRecordSize * w, WheelRecordSize * (w + 1));
  }

  /** Wheel w of block b starts at 239 * b + 8 + 21 * w: the offset
      arithmetic of the listing's seeks. */
  lemma LogWheel(ds: seq<Draw>, b: nat, w: nat)
    requires AllShaped(ds) && b < |ds| && w < WheelCount
    ensures var at := DrawBlockSize * b + TimeStampSize + WheelRecordSize * w;
            Log(ds)[at..at + WheelRecordSize] == WheelBytes(w, ds[b].numbers[w])
  {
    hide Log, Block, WheelBytes;
    var at := TimeStampSize + WheelRecordSize * w;
    BlockWheel(ds[b], w);
    LogWithinBlock(ds, b, at, at + WheelRecordSize);
  }

  /** All the wheels of block b follow its time stamp. */
  lemma LogWheels(ds: seq<Draw>, b: nat)
    requires AllShaped(ds) && b < |ds|
    ensures var at := DrawBlockSize * b + TimeStampSize;
            Log(ds)[at..at + WheelRecordSize * WheelCount] == WheelsBytes(ds[b].numbers, WheelCount)
  {
    hide Log, Block, WheelsBytes, WheelBytes, LittleEndian, NumbersBytes;
    var base := DrawBlockSize * b;
    LogBlock(ds, b);
    var block := Block(ds[b]);
    BlockParts(ds[b]);
    assert Log(ds)[base + TimeStampSize..base + DrawBlockSize] == block[TimeStampSize..];
  }

  // ------------------------------------------------------ the backward walk

  /** Where in a block the listing reads, and how many bytes: one wheel's
      record, or all eleven records after the time stamp when no wheel is
      given. */
  function Span(wheel: int): (r: (nat, nat))
    requires wheel == WheelUnspecified || 0 <= wheel < WheelCount
    ensures TimeStampSize <= r.0 && 0 < r.1 && r.0 + r.1 <= DrawBlockSize
    ensures r.1 % WheelRecordSize == 0
  {
    if wheel == WheelUnspecified then (TimeStampSize, WheelRecordSize * WheelCount)
    else (TimeStampSize + WheelRecordSize * wheel, WheelRecordSize)
  }

  lemma MulSucc(a: nat, b: nat)
    ensures a * (b + 1) == a * b + a
  {
  }

  lemma MulMono(a: nat, b: nat, c: nat)
    requires b <= c
    ensures a * b <= a * c
  {
  }

  /** The reference for the walk: the span of each of the `count` newest
      blocks, newest first. */
  function Newest(file: seq<byte>, start: nat, len: nat, count: nat): (r: seq<byte>)
    requires start + len <= DrawBlockSize && DrawBlockSize * count <= |file|
    ensures |r| == len * count
    ensures len % WheelRecordSize == 0 ==> |r| % WheelRecordSize == 0
  {
    if count == 0 then []
    else
      var at := |file| - DrawBlockSize * count + start;
      MulSucc(len, count - 1);
      RecordsOfSpans(len, count);
      Newest(file, start, len, count - 1) + file[at..at + len]
  }

  lemma NewestStep(file: seq<byte>, start: nat, len: nat, i: nat)
    requires start + len <= DrawBlockSize && DrawBlockSize * (i + 1) <= |file|
    ensures var at := |file| - DrawBlockSize * (i + 1) + start;
            Newest(file, start, len, i + 1) == Newest(file, start, len, i) + file[at..at + len]
  {
  }

  /** A log holds a whole number of blocks. */
  lemma BlocksOf(file: seq<byte>, count: nat)
    requires |file| % DrawBlockSize == 0 && count <= |file| / DrawBlockSize
    ensures DrawBlockSize * count <= |file|
    ensures |file| == DrawBlockSize * (|file| / DrawBlockSize)
  {
    var b := |file| / 239;
    assert |file| == 239 * b;
    assert 239 * count <= 239 * b;
  }

  /** Where the walk starts: the span of the last block, and the distance
      back from the end of one span to the start of the previous block's. */
  lemma WalkStart(file: seq<byte>, wheel: int, pos: int, len: nat, back: nat)
    requires wheel == WheelUnspecified || 0 <= wheel < WheelCount
    requires wheel != WheelUnspecified ==>
               pos == |file| - WheelRecordSize * (WheelCount - wheel) && len == WheelRecordSize
               && back == DrawBlockSize + WheelRecordSize
    requires wheel == WheelUnspecified ==>
               pos == |file| - WheelRecordSize * WheelCount && len == WheelRecordSize * WheelCount
               && back == DrawBlockSize * 2 - TimeStampSize
    ensures (pos, len) == (|file| - DrawBlockSize * 1 + Span(wheel).0, Span(wheel).1)
    ensures back == DrawBlockSize + len
  {
  }

  /** One step back through the log: after reading the span of block
      `blocks - 1 - i`, the walk stops exactly when that was the first
      block, and otherwise lands on the span of the block before. */
  lemma WalkAdvance(file: seq<byte>, blocks: nat, start: nat, len: nat, back: nat, pos: int, i: nat)
    requires |file| == DrawBlockSize * blocks && i < blocks
    requires TimeStampSize <= start && 0 < len && start + len <= DrawBlockSize && back == DrawBlockSize + len
    requires pos == |file| - DrawBlockSize * (i + 1) + start
    ensures pos + len <= DrawBlockSize <==> i + 1 == blocks
    ensures pos + len > DrawBlockSize ==>
              pos + len - back == |file| - DrawBlockSize * (i + 2) + start
  {
    assert |file| == 239 * blocks;
    assert pos == 239 * blocks - 239 * (i + 1) + start;
    assert 239 * blocks - 239 * (i + 1) == 239 * (blocks - i - 1);
  }

  /** The walk of `eseguiVediEstrazione` with a byte counter wide enough for
      what it reads: seek to the span of the last block, then read it and
      seek back a block plus the span, until `n` spans are read or the
      first block has been read. */
  method Walk(file: seq<byte>, n: nat, wheel: int) returns (out: seq<byte>)
    requires |file| > 0 && |file| % DrawBlockSize == 0
    requires wheel == WheelUnspecified || 0 <= wheel < WheelCount
    requires n >= 1
    ensures out == Newest(file, Span(wheel).0, Span(wheel).1, Min(n, |file| / DrawBlockSize))
  {
    hide Newest, Span;
    ghost var blocks := |file| / DrawBlockSize;
    ghost var start := Span(wheel).0;
    BlocksOf(file, 0);
    var len: nat, back: nat, pos: int;
    if wheel != WheelUnspecified {
      pos := |file| - WheelRecordSize * (WheelCount - wheel);
      len := WheelRecordSize;
      back := DrawBlockSize + WheelRecordSize;
    } else {
      pos := |file| - WheelRecordSize * WheelCount;
      len := WheelRecordSize * WheelCount;
      back := DrawBlockSize * 2 - TimeStampSize;
    }
    WalkStart(file, wheel, pos, len, back);
    var i: nat := 0;
    out := [];
    while i < n
      invariant i <= n && i < blocks
      invariant pos == |file| - DrawBlockSize * (i + 1) + start
      invariant out == Newest(file, start, len, i)
      decreases n - i
    {
      NewestStep(file, start, len, i);
      out := out + file[pos..pos + len];
      WalkAdvance(file, blocks, start, len, back, pos, i);
      pos := pos + len;
      if pos <= DrawBlockSize {
        return;
      }
      pos := pos - back;
      i := i + 1;
    }
  }

  lemma ModAdd(a: nat, b: nat)
    ensures (a % Two16 + b) % Two16 == (a + b) % Two16
  {
  }

  /** One read of the walk as written: the span lands at the counter's
      value, and the counter advances modulo 2^16. */
  lemma BufferStep(before: seq<byte>, counter: nat, rec: seq<byte>, len: nat, i: nat, n: nat, prev: seq<byte>)
    requires |rec| == len && |before| == n * len && i < n
    requires counter == len * i % Two16
    requires len * i < Two16 ==> before[..len * i] == prev
    ensures counter + len <= |before| && len * (i + 1) <= |before| && len * (i + 1) == len * i + len
    ensures var after := before[..counter] + rec + before[counter + len..];
            && |after| == n * len
            && (counter + len) % Two16 == len * (i + 1) % Two16
            && (len * (i + 1) < Two16 ==> after[..len * (i + 1)] == prev + rec)
  {
    MulSucc(len, i);
    MulMono(len, i + 1, n);
    ModAdd(len * i, len);
    var after := before[..counter] + rec + before[counter + len..];
    if len * (i + 1) < Two16 {
      assert counter == len * i;
      assert after[..len * (i + 1)] == before[..len * i] + rec;
    }
  }

  /** One turn of the walk as written, in terms of the bytes read so far:
      the buffer keeps its size, and while the total stays below 2^16 its
      prefix grows by the span just read. */
  lemma AsWrittenStep(file: seq<byte>, start: nat, len: nat, n: nat, i: nat, buf: seq<byte>, total: nat, pos: int)
    requires start + len <= DrawBlockSize && DrawBlockSize * (i + 1) <= |file| && i < n
    requires pos == |file| - DrawBlockSize * (i + 1) + start
    requires |buf| == n * len && total == len * i
    requires total < Two16 ==> buf[..total] == Newest(file, start, len, i)
    ensures total % Two16 + len <= |buf| && total + len == len * (i + 1) && total + len <= |buf|
    ensures var c := total % Two16;
            var buf' := buf[..c] + file[pos..pos + len] + buf[c + len..];
            && |buf'| == n * len
            && (c + len) % Two16 == (total + len) % Two16
            && (total + len < Two16 ==> buf'[..total + len] == Newest(file, start, len, i + 1))
  {
    hide Newest;
    NewestStep(file, start, len, i);
    BufferStep(buf, total % Two16, file[pos..pos + len], len, i, n, Newest(file, start, len, i));
  }

  /** The walk as written: the byte counter is a 16-bit unsigned integer,
      each span is read into the reply buffer at the counter's value, and
      the counter's final value is the length sent.  While the total stays
      below 2^16 the reply is the reference; beyond, the counter wraps. */
  method WalkAsWritten(file: seq<byte>, n: nat, wheel: int) returns (buf: seq<byte>, counter: nat)
    requires |file| > 0 && |file| % DrawBlockSize == 0
    requires wheel == WheelUnspecified || 0 <= wheel < WheelCount
    requires n >= 1
    ensures counter < Two16
    ensures var (start, len) := Span(wheel);
            var c := Min(n, |file| / DrawBlockSize);
            && counter == len * c % Two16
            && (len * c < Two16 ==>
                  counter == len * c && counter <= |buf| && buf[..counter] == Newest(file, start, len, c))
  {
    hide Newest, Span;
    var len: nat, back: nat, pos: int;
    if wheel != WheelUnspecified {
      pos := |file| - WheelRecordSize * (WheelCount - wheel);
      len := WheelRecordSize;
      back := DrawBlockSize + WheelRecordSize;
    } else {
      pos := |file| - WheelRecordSize * WheelCount;
      len := WheelRecordSize * WheelCount;
      back := DrawBlockSize * 2 - TimeStampSize;
    }
    WalkStart(file, wheel, pos, len, back);
    buf, counter := ReadSpansAsWritten(file, n, Span(wheel).0, len, back, pos);
  }

  /** The reading loop of the walk as written, from the span of the last
      block. */
  method ReadSpansAsWritten(file: seq<byte>, n: nat, start: nat, len: nat, back: nat, pos0: int)
    returns (buf: seq<byte>, counter: nat)
    requires |file| > 0 && |file| % DrawBlockSize == 0 && n >= 1
    requires TimeStampSize <= start && 0 < len && start + len <= DrawBlockSize && back == DrawBlockSize + len
    requires pos0 == |file| - DrawBlockSize * 1 + start
    ensures counter < Two16
    ensures var c := Min(n, |file| / DrawBlockSize);
            && counter == len * c % Two16
            && (len * c < Two16 ==>
                  counter == len * c && counter <= |buf| && buf[..counter] == Newest(file, start, len, c))
  {
    hide Newest;
    ghost var blocks := |file| / DrawBlockSize;
    BlocksOf(file, 0);
    var pos := pos0;
    buf := seq(n * len, _ => 0 as byte);
    counter := 0;
    var i: nat := 0;
    ghost var total: nat := 0;
    while i < n
      invariant i <= n && i < blocks
      invariant pos == |file| - DrawBlockSize * (i + 1) + start
      invariant |buf| == n * len
      invariant total == len * i && total <= |buf| && counter == total % Two16
      invariant total < Two16 ==> buf[..total] == Newest(file, start, len, i)
      decreases n - i
    {
      AsWrittenStep(file, start, len, n, i, buf, total, pos);
      buf := buf[..counter] + file[pos..pos + len] + buf[counter + len..];
      counter := (counter + len) % Two16;
      total := total + len;
      WalkAdvance(file, blocks, start, len, back, pos, i);
      pos := pos + len;
      if pos <= DrawBlockSize {
        assert i + 1 == blocks && Min(n, blocks) == i + 1;
        return;
      }
      pos := pos - back;
      i := i + 1;
    }
    assert Min(n, blocks) == n;
  }

  /** Listing 284 draws of every wheel from a log of 284 draws: the walk
      reads 65604 bytes, but the 16-bit counter ends at 68, so only 68
      bytes are sent. */
  lemma AllWheelsListingWraps(file: seq<byte>)
    requires |file| == DrawBlockSize * 284
    ensures var (start, len) := Span(WheelUnspecified);
            var c := Min(284, |file| / DrawBlockSize);
            && |Newest(file, start, len, c)| == 65604
            && len * c % Two16 == 68
  {
  }

  // ------------------------------------------------------- network order

  /** `htonl` on consecutive stored numbers: each group of four bytes is
      reversed. */
  function NumbersToNetwork(bs: seq<byte>): (r: seq<byte>)
    requires |bs| % 4 == 0
    ensures |r| == |bs|
    decreases |bs|
  {
    if bs == [] then [] else Reverse(bs[..4]) + NumbersToNetwork(bs[4..])
  }

  /** The conversion loop of the listing: in each 21-byte record the code
      byte is kept and the five numbers are turned to network order. */
  function RecordsToNetwork(bs: seq<byte>): (r: seq<byte>)
    requires |bs| % WheelRecordSize == 0
    ensures |r| == |bs|
    decreases |bs|
  {
    if bs == [] then []
    else [bs[0]] + NumbersToNetwork(bs[1..WheelRecordSize]) + RecordsToNetwork(bs[WheelRecordSize..])
  }

  lemma {:induction false} RecordsToNetworkSplit(a: seq<byte>, b: seq<byte>)
    requires |a| % WheelRecordSize == 0 && |b| % WheelRecordSize == 0
    ensures RecordsToNetwork(a + b) == RecordsToNetwork(a) + RecordsToNetwork(b)
    decreases |a|
  {
    if a == [] {
      assert a + b == b;
    } else {
      assert (a + b)[0] == a[0];
      assert (a + b)[1..WheelRecordSize] == a[1..WheelRecordSize];
      assert (a + b)[WheelRecordSize..] == a[WheelRecordSize..] + b;
      RecordsToNetworkSplit(a[WheelRecordSize..], b);
    }
  }

  /** Numbers in network order, as the client reads them. */
  function NetNumbers(ns: seq<int>): (r: seq<byte>)
    ensures |r| == 4 * |ns|
  {
    if ns == [] then [] else BigEndian(ns[0], 4) + NetNumbers(ns[1..])
  }

  /** One wheel as it travels: the code byte, then the five numbers in
      network order. */
  function NetWheel(code: nat, ns: seq<int>): (r: seq<byte>)
    ensures |r| == 1 + 4 * |ns|
  {
    [(code % 256) as byte] + NetNumbers(ns)
  }

  /** Wheels 0..k-1 of a draw as they travel. */
  function NetWheels(nss: seq<seq<int>>, k: nat): (r: seq<byte>)
    requires k <= |nss|
  {
    if k == 0 then [] else NetWheels(nss, k - 1) + NetWheel(k - 1, nss[k - 1])
  }

  lemma {:induction false} NumbersNetwork(ns: seq<int>)
    ensures NumbersToNetwork(NumbersBytes(ns)) == NetNumbers(ns)
    decreases |ns|
  {
    if ns != [] {
      var bs := NumbersBytes(ns);
      assert bs[..4] == LittleEndian(ns[0], 4);
      assert bs[4..] == NumbersBytes(ns[1..]);
      ReverseLittleEndian(ns[0], 4);
      NumbersNetwork(ns[1..]);
    }
  }

  lemma WheelNetwork(code: nat, ns: seq<int>)
    requires |ns| == DrawnPerWheel
    ensures RecordsToNetwork(WheelBytes(code, ns)) == NetWheel(code, ns)
  {
    var bs := WheelBytes(code, ns);
    assert bs[1..WheelRecordSize] == NumbersBytes(ns);
    assert bs[WheelRecordSize..] == [];
    NumbersNetwork(ns);
  }

  lemma {:induction false} WheelsNetwork(nss: seq<seq<int>>, k: nat)
    requires k <= |nss|
    requires forall w :: 0 <= w < |nss| ==> |nss[w]| == DrawnPerWheel
    ensures RecordsToNetwork(WheelsBytes(nss, k)) == NetWheels(nss, k)
    decreases k
  {
    hide WheelsBytes, WheelBytes, RecordsToNetwork, NetWheels, NetWheel;
    if k > 0 {
      WheelsNetwork(nss, k - 1);
      WheelNetwork(k - 1, nss[k - 1]);
      WheelsLast(nss, k);
      NetWheelsLast(nss, k);
      RecordsMultiple(k - 1);
      RecordsToNetworkSplit(WheelsBytes(nss, k - 1), WheelBytes(k - 1, nss[k - 1]));
    } else {
      WheelsNone(nss);
    }
  }

  lemma WheelsNone(nss: seq<seq<int>>)
    requires forall w :: 0 <= w < |nss| ==> |nss[w]| == DrawnPerWheel
    ensures WheelsBytes(nss, 0) == [] && NetWheels(nss, 0) == [] && RecordsToNetwork([]) == []
  {
  }

  lemma NetWheelsLast(nss: seq<seq<int>>, k: nat)
    requires 0 < k <= |nss|
    ensures NetWheels(nss, k) == NetWheels(nss, k - 1) + NetWheel(k - 1, nss[k - 1])
  {
  }

  lemma RecordsMultiple(k: nat)
    ensures (WheelRecordSize * k) % WheelRecordSize == 0
    ensures (1 + 4 * DrawnPerWheel) % WheelRecordSize == 0
  {
    assert WheelRecordSize * k == 21 * k;
  }

  /** What the listing should send for a log of the draws `ds`: for each of
      the `count` newest draws, newest first, the requested wheel or all of
      them, in network order. */
  function ExpectedReply(ds: seq<Draw>, wheel: int, count: nat): seq<byte>
    requires AllShaped(ds) && count <= |ds|
    requires wheel == WheelUnspecified || 0 <= wheel < WheelCount
  {
    if count == 0 then []
    else
      var d := ds[|ds| - count];
      ExpectedReply(ds, wheel, count - 1)
      + (if wheel == WheelUnspecified then NetWheels(d.numbers, WheelCount)
         else NetWheel(wheel, d.numbers[wheel]))
  }

  /** The spans the walk reads from a log, turned to network order, are the
      expected reply. */
  lemma {:induction false} NewestOfLog(ds: seq<Draw>, wheel: int, count: nat)
    requires AllShaped(ds) && count <= |ds|
    requires wheel == WheelUnspecified || 0 <= wheel < WheelCount
    ensures var (start, len) := Span(wheel);
            RecordsToNetwork(Newest(Log(ds), start, len, count)) == ExpectedReply(ds, wheel, count)
    decreases count
  {
    if count > 0 {
      NewestOfLogStep(ds, wheel, count);
    }
  }

  lemma {:induction false} NewestOfLogStep(ds: seq<Draw>, wheel: int, count: nat)
    requires AllShaped(ds) && 0 < count <= |ds|
    requires wheel == WheelUnspecified || 0 <= wheel < WheelCount
    ensures var (start, len) := Span(wheel);
            RecordsToNetwork(Newest(Log(ds), start, len, count)) == ExpectedReply(ds, wheel, count)
    decreases count, 0
  {
    hide Log, Newest, RecordsToNetwork, WheelsBytes, WheelBytes, NetWheels, NetWheel;
    var (start, len) := Span(wheel);
    var log := Log(ds);
    var b := |ds| - count;
    var at := DrawBlockSize * b + start;
    assert |log| - DrawBlockSize * count + start == at by {
      assert |log| == 239 * |ds|;
      assert 239 * |ds| - 239 * count == 239 * b;
    }
    NewestStep(log, start, len, count - 1);
    var prev := Newest(log, start, len, count - 1);
    var span := log[at..at + len];
    assert Newest(log, start, len, count) == prev + span;
    NewestOfLog(ds, wheel, count - 1);
    var d := ds[b];
    var tail := if wheel == WheelUnspecified then NetWheels(d.numbers, WheelCount)
                else NetWheel(wheel, d.numbers[wheel]);
    assert ExpectedReply(ds, wheel, count) == ExpectedReply(ds, wheel, count - 1) + tail;
    if wheel == WheelUnspecified {
      LogWheels(ds, b);
      WheelsNetwork(d.numbers, WheelCount);
    } else {
      LogWheel(ds, b, wheel);
      WheelNetwork(wheel, d.numbers[wheel]);
    }
    assert RecordsToNetwork(span) == tail;
    RecordsOfSpans(len, count - 1);
    RecordsToNetworkSplit(prev, span);
  }

  /** Whole records stay whole however many spans are read. */
  lemma RecordsOfSpans(len: nat, c: nat)
    ensures len % WheelRecordSize == 0 ==> (len * c) % WheelRecordSize == 0
  {
    if len % WheelRecordSize == 0 {
      var m := len / 21;
      assert len == 21 * m;
      assert len * c == 21 * (m * c);
    }
  }

  // -------------------------------------------------------- the request

  /** The listing request after the message code: the session id and its
      NUL, the number of draws as a 4-byte network-order integer, and the
      wheel byte. */
  function ListDrawsRequest(session: seq<byte>, n: nat, wheel: byte): seq<byte>
    requires |session| == SessionIdLength + 1
  {
    session + BigEndian(n, 4) + [wheel]
  }

  /** `eseguiVediEstrazione`: a message too short for its arguments, a zero
      count or a wheel byte that is neither a code nor "unspecified" is
      malformed; an empty log is reported as an empty file; otherwise the
      reply is the spans of the newest blocks in network order. */
  function ListDraws(msg: seq<byte>, file: seq<byte>): (r: Result<seq<byte>>)
    requires |file| % DrawBlockSize == 0
  {
    if |msg| < SessionIdLength + 1 + 4 + 1 then Err(Malformed)
    else
      var n := FromBigEndian(msg[SessionIdLength + 1..SessionIdLength + 5]);
      var wheel := msg[SessionIdLength + 5] as int;
      if n == 0 || (wheel != WheelUnspecified && wheel >= WheelCount) then Err(Malformed)
      else if |file| == 0 then Err(Empty)
      else
        var (start, len) := Span(wheel);
        Ok(RecordsToNetwork(Newest(file, start, len, Min(n, |file| / DrawBlockSize))))
  }

  /** The listing on the log file: argument checks, the walk, then the
      conversion to network order. */
  method ServeListDraws(msg: seq<byte>, file: seq<byte>) returns (r: Result<seq<byte>>)
    requires |file| % DrawBlockSize == 0
    ensures r == ListDraws(msg, file)
  {
    if |msg| < SessionIdLength + 1 + 4 + 1 { return Err(Malformed); }
    var n := FromBigEndian(msg[SessionIdLength + 1..SessionIdLength + 5]);
    var wheel := msg[SessionIdLength + 5] as int;
    if n == 0 || (wheel != WheelUnspecified && wheel >= WheelCount) { return Err(Malformed); }
    if |file| == 0 { return Err(Empty); }
    var out := Walk(file, n, wheel);
    r := Ok(RecordsToNetwork(out));
  }

  /** The outcome of a listing request: malformed exactly for a zero count
      or an unknown wheel byte, empty exactly when no draw has happened,
      and otherwise the requested wheel (or every wheel) of the
      min(n, draws) newest draws, newest first, in network order. */
  lemma ListDrawsSpec(session: seq<byte>, n: nat, wheel: byte, ds: seq<Draw>)
    requires |session| == SessionIdLength + 1 && n < Two32
    requires AllShaped(ds)
    ensures var r := ListDraws(ListDrawsRequest(session, n, wheel), Log(ds));
            && (r == Err(Malformed) <==>
                  n == 0 || (wheel as int != WheelUnspecified && wheel as int >= WheelCount))
            && (r == Err(Empty) <==> r != Err(Malformed) && ds == [])
            && (r.Ok? ==> r.value == ExpectedReply(ds, wheel as int, Min(n, |ds|)))
  {
    hide Log, Newest, RecordsToNetwork, ExpectedReply, Span;
    var msg := ListDrawsRequest(session, n, wheel);
    assert msg[SessionIdLength + 1..SessionIdLength + 5] == BigEndian(n, 4);
    assert msg[SessionIdLength + 5] == wheel;
    NumberRoundTrip(n);
    var w := wheel as int;
    if n > 0 && (w == WheelUnspecified || w < WheelCount) && ds != [] {
      assert |Log(ds)| / DrawBlockSize == |ds|;
      NewestOfLog(ds, w, Min(n, |ds|));
    }
  }
}

=== FILE: draws.dfy ===
/** One extraction ("estrazione"): a time stamp and five numbers for each of
    the eleven wheels, indexed by wheel code. */
module Draws {
  import opened Common
  import opened Constants

  datatype Draw = Draw(ts: int, numbers: seq<seq<int>>)

  /** Five distinct numbers in 1..90. */
  predicate WheelNumbersOk(ns: seq<int>) {
    && |ns| == DrawnPerWheel
    && (forall k :: 0 <= k < |ns| ==> 1 <= ns[k] <= HighestNumber)
    && PairwiseDistinct(ns)
  }

  /** Eleven wheels of five numbers each: the shape of a draw block. */
  predicate Shaped(d: Draw) {
    |d.numbers| == WheelCount && forall w :: 0 <= w < |d.numbers| ==> |d.numbers[w]| == DrawnPerWheel
  }

  predicate WellFormed(d: Draw) {
    && |d.numbers| == WheelCount
    && forall w :: 0 <= w < |d.numbers| ==> WheelNumbersOk(d.numbers[w])
  }
}

=== FILE: extraction.dfy ===
/** A draw (`effettuaEstrazione`): for each wheel, five distinct numbers by
    rejection sampling from the random generator, the new block appended to
    the draw log, and every bet ledger marked as extracted
    (`aggiornaHeaderSchedine`).  The generator is an input: the stream of
    values `rand()` would return, which may run out. */
module Extraction {
  import opened Common
  import opened Constants
  import opened Draws
  import opened DrawLog
  import Ledger

  /** The number a generator value proposes: `rand() % 90 + 1`. */
  function Candidate(x: nat): (v: int)
    ensures 1 <= v <= HighestNumber
  {
    x % HighestNumber + 1
  }

  /** Reference: the distinct candidates of a stream, in order of first
      appearance. */
  function Fresh(xs: seq<nat>): (r: seq<int>)
    ensures |r| <= |xs|
  {
    if xs == [] then []
    else
      var r0 := Fresh(xs[..|xs| - 1]);
      var v := Candidate(xs[|xs| - 1]);
      if v in r0 then r0 else r0 + [v]
  }

  /** Some value of the stream proposes v. */
  predicate Proposed(xs: seq<nat>, v: int) {
    exists i :: 0 <= i < |xs| && Candidate(xs[i]) == v
  }

  /** Every number of the reference is a candidate of the stream, they are
      pairwise distinct and in 1..90, and every candidate of the stream is
      among them. */
  lemma {:induction false} FreshSpec(xs: seq<nat>)
    ensures PairwiseDistinct(Fresh(xs))
    ensures forall k :: 0 <= k < |Fresh(xs)| ==> 1 <= Fresh(xs)[k] <= HighestNumber
    ensures forall v :: v in Fresh(xs) <==> Proposed(xs, v)
    decreases |xs|
  {
    if xs != [] {
      var init := xs[..|xs| - 1];
      FreshSpec(init);
      forall v | Proposed(init, v)
        ensures Proposed(xs, v)
      {
        var i :| 0 <= i < |init| && Candidate(init[i]) == v;
        assert xs[i] == init[i];
      }
      forall v | Proposed(xs, v)
        ensures v in Fresh(xs)
      {
        var i :| 0 <= i < |xs| && Candidate(xs[i]) == v;
        if i < |init| {
          assert init[i] == xs[i];
          assert Proposed(init, v);
        }
      }
    }
  }

  /** Rejection sampling as a recursion over the stream: `picked` holds the
      numbers accepted so far. */
  function Take(stream: seq<nat>, pos: nat, picked: seq<int>): (r: Option<(seq<int>, nat)>)
    requires pos <= |stream|
    ensures r.Some? ==> pos <= r.value.1 <= |stream|
    decreases |stream| - pos
  {
    if |picked| >= DrawnPerWheel then Some((picked, pos))
    else if pos == |stream| then None
    else
      var v := Candidate(stream[pos]);
      Take(stream, pos + 1, if v in picked then picked else picked + [v])
  }

  function Sample(stream: seq<nat>, from: nat): (r: Option<(seq<int>, nat)>)
    requires from <= |stream|
    ensures r.Some? ==> from <= r.value.1 <= |stream|
  {
    Take(stream, from, [])
  }

  lemma FreshAppend(xs: seq<nat>, x: nat)
    ensures Fresh(xs + [x]) == if Candidate(x) in Fresh(xs) then Fresh(xs) else Fresh(xs) + [Candidate(x)]
  {
    assert (xs + [x])[..|xs|] == xs;
  }

  /** The recursion keeps `picked` equal to the reference over the part of
      the stream it has consumed, and stops at the first point where that
      reference reaches five numbers. */
  lemma {:induction false} TakeFresh(stream: seq<nat>, from: nat, pos: nat)
    requires from <= pos <= |stream|
    requires |Fresh(stream[from..pos])| <= DrawnPerWheel
    requires pos > from ==> |Fresh(stream[from..pos - 1])| < DrawnPerWheel
    ensures var r := Take(stream, pos, Fresh(stream[from..pos]));
            && (r.None? <==> |Fresh(stream[from..])| < DrawnPerWheel)
            && (r.Some? ==>
                  var (ns, p) := r.value;
                  && from < p
                  && ns == Fresh(stream[from..p])
                  && |ns| == DrawnPerWheel
                  && |Fresh(stream[from..p - 1])| < DrawnPerWheel)
    decreases |stream| - pos
  {
    hide Take, Fresh;
    if |Fresh(stream[from..pos])| >= DrawnPerWheel {
      TakeFull(stream, from, pos);
    } else if pos == |stream| {
      assert stream[from..pos] == stream[from..];
      TakeEnd(stream, from);
    } else {
      TakeAdvance(stream, from, pos);
      TakeFresh(stream, from, pos + 1);
    }
  }

  /** The stream is used up before five numbers: no draw. */
  lemma TakeEnd(stream: seq<nat>, from: nat)
    requires from <= |stream|
    requires |Fresh(stream[from..])| < DrawnPerWheel
    ensures Take(stream, |stream|, Fresh(stream[from..|stream|])).None?
  {
    assert stream[from..|stream|] == stream[from..];
  }

  lemma TakeFull(stream: seq<nat>, from: nat, pos: nat)
    requires from <= pos <= |stream|
    requires |Fresh(stream[from..pos])| == DrawnPerWheel
    ensures Take(stream, pos, Fresh(stream[from..pos])) == Some((Fresh(stream[from..pos]), pos))
    ensures from < pos
    ensures |Fresh(stream[from..])| >= DrawnPerWheel
  {
    FreshPrefixBound(stream[from..], pos - from);
    assert stream[from..][..pos - from] == stream[from..pos];
  }

  /** One more value consumed: the recursion's next `picked` is the
      reference over one more value. */
  lemma TakeAdvance(stream: seq<nat>, from: nat, pos: nat)
    requires from <= pos < |stream|
    requires |Fresh(stream[from..pos])| < DrawnPerWheel
    ensures Take(stream, pos, Fresh(stream[from..pos])) == Take(stream, pos + 1, Fresh(stream[from..pos + 1]))
    ensures |Fresh(stream[from..pos + 1])| <= DrawnPerWheel
    ensures stream[from..pos + 1 - 1] == stream[from..pos]
  {
    var next := stream[from..pos + 1];
    assert next == stream[from..pos] + [stream[pos]];
    FreshAppend(stream[from..pos], stream[pos]);
  }

  /** The reference only grows along a stream: once it holds k numbers for a
      prefix it holds at least k for every longer prefix. */
  lemma {:induction false} FreshPrefixBound(xs: seq<nat>, p: nat)
    requires p <= |xs|
    ensures |Fresh(xs[..p])| <= |Fresh(xs)|
    decreases |xs| - p
  {
    if p < |xs| {
      FreshPrefixBound(xs, p + 1);
      assert xs[..p + 1][..p] == xs[..p];
      assert xs[..p + 1] == xs[..p] + [xs[p]];
      FreshAppend(xs[..p], xs[p]);
    } else {
      assert xs[..p] == xs;
    }
  }

  /** What sampling one wheel yields: nothing when the stream does not hold
      five distinct candidates after `from`; otherwise the first five
      distinct candidates, taken from the shortest stretch of the stream
      that holds them, which are five distinct numbers in 1..90. */
  lemma SampleSpec(stream: seq<nat>, from: nat)
    requires from <= |stream|
    ensures var r := Sample(stream, from);
            && (r.None? <==> |Fresh(stream[from..])| < DrawnPerWheel)
            && (r.Some? ==>
                  var (ns, p) := r.value;
                  && from < p
                  && ns == Fresh(stream[from..p])
                  && |Fresh(stream[from..p - 1])| < DrawnPerWheel
                  && WheelNumbersOk(ns))
  {
    assert stream[from..from] == [];
    TakeFresh(stream, from, from);
    var r := Sample(stream, from);
    if r.Some? {
      FreshSpec(stream[from..r.value.1]);
    }
  }

  /** The sampling loops of `effettuaEstrazione` for one wheel: for each of
      the five slots, draw candidates until one differs from all numbers
      already in the earlier slots. */
  method SampleWheel(stream: seq<nat>, from: nat) returns (r: Option<(seq<int>, nat)>)
    requires from <= |stream|
    ensures r == Sample(stream, from)
  {
    var picked: seq<int> := [];
    var pos: nat := from;
    var i := 0;
    while i < DrawnPerWheel
      invariant pos <= |stream|
      invariant i <= DrawnPerWheel && |picked| == i
      invariant Take(stream, pos, picked) == Sample(stream, from)
    {
      var unique := false;
      while !unique
        invariant pos <= |stream|
        invariant |picked| == if unique then i + 1 else i
        invariant Take(stream, pos, picked) == Sample(stream, from)
        decreases |stream| - pos
      {
        if pos == |stream| {
          return None;
        }
        var v := Candidate(stream[pos]);
        pos := pos + 1;
        unique := true;
        var k := 0;
        while k < i
          invariant k <= i
          invariant unique <==> forall j :: 0 <= j < k ==> picked[j] != v
        {
          if v == picked[k] {
            unique := false;
            break;
          }
          k := k + 1;
        }
        assert unique <==> v !in picked;
        if unique {
          picked := picked + [v];
        }
      }
      i := i + 1;
    }
    r := Some((picked, pos));
  }

  /** Wheels 0..k-1 sampled one after another from the same stream. */
  function SampleWheels(stream: seq<nat>, k: nat): (r: Option<(seq<seq<int>>, nat)>)
    ensures r.Some? ==> |r.value.0| == k && r.value.1 <= |stream|
  {
    if k == 0 then Some(([], 0))
    else
      match SampleWheels(stream, k - 1)
      case None => None
      case Some((nss, p)) =>
        match Sample(stream, p)
        case None => None
        case Some((ns, q)) => Some((nss + [ns], q))
  }

  /** A whole draw at time `ts`, or nothing when the stream runs out. */
  function DrawNumbers(ts: int, stream: seq<nat>): (r: Option<Draw>)
    ensures r.Some? ==> r.value.ts == ts
  {
    match SampleWheels(stream, WheelCount)
    case None => None
    case Some((nss, _)) => Some(Draw(ts, nss))
  }

  lemma {:induction false} SampleWheelsOk(stream: seq<nat>, k: nat)
    ensures var r := SampleWheels(stream, k);
            r.Some? ==> forall w :: 0 <= w < k ==> WheelNumbersOk(r.value.0[w])
    decreases k
  {
    if k > 0 {
      SampleWheelsOk(stream, k - 1);
      var prev := SampleWheels(stream, k - 1);
      if prev.Some? {
        SampleSpec(stream, prev.value.1);
      }
    }
  }

  /** Every wheel of a generated draw holds five distinct numbers in 1..90. */
  lemma DrawNumbersWellFormed(ts: int, stream: seq<nat>)
    ensures var r := DrawNumbers(ts, stream);
            r.Some? ==> WellFormed(r.value) && Shaped(r.value)
  {
    SampleWheelsOk(stream, WheelCount);
  }

  /** The server state a draw touches: the draws so far, oldest first, and
      every user's bet ledger. */
  datatype State = State(draws: seq<Draw>, ledgers: seq<Ledger.Ledger>)

  /** `effettuaEstrazione` followed by `aggiornaHeaderSchedine`: the new
      draw is appended and every ledger's first header field moves to the
      end of its file. */
  function Extract(s: State, ts: int, stream: seq<nat>): (r: Option<State>)
  {
    match DrawNumbers(ts, stream)
    case None => None
    case Some(d) => Some(State(s.draws + [d], seq(|s.ledgers|, i requires 0 <= i < |s.ledgers| => Ledger.Extract(s.ledgers[i]))))
  }

  /** A draw appends exactly one well-formed block to the log, leaves every
      bet where it was, and marks every bet placed so far as extracted
      without touching the winnings cursor. */
  lemma ExtractSpec(s: State, ts: int, stream: seq<nat>)
    requires AllShaped(s.draws)
    ensures var r := Extract(s, ts, stream);
            && (r.None? <==> DrawNumbers(ts, stream).None?)
            && (r.Some? ==>
                  var d := r.value.draws[|r.value.draws| - 1];
                  && r.value.draws == s.draws + [d]
                  && d.ts == ts && WellFormed(d)
                  && AllShaped(r.value.draws)
                  && Log(r.value.draws) == Log(s.draws) + Block(d)
                  && |r.value.ledgers| == |s.ledgers|
                  && forall i :: 0 <= i < |s.ledgers| ==>
                       var before, after := s.ledgers[i], r.value.ledgers[i];
                       && after.records == before.records
                       && after.unchecked == before.unchecked
                       && Ledger.Offset(after, after.unextracted) == Ledger.Size(before))
  {
    var r := Extract(s, ts, stream);
    if r.Some? {
      var d := DrawNumbers(ts, stream).value;
      DrawNumbersWellFormed(ts, stream);
      var ds := s.draws + [d];
      assert ds[..|ds| - 1] == s.draws;
    }
  }
}

=== FILE: gate.dfy ===
/** The per-connection request loop of the server
    (`gestisciRichiesteClient`): which requests are refused before
    dispatch, how a login changes the connection, and when the connection
    is closed.  Requests other than login are dispatched by kind; what they
    do is modelled in their own modules. */
module Gate {
  import opened Common
  import opened Constants
  import opened Login

  /** The state one connection keeps. */
  datatype Conn = Conn(loggedIn: bool, session: seq<byte>, user: Option<seq<byte>>, failures: nat, open: bool)

  const Initial: Conn := Conn(false, [], None, 0, true)

  /** The session identifier a request carries after its code byte matches
      the connection's (`strncmp` over the identifier's ten characters). */
  predicate SessionMatches(c: Conn, msg: seq<byte>) {
    && |msg| >= 1 + SessionIdLength
    && |c.session| >= SessionIdLength
    && msg[1..1 + SessionIdLength] == c.session[..SessionIdLength]
  }

  /** The error code a request is refused with before dispatch, if any. */
  function Admit(c: Conn, msg: seq<byte>): (r: Option<int>)
    requires |msg| >= 1
  {
    var kind := msg[0] as int;
    var entry := kind == MsgSignup || kind == MsgLogin;
    if !c.loggedIn && !entry then Some(ErrNotLoggedIn)
    else if c.loggedIn && entry then Some(ErrAlreadyLoggedIn)
    else if c.loggedIn && !SessionMatches(c, msg) then Some(ErrBadSessionId)
    else None
  }

  /** A request reaches its handler exactly when it is a signup or login
      on a connection not yet logged in, or any other request carrying the
      session identifier of a logged-in connection. */
  lemma AdmitSpec(c: Conn, msg: seq<byte>)
    requires |msg| >= 1
    ensures var kind := msg[0] as int;
            Admit(c, msg).None? <==>
              (!c.loggedIn && (kind == MsgSignup || kind == MsgLogin))
              || (c.loggedIn && kind != MsgSignup && kind != MsgLogin && SessionMatches(c, msg))
    ensures Admit(c, msg).Some? ==> Admit(c, msg).value in {ErrNotLoggedIn, ErrAlreadyLoggedIn, ErrBadSessionId}
  {
  }

  /** The server-wide data a login reads and may write. */
  datatype World = World(lockouts: seq<Lockout>, accounts: seq<Account>)

  /** One request as it arrives, with the client address, the clock and the
      generator values at that moment. */
  datatype Request = Request(msg: seq<byte>, addr: nat, now: int, randoms: seq<nat>)

  predicate WellFormedRequest(q: Request) {
    |q.msg| >= 1 && |q.randoms| >= SessionIdLength
  }

  /** What the server answers. */
  datatype Answer = Refused(code: int) | LoginAnswer(reply: LoginReply) | Dispatched(kind: int)

  /** One turn of the loop: the gate, then for a login the login and the
      connection update (logged in on success; closed after a failure that
      brings the count to three, or when the login process dies). */
  function Handle(c: Conn, w: World, q: Request): (r: (Conn, World, Answer))
    requires WellFormedRequest(q)
  {
    match Admit(c, q.msg)
    case Some(code) => (c, w, Refused(code))
    case None =>
      if q.msg[0] as int == MsgLogin then
        var a := Attempt(w.lockouts, w.accounts, q.addr, q.now, q.msg[1..], c.failures, q.randoms);
        var granted := a.reply.Granted?;
        var c' := Conn(granted,
                       if granted then a.reply.id else c.session,
                       if granted then a.user else c.user,
                       a.failures,
                       a.reply != Aborted && (granted || a.failures < 3));
        (c', World(a.lockouts, w.accounts), LoginAnswer(a.reply))
      else
        (c, w, Dispatched(q.msg[0] as int))
  }

  /** The loop over a sequence of requests; nothing is read once the
      connection is closed. */
  function Run(c: Conn, w: World, qs: seq<Request>): (r: (Conn, World))
    requires forall i :: 0 <= i < |qs| ==> WellFormedRequest(qs[i])
    decreases |qs|
  {
    if qs == [] || !c.open then (c, w)
    else
      var (c', w', _) := Handle(c, w, qs[0]);
      Run(c', w', qs[1..])
  }

  /** What a connection keeps true: the failure count never passes three,
      an open connection has fewer than three, and a logged-in connection
      holds a user and a ten-character alphanumeric session identifier. */
  predicate Sound(c: Conn) {
    && c.failures <= 3
    && (c.open ==> c.failures < 3)
    && (c.loggedIn ==>
          && c.user.Some?
          && |c.session| == SessionIdLength + 1
          && forall i :: 0 <= i < SessionIdLength ==> IsAlphanumeric(c.session[i]))
  }

  lemma HandleSound(c: Conn, w: World, q: Request)
    requires WellFormedRequest(q) && Sound(c) && c.open
    ensures Sound(Handle(c, w, q).0)
    ensures !c.loggedIn && Handle(c, w, q).0.loggedIn ==> Handle(c, w, q).2 == LoginAnswer(Granted(Handle(c, w, q).0.session))
    ensures Handle(c, w, q).2.Dispatched? ==>
              (c.loggedIn && SessionMatches(c, q.msg)) || Handle(c, w, q).2.kind == MsgSignup
  {
    if Admit(c, q.msg).None? && q.msg[0] as int == MsgLogin {
      AttemptSpec(w.lockouts, w.accounts, q.addr, q.now, q.msg[1..], c.failures, q.randoms);
    }
  }

  /** Over any sequence of requests the connection stays sound: in
      particular the one-byte failure counter of the source never exceeds
      three, because the third failure closes the connection. */
  lemma {:induction false} RunSound(c: Conn, w: World, qs: seq<Request>)
    requires forall i :: 0 <= i < |qs| ==> WellFormedRequest(qs[i])
    requires Sound(c)
    ensures Sound(Run(c, w, qs).0)
    decreases |qs|
  {
    if qs != [] && c.open {
      HandleSound(c, w, qs[0]);
      var (c', w', _) := Handle(c, w, qs[0]);
      RunSound(c', w', qs[1..]);
    }
  }
}

=== FILE: ledger.dfy ===
/** A user's bet ledger (`<user>_schedine.bin`): an 8-byte header holding
    two byte offsets, then one text record `"<time stamp> <bet>|"` per
    submitted bet, in submission order.

    The first header field is the offset of the first bet that no draw has
    covered yet ("unextracted"); the second is the offset of the first bet
    whose winnings the user has not viewed yet ("unchecked").  The model
    keeps the records as a sequence and the cursors as record counts;
    `Offset` turns a count into the byte offset the header stores, and
    `OffsetStrict` shows the two views determine each other. */
module Ledger {
  import opened Common
  import opened Constants
  import opened Decimal
  import opened Codec

  datatype Record = Record(ts: int, bet: Bet)

  datatype Ledger = Ledger(records: seq<Record>, unextracted: nat, unchecked: nat)

  /** The header invariant: unchecked <= unextracted <= number of records. */
  predicate Valid(l: Ledger) {
    l.unchecked <= l.unextracted <= |l.records|
  }

  /** The record `fprintf(f, "%ld %s|", ts, bet)` appends. */
  function RecordText(r: Record): string {
    IntText(r.ts) + " " + Encode(r.bet) + "|"
  }

  /** The text after the header: every record, in order. */
  function Body(rs: seq<Record>): string {
    if rs == [] then [] else Body(rs[..|rs| - 1]) + RecordText(rs[|rs| - 1])
  }

  function BetsOf(rs: seq<Record>): (bs: seq<Bet>)
    ensures |bs| == |rs|
    ensures forall i :: 0 <= i < |rs| ==> bs[i] == rs[i].bet
  {
    seq(|rs|, i requires 0 <= i < |rs| => rs[i].bet)
  }

  /** Byte offset of the record with index `k` (the end of the file when
      k is the number of records). */
  function Offset(l: Ledger, k: nat): nat
    requires k <= |l.records|
  {
    LedgerHeaderSize + |Body(l.records[..k])|
  }

  function Size(l: Ledger): nat {
    Offset(l, |l.records|)
  }

  // --------------------------------------------------- text of the records

  lemma BodyAppend(rs: seq<Record>, r: Record)
    ensures Body(rs + [r]) == Body(rs) + RecordText(r)
  {
    hide RecordText;
    assert (rs + [r])[..|rs|] == rs;
  }

  lemma {:induction false} BodySplit(a: seq<Record>, b: seq<Record>)
    ensures Body(a + b) == Body(a) + Body(b)
    decreases |b|
  {
    hide RecordText;
    if b == [] {
      assert a + b == a;
    } else {
      var b' := b[..|b| - 1];
      var last := b[|b| - 1];
      assert a + b == (a + b') + [last];
      assert b == b' + [last];
      BodyAppend(a + b', last);
      BodyAppend(b', last);
      BodySplit(a, b');
    }
  }

  lemma RecordTextLength(r: Record)
    ensures |RecordText(r)| >= 3
  {
    EncodeShape(r.bet);
  }

  /** Each record takes at least one byte, so a longer prefix of the ledger
      ends strictly further into the file. */
  lemma {:induction false} BodyPrefixStrict(rs: seq<Record>, i: nat, j: nat)
    requires i < j <= |rs|
    ensures |Body(rs[..i])| < |Body(rs[..j])|
    decreases j - i
  {
    assert rs[..j] == rs[..j - 1] + [rs[j - 1]];
    BodyAppend(rs[..j - 1], rs[j - 1]);
    RecordTextLength(rs[j - 1]);
    if i < j - 1 {
      BodyPrefixStrict(rs, i, j - 1);
    }
  }

  /** Offsets and record counts determine each other. */
  lemma OffsetStrict(l: Ledger, i: nat, j: nat)
    requires i <= |l.records| && j <= |l.records|
    ensures i < j <==> Offset(l, i) < Offset(l, j)
    ensures i == j <==> Offset(l, i) == Offset(l, j)
  {
    if i < j { BodyPrefixStrict(l.records, i, j); }
    if j < i { BodyPrefixStrict(l.records, j, i); }
  }

  /** In bytes, the header always satisfies 8 <= unchecked <= unextracted
      <= file size. */
  lemma HeaderOrdered(l: Ledger)
    requires Valid(l)
    ensures LedgerHeaderSize <= Offset(l, l.unchecked) <= Offset(l, l.unextracted) <= Size(l)
  {
    OffsetStrict(l, l.unchecked, l.unextracted);
    OffsetStrict(l, l.unextracted, |l.records|);
  }

  /** Appending records leaves the offsets of the existing ones unchanged. */
  lemma OffsetsKept(l: Ledger, r: Ledger, k: nat)
    requires |l.records| <= |r.records| && r.records[..|l.records|] == l.records
    requires k <= |l.records|
    ensures Offset(r, k) == Offset(l, k)
  {
    assert r.records[..k] == l.records[..k];
  }

  lemma OffsetsKeptAll(l: Ledger, r: Ledger)
    requires |l.records| <= |r.records| && r.records[..|l.records|] == l.records
    ensures forall k :: 0 <= k <= |l.records| ==> Offset(r, k) == Offset(l, k)
  {
    forall k | 0 <= k <= |l.records| ensures Offset(r, k) == Offset(l, k) {
      OffsetsKept(l, r, k);
    }
  }

  // ------------------------------------------------------------ operations

  /** `effettuaSignup`: a ledger with no records and both header fields at
      the end of the header. */
  function Signup(): (l: Ledger)
    ensures Valid(l) && l.records == []
    ensures Offset(l, l.unextracted) == LedgerHeaderSize == Size(l)
    ensures Offset(l, l.unchecked) == LedgerHeaderSize
  {
    Ledger([], 0, 0)
  }

  /** `eseguiInviaGiocata`: one record appended, stamped with the time of
      receipt; the header is not touched. */
  function Submit(l: Ledger, ts: int, bet: Bet): (r: Ledger)
    ensures r.records == l.records + [Record(ts, bet)]
    ensures r.unextracted == l.unextracted && r.unchecked == l.unchecked
    ensures Valid(l) ==> Valid(r)
    ensures Size(r) == Size(l) + |RecordText(Record(ts, bet))|
    ensures l.unextracted <= |l.records| ==> Offset(r, r.unextracted) == Offset(l, l.unextracted)
    ensures l.unchecked <= |l.records| ==> Offset(r, r.unchecked) == Offset(l, l.unchecked)
  {
    var r := l.(records := l.records + [Record(ts, bet)]);
    SubmitOffsets(l, r, Record(ts, bet));
    r
  }

  lemma SubmitOffsets(l: Ledger, r: Ledger, rec: Record)
    requires r.records == l.records + [rec]
    ensures Size(r) == Size(l) + |RecordText(rec)|
    ensures forall k :: 0 <= k <= |l.records| ==> Offset(r, k) == Offset(l, k)
  {
    hide RecordText;
    BodyAppend(l.records, rec);
    assert r.records[..|r.records|] == l.records + [rec];
    assert l.records[..|l.records|] == l.records;
    OffsetsKeptAll(l, r);
  }

  /** `aggiornaHeaderSchedine`, run after every draw: the first header
      field moves to the end of the file, so every record so far counts as
      covered by a draw. */
  function Extract(l: Ledger): (r: Ledger)
    ensures r.records == l.records && r.unchecked == l.unchecked
    ensures r.unextracted == |r.records|
    ensures Offset(r, r.unextracted) == Size(l)
    ensures Valid(l) ==> Valid(r) && r.unextracted >= l.unextracted
  {
    l.(unextracted := |l.records|)
  }

  /** The cursor update of `eseguiVediVincite`: the bets between the two
      cursors are handed to the winnings evaluation, and the second header
      field takes the value of the first. */
  function ViewWinnings(l: Ledger): (r: (Ledger, seq<Record>))
    requires Valid(l)
    ensures Valid(r.0) && r.0.records == l.records && r.0.unextracted == l.unextracted
    ensures Offset(r.0, r.0.unchecked) == Offset(l, l.unextracted)
    ensures r.0.unchecked >= l.unchecked
    ensures r.1 == l.records[l.unchecked..l.unextracted]
    ensures r.1 == [] <==> Offset(l, l.unchecked) == Offset(l, l.unextracted)
  {
    OffsetStrict(l, l.unchecked, l.unextracted);
    (l.(unchecked := l.unextracted), l.records[l.unchecked..l.unextracted])
  }

  // ----------------------------------------------------- sequences of use

  datatype Op = SubmitOp(ts: int, bet: Bet) | ExtractOp | ViewWinningsOp

  function Step(l: Ledger, op: Op): Ledger
    requires Valid(l)
  {
    match op
    case SubmitOp(ts, bet) => Submit(l, ts, bet)
    case ExtractOp => Extract(l)
    case ViewWinningsOp => ViewWinnings(l).0
  }

  function Run(l: Ledger, ops: seq<Op>): (r: Ledger)
    requires Valid(l)
    ensures Valid(r)
    decreases |ops|
  {
    if ops == [] then l else Run(Step(l, ops[0]), ops[1..])
  }

  /** Whatever the users and the draws do, records are only ever appended and
      both cursors only move forward, in records and in bytes. */
  lemma {:induction false} RunMonotone(l: Ledger, ops: seq<Op>)
    requires Valid(l)
    ensures var r := Run(l, ops);
            && |l.records| <= |r.records| && r.records[..|l.records|] == l.records
            && l.unextracted <= r.unextracted && l.unchecked <= r.unchecked
            && Offset(l, l.unextracted) <= Offset(r, r.unextracted)
            && Offset(l, l.unchecked) <= Offset(r, r.unchecked)
    decreases |ops|
  {
    hide Offset, Body, RecordText, Submit, Extract, ViewWinnings;
    if ops != [] {
      var m := Step(l, ops[0]);
      assert |l.records| <= |m.records| && m.records[..|l.records|] == l.records
          && l.unextracted <= m.unextracted && l.unchecked <= m.unchecked;
      RunMonotone(m, ops[1..]);
      var r := Run(l, ops);
      assert r == Run(m, ops[1..]);
      assert r.records[..|l.records|] == l.records by {
        assert r.records[..|l.records|] == r.records[..|m.records|][..|l.records|];
      }
      OffsetsKept(l, r, l.unextracted);
      OffsetsKept(l, r, l.unchecked);
      OffsetStrict(r, l.unextracted, r.unextracted);
      OffsetStrict(r, l.unchecked, r.unchecked);
    }
  }

  /** A ledger in use: signup, then any sequence of operations; its header
      satisfies 8 <= unchecked <= unextracted <= size throughout. */
  lemma LedgerInUse(ops: seq<Op>)
    ensures var l := Run(Signup(), ops);
            LedgerHeaderSize <= Offset(l, l.unchecked) <= Offset(l, l.unextracted) <= Size(l)
  {
    HeaderOrdered(Run(Signup(), ops));
  }

  // ------------------------------------------------------------ listing

  /** The window `eseguiVediGiocate` reads: type 0 is everything before the
      first header field (bets some draw has covered), type 1 everything
      from it to the end (bets waiting for the next draw).  Yields the first
      record index, the start offset and the number of bytes. */
  function Window(l: Ledger, kind: int): (r: Option<(nat, nat, nat, nat)>)
    requires Valid(l)
    ensures r.None? <==> kind != 0 && kind != 1
    ensures r.Some? ==> var (a, b, offset, bytes) := r.value;
            && a <= b <= |l.records|
            && offset == Offset(l, a) && offset + bytes == Offset(l, b)
            && (kind == 0 ==> a == 0 && b == l.unextracted)
            && (kind == 1 ==> a == l.unextracted && b == |l.records|)
  {
    if kind == 0 then
      var header := Offset(l, l.unextracted);
      HeaderOrdered(l);
      Some((0, l.unextracted, LedgerHeaderSize, header - LedgerHeaderSize))
    else if kind == 1 then
      var header := Offset(l, l.unextracted);
      HeaderOrdered(l);
      Some((l.unextracted, |l.records|, header, Size(l) - header))
    else None
  }

  /** First `|` at or after `p`, or the end of `s` (where `%[^|]` stops). */
  function BarEnd(s: string, p: nat): (e: nat)
    requires p <= |s|
    ensures p <= e <= |s|
    ensures forall k :: p <= k < e ==> s[k] != '|'
    ensures e == |s| || s[e] == '|'
    decreases |s| - p
  {
    if p == |s| || s[p] == '|' then p else BarEnd(s, p + 1)
  }

  /** `fscanf(f, "%ld %n%[^|]%n|%n", ...)`: the time stamp, the bet text up
      to the delimiter, and the position after the delimiter.  `None` where
      one of the conversions fails. */
  function ScanRecord(s: string, pos: nat): (r: Option<(int, string, nat)>)
    requires pos <= |s|
    ensures r.Some? ==> pos < r.value.2 <= |s| && '|' !in r.value.1
  {
    match ScanLong(s, pos)
    case None => None
    case Some((ts, p)) =>
      var e := BarEnd(s, p);
      if e == p || e == |s| then None
      else
        assert forall k :: 0 <= k < e - p ==> s[p..e][k] == s[p + k];
        Some((ts, s[p..e], e + 1))
  }

  /** Scanning the ledger body at the start of record `k` yields that
      record's time stamp and bet text and stops at the next record. */
  lemma ScanRecordAt(rs: seq<Record>, k: nat)
    requires k < |rs|
    ensures |Body(rs[..k])| < |Body(rs[..k + 1])| <= |Body(rs)|
    ensures ScanRecord(Body(rs), |Body(rs[..k])|)
         == Some((rs[k].ts, Encode(rs[k].bet), |Body(rs[..k + 1])|))
  {
    hide *;
    var s := Body(rs);
    var pre := Body(rs[..k]);
    var rest := Body(rs[k + 1..]);
    var rt := RecordText(rs[k]);
    BodyAround(rs, k);
    RecordTextIs(rs[k]);
    assert s == pre + rt + rest;
    assert s[|pre|..|pre| + |rt|] == rt;
    EncodeShape(rs[k].bet);
    ScanRecordText(s, |pre|, rs[k].ts, Encode(rs[k].bet));
  }

  lemma RecordTextIs(r: Record)
    ensures RecordText(r) == IntText(r.ts) + " " + Encode(r.bet) + "|"
  {
  }

  /** A record printed at `p` is scanned back whole. */
  lemma ScanRecordText(s: string, p: nat, ts: int, e: string)
    requires e != [] && IsDigit(e[0]) && '|' !in e
    requires p + |IntText(ts) + " " + e + "|"| <= |s|
    requires s[p..p + |IntText(ts) + " " + e + "|"|] == IntText(ts) + " " + e + "|"
    ensures ScanRecord(s, p) == Some((ts, e, p + |IntText(ts) + " " + e + "|"|))
  {
    hide IntText, ScanLong;
    var t := IntText(ts);
    var q := p + |t| + 1;
    var rt := t + " " + e + "|";
    assert forall j :: 0 <= j < |rt| ==> s[p + j] == rt[j] by {
      forall j | 0 <= j < |rt| ensures s[p + j] == rt[j] {
        assert s[p..p + |rt|][j] == s[p + j];
      }
    }
    assert s[p..p + |t|] == t by {
      forall j | 0 <= j < |t| ensures s[p..p + |t|][j] == t[j] { assert rt[j] == t[j]; }
    }
    assert s[p + |t|] == rt[|t|] == ' ';
    assert s[q] == rt[|t| + 1] == e[0];
    ScanLongText(s, p, ts);
    assert forall j :: q <= j < q + |e| ==> s[j] != '|' by {
      forall j | q <= j < q + |e| ensures s[j] != '|' {
        assert s[j] == rt[j - p] == e[j - q];
      }
    }
    assert s[q + |e|] == rt[|t| + 1 + |e|] == '|';
    BarEndAt(s, q, q + |e|);
    assert s[q..q + |e|] == e by {
      forall j | 0 <= j < |e| ensures s[q..q + |e|][j] == e[j] { assert rt[|t| + 1 + j] == e[j]; }
    }
  }

  /** The ledger body around record `k`. */
  lemma SplitAround<T>(s: seq<T>, k: nat)
    requires k < |s|
    ensures s[..k + 1] == s[..k] + [s[k]]
    ensures s == (s[..k] + [s[k]]) + s[k + 1..]
  {
    assert s[..k + 1] == s[..k] + [s[k]];
    assert s == s[..k + 1] + s[k + 1..];
  }

  lemma BodyAround(rs: seq<Record>, k: nat)
    requires k < |rs|
    ensures Body(rs) == Body(rs[..k]) + RecordText(rs[k]) + Body(rs[k + 1..])
    ensures Body(rs[..k + 1]) == Body(rs[..k]) + RecordText(rs[k])
  {
    hide *;
    var pre, post := rs[..k], rs[k + 1..];
    var upto := pre + [rs[k]];
    SplitAround(rs, k);
    BodySplit(upto, post);
    BodyAppend(pre, rs[k]);
  }

  lemma {:induction false} BarEndAt(s: string, p: nat, e: nat)
    requires p <= e < |s| && s[e] == '|'
    requires forall j :: p <= j < e ==> s[j] != '|'
    ensures BarEnd(s, p) == e
    decreases e - p
  {
    if p < e { BarEndAt(s, p + 1, e); }
  }

  lemma EncodeAllNil()
    ensures EncodeAll([]) == []
  {
  }

  lemma {:induction false} EncodeAllAppend(bs: seq<Bet>, b: Bet)
    ensures EncodeAll(bs + [b]) == EncodeAll(bs) + Encode(b)
    decreases |bs|
  {
    if bs == [] {
      assert EncodeAll([b]) == Encode(b) + EncodeAll([]);
    } else {
      assert (bs + [b])[1..] == bs[1..] + [b];
      EncodeAllAppend(bs[1..], b);
    }
  }

  /** The reading loop of `eseguiVediGiocate`: from the window's start, scan
      records and keep only their bet text until the window's bytes are
      consumed.  The result is the window's bets, encoded back to back. */
  method ReadWindow(body: string, from: nat, count: nat, ghost rs: seq<Record>, ghost a: nat, ghost b: nat)
    returns (out: string)
    requires a <= b <= |rs| && body == Body(rs)
    requires from == |Body(rs[..a])| && from + count == |Body(rs[..b])|
    ensures out == EncodeAll(BetsOf(rs[a..b]))
  {
    hide *;
    var pos := from;
    var read := 0;
    out := [];
    ghost var k := a;
    assert BetsOf(rs[a..a]) == [];
    EncodeAllNil();
    while read < count
      invariant a <= k <= b
      invariant pos == |Body(rs[..k])| && pos == from + read
      invariant out == EncodeAll(BetsOf(rs[a..k]))
      decreases count - read
    {
      if k == b { assert false; }
      ScanRecordAt(rs, k);
      var scanned := ScanRecord(body, pos);
      var (_, text, next) := scanned.value;
      assert BetsOf(rs[a..k + 1]) == BetsOf(rs[a..k]) + [rs[k].bet];
      EncodeAllAppend(BetsOf(rs[a..k]), rs[k].bet);
      out := out + text;
      read := read + (next - pos);
      pos := next;
      k := k + 1;
    }
    if k < b { BodyPrefixStrict(rs, k, b); }
  }

  /** `eseguiVediGiocate` after its length check: the kind byte selects the
      window; an unknown kind is malformed, an empty window is reported as
      an empty file, and otherwise the reply is the window's bets. */
  function ListBets(l: Ledger, kind: int): (r: Result<string>)
    requires Valid(l)
  {
    match Window(l, kind)
    case None => Err(Malformed)
    case Some((a, b, offset, bytes)) =>
      if bytes == 0 then Err(Empty) else Ok(EncodeAll(BetsOf(l.records[a..b])))
  }

  /** `eseguiVediGiocate` on the ledger file: the header gives the window,
      an empty window is reported without reading, and otherwise the record
      loop runs over the text after the header. */
  method ServeListBets(l: Ledger, kind: int) returns (r: Result<string>)
    requires Valid(l)
    ensures r == ListBets(l, kind)
  {
    var w := Window(l, kind);
    if w.None? { return Err(Malformed); }
    var (a, b, offset, bytes) := w.value;
    if bytes == 0 { return Err(Empty); }
    var body := Body(l.records);
    assert l.records[..|l.records|] == l.records;
    var text := ReadWindow(body, offset - LedgerHeaderSize, bytes, l.records, a, b);
    r := Ok(text);
  }

  /** The reply of a bet listing: malformed exactly for an unknown kind,
      empty exactly when the window holds no bet, and otherwise text the
      client reads back into the window's bets, short enough for the buffer
      of the window's size it is written into (one byte is left for the
      terminating NUL). */
  lemma ListBetsSpec(l: Ledger, kind: int)
    requires Valid(l)
    ensures ListBets(l, kind) == Err(Malformed) <==> kind != 0 && kind != 1
    ensures kind == 0 ==> (ListBets(l, kind) == Err(Empty) <==> l.unextracted == 0)
    ensures kind == 1 ==> (ListBets(l, kind) == Err(Empty) <==> l.unextracted == |l.records|)
    ensures ListBets(l, kind).Ok? ==>
              var (a, b, offset, bytes) := Window(l, kind).value;
              && DecodeAll(ListBets(l, kind).value) == Ok(BetsOf(l.records[a..b]))
              && |ListBets(l, kind).value| + 1 <= bytes
  {
    hide Window, EncodeAll, DecodeAll, Body;
    var w := Window(l, kind);
    if w.Some? {
      var (a, b, offset, bytes) := w.value;
      OffsetStrict(l, a, b);
      var bs := BetsOf(l.records[a..b]);
      DecodeAllEncodeAll(bs);
      if bytes > 0 {
        WindowText(l.records, a, b);
      }
    }
  }

  /** The bets of records a..b encode to fewer characters than those
      records take in the file. */
  lemma WindowText(rs: seq<Record>, a: nat, b: nat)
    requires a < b <= |rs|
    ensures |EncodeAll(BetsOf(rs[a..b]))| + 1 <= |Body(rs[..b])| - |Body(rs[..a])|
  {
    assert rs[..b] == rs[..a] + rs[a..b];
    BodySplit(rs[..a], rs[a..b]);
    BodyLonger(rs[a..b]);
  }

  lemma {:induction false} BodyLonger(rs: seq<Record>)
    requires rs != []
    ensures |EncodeAll(BetsOf(rs))| + 1 <= |Body(rs)|
    decreases |rs|
  {
    hide Body, EncodeAll, Encode, IntText;
    var init := rs[..|rs| - 1];
    var last := rs[|rs| - 1];
    assert rs == init + [last];
    BodyAppend(init, last);
    assert BetsOf(rs) == BetsOf(init) + [last.bet];
    EncodeAllAppend(BetsOf(init), last.bet);
    if init != [] {
      BodyLonger(init);
    } else {
      assert BetsOf(init) == [];
      EncodeAllNil();
    }
  }
}

=== FILE: login.dfy ===
/** Logging in (`effettuaLogin`): the newest-first scan of the lockout file,
    the credential check against the user table, the per-connection failure
    counter with its lockout on the third strike, and the session
    identifier handed to a successful login (`generaSessionId`).  The clock,
    the client address and the random generator are inputs. */
module Login {
  import opened Common
  import opened Constants

  // ------------------------------------------------- session identifiers

  /** A digit, a lower-case letter or an upper-case letter (ASCII). */
  predicate IsAlphanumeric(b: byte) {
    48 <= b <= 57 || 97 <= b <= 122 || 65 <= b <= 90
  }

  /** Which index the generator value is turned into.  The source writes
      `rand() % QUANTI_CARATTERI_ALFANUMERICI`, and the macro expands without
      parentheses to `QUANTE_LETTERE*2+QUANTE_CIFRE`, so what runs is
      `(rand() % 26) * 2 + 10` (`AsWrittenMap`).  The comment above the call
      promises a bijection onto the 62 symbols, which `rand() % 62` gives
      (`CorrectedMap`). */
  datatype SymbolMap = AsWrittenMap | CorrectedMap

  /** The `random` index one generator value becomes. */
  function SymbolIndexOf(m: SymbolMap, x: nat): (r: nat)
    ensures r < AlphanumericCount
  {
    match m
    case AsWrittenMap => (x % LetterCount) * 2 + DigitCount
    case CorrectedMap => x % AlphanumericCount
  }

  /** The three branches of the loop body: an index below 10 is a digit,
      the next 26 are the lower-case letters, the last 26 the upper-case
      ones.  (The source tests the last range again; the test always
      holds.) */
  function SymbolAt(r: nat): byte
    requires r < AlphanumericCount
  {
    if r < DigitCount then (r + AsciiFirstDigit) as byte
    else if r - DigitCount < LetterCount then (r - DigitCount + AsciiFirstLower) as byte
    else (r - DigitCount - LetterCount + AsciiFirstUpper) as byte
  }

  /** One character of a session identifier. */
  function SessionSymbol(m: SymbolMap, x: nat): (b: byte)
    ensures IsAlphanumeric(b)
    ensures SymbolIndex(b) == SymbolIndexOf(m, x)
  {
    SymbolAt(SymbolIndexOf(m, x))
  }

  /** Independent inverse: the position of a symbol in the ordered alphabet
      of digits, lower-case and upper-case letters. */
  function SymbolIndex(b: byte): (i: nat)
    requires IsAlphanumeric(b)
    ensures i < AlphanumericCount
  {
    if b <= 57 then b as nat - 48
    else if b >= 97 then b as nat - 97 + 10
    else b as nat - 65 + 36
  }

  /** The corrected map is a bijection between the values modulo 62 and the
      alphanumeric characters. */
  lemma SymbolBijection(x: nat, b: byte)
    ensures SymbolIndex(SessionSymbol(CorrectedMap, x)) == x % AlphanumericCount
    ensures IsAlphanumeric(b) ==> SessionSymbol(CorrectedMap, SymbolIndex(b)) == b
  {
  }

  /** The map as written never yields a digit: every symbol is a letter at
      an even distance from 'a' or 'A', so only 26 symbols occur, and the
      symbol gives back the value modulo 26. */
  lemma AsWrittenSymbolLetters(x: nat)
    ensures var b := SessionSymbol(AsWrittenMap, x);
            && !(48 <= b <= 57)
            && ((97 <= b <= 122 && (b - 97) % 2 == 0) || (65 <= b <= 90 && (b - 65) % 2 == 0))
            && (SymbolIndex(b) - DigitCount) / 2 == x % LetterCount
  {
  }

  /** The identifier sent to the client: ten symbols and the terminating
      NUL. */
  function SessionId(m: SymbolMap, randoms: seq<nat>): (id: seq<byte>)
    requires |randoms| >= SessionIdLength
    ensures |id| == SessionIdLength + 1 && id[SessionIdLength] == 0
    ensures forall i :: 0 <= i < SessionIdLength ==> IsAlphanumeric(id[i])
  {
    seq(SessionIdLength, i requires 0 <= i < SessionIdLength => SessionSymbol(m, randoms[i])) + [0]
  }

  /** `generaSessionId`'s loop. */
  method GenerateSessionId(m: SymbolMap, randoms: seq<nat>) returns (id: seq<byte>)
    requires |randoms| >= SessionIdLength
    ensures id == SessionId(m, randoms)
  {
    id := [];
    var i := 0;
    while i < SessionIdLength
      invariant i <= SessionIdLength && |id| == i
      invariant forall k :: 0 <= k < i ==> id[k] == SessionSymbol(m, randoms[k])
    {
      id := id + [SessionSymbol(m, randoms[i])];
      i := i + 1;
    }
    id := id + [0];
  }

  /** The modulus that tells two generator values apart under a map. */
  function Period(m: SymbolMap): nat {
    match m
    case AsWrittenMap => LetterCount
    case CorrectedMap => AlphanumericCount
  }

  /** Two generator streams give the same identifier exactly when their
      first ten values agree modulo 26 as written, and modulo 62 once
      corrected. */
  lemma SessionIdInjective(m: SymbolMap, a: seq<nat>, b: seq<nat>)
    requires |a| >= SessionIdLength && |b| >= SessionIdLength
    ensures SessionId(m, a) == SessionId(m, b) <==>
            forall i :: 0 <= i < SessionIdLength ==> a[i] % Period(m) == b[i] % Period(m)
  {
    if SessionId(m, a) == SessionId(m, b) {
      forall i | 0 <= i < SessionIdLength
        ensures a[i] % Period(m) == b[i] % Period(m)
      {
        assert SessionId(m, a)[i] == SessionId(m, b)[i];
        if m == AsWrittenMap {
          AsWrittenSymbolLetters(a[i]);
          AsWrittenSymbolLetters(b[i]);
        }
      }
    } else {
      var i :| 0 <= i < SessionIdLength && SessionId(m, a)[i] != SessionId(m, b)[i];
      assert SessionSymbol(m, a[i]) != SessionSymbol(m, b[i]);
    }
  }

  /** The generator value 0 gives 'a' as written where '0' was meant, and
      13 gives 'A' where 'd' was meant. */
  lemma SymbolMapDiffers()
    ensures SessionSymbol(AsWrittenMap, 0) == 97 && SessionSymbol(CorrectedMap, 0) == 48
    ensures SessionSymbol(AsWrittenMap, 13) == 65 && SessionSymbol(CorrectedMap, 13) == 100
  {
  }

  /** The streams of ten 0s and ten 26s collide as written, although the
      corrected map tells them apart. */
  lemma AsWrittenIdsCollide()
    ensures var zeros, twentySixes := seq(SessionIdLength, _ => 0), seq(SessionIdLength, _ => 26);
            && SessionId(AsWrittenMap, zeros) == SessionId(AsWrittenMap, twentySixes)
            && SessionId(CorrectedMap, zeros) != SessionId(CorrectedMap, twentySixes)
  {
    hide SessionId, SessionSymbol;
    var zeros, twentySixes := seq(SessionIdLength, _ => 0), seq(SessionIdLength, _ => 26);
    forall i | 0 <= i < SessionIdLength
      ensures zeros[i] % Period(AsWrittenMap) == twentySixes[i] % Period(AsWrittenMap)
    {
      assert zeros[i] == 0 && twentySixes[i] == 26;
    }
    SessionIdInjective(AsWrittenMap, zeros, twentySixes);
    SessionIdInjective(CorrectedMap, zeros, twentySixes);
    assert zeros[0] % Period(CorrectedMap) != twentySixes[0] % Period(CorrectedMap);
  }

  // ------------------------------------------------------------- lockouts

  /** A record of the lockout file: the blocked address and when. */
  datatype Lockout = Lockout(addr: nat, ts: int)

  /** A record still within its 30-minute block at time `now`. */
  predicate Recent(r: Lockout, now: int) {
    now - r.ts <= BlockMinutes * SecondsPerMinute
  }

  predicate RecentFrom(records: seq<Lockout>, i: nat, now: int) {
    forall j :: i <= j < |records| ==> Recent(records[j], now)
  }

  /** Reference for the scan: some record for the address lies in the run
      of recent records at the end of the file. */
  predicate Blocked(records: seq<Lockout>, addr: nat, now: int) {
    exists i :: 0 <= i < |records| && records[i].addr == addr && RecentFrom(records, i, now)
  }

  /** The lockout scan of `effettuaLogin`: from the newest record back,
      stop with "not blocked" at the first record older than 30 minutes and
      with "blocked" at the first record for the address. */
  method ScanLockouts(records: seq<Lockout>, addr: nat, now: int) returns (blocked: bool)
    ensures blocked == Blocked(records, addr, now)
  {
    var i: nat := |records|;
    while i > 0
      invariant i <= |records|
      invariant RecentFrom(records, i, now)
      invariant forall j :: i <= j < |records| ==> records[j].addr != addr
    {
      var r := records[i - 1];
      if !Recent(r, now) {
        return false;
      }
      if r.addr == addr {
        return true;
      }
      i := i - 1;
    }
    return false;
  }

  /** Records are appended with the current time, so in a file whose time
      stamps ascend the early exit loses nothing: the address is blocked
      exactly when some record for it is recent. */
  lemma BlockedAscending(records: seq<Lockout>, addr: nat, now: int)
    requires forall i, j :: 0 <= i < j < |records| ==> records[i].ts <= records[j].ts
    ensures Blocked(records, addr, now) <==>
            exists i :: 0 <= i < |records| && records[i].addr == addr && Recent(records[i], now)
  {
  }

  // ------------------------------------------------------------- accounts

  /** A line of the user table. */
  datatype Account = Account(name: seq<byte>, password: seq<byte>)

  /** `cercaUsername`: the password on the first line with the name. */
  function Lookup(accounts: seq<Account>, name: seq<byte>): (r: Option<seq<byte>>)
    ensures r.None? <==> forall i :: 0 <= i < |accounts| ==> accounts[i].name != name
    ensures r.Some? ==> exists i :: 0 <= i < |accounts| && accounts[i] == Account(name, r.value)
  {
    if accounts == [] then None
    else if accounts[0].name == name then Some(accounts[0].password)
    else
      var r := Lookup(accounts[1..], name);
      assert forall i :: 1 <= i < |accounts| ==> accounts[i] == accounts[1..][i - 1];
      r
  }

  // ------------------------------------------------------ the login text

  /** The bytes a C string function sees: everything before the first NUL. */
  function CString(bs: seq<byte>): (r: seq<byte>)
    ensures r <= bs && 0 !in r
    ensures |r| < |bs| ==> bs[|r|] == 0
  {
    if bs == [] || bs[0] == 0 then [] else [bs[0]] + CString(bs[1..])
  }

  const Space: byte := 32

  /** `strsep` on a space: the text before the first space and the text
      after it, or nothing when there is no space. */
  function SplitAtSpace(s: seq<byte>): (r: Option<(seq<byte>, seq<byte>)>)
    ensures r.None? <==> Space !in s
    ensures r.Some? ==> s == r.value.0 + [Space] + r.value.1 && Space !in r.value.0
  {
    if s == [] then None
    else if s[0] == Space then Some(([], s[1..]))
    else
      match SplitAtSpace(s[1..])
      case None => None
      case Some((a, b)) => Some(([s[0]] + a, b))
  }

  // ------------------------------------------------------------ the login

  /** What the client is told.  `Aborted` stands for a request without a
      space: the source then copies from a null pointer and the connection's
      process dies. */
  datatype LoginReply = AddressBlocked | BadLogin | ThirdBadLogin | Granted(id: seq<byte>) | Aborted

  datatype LoginResult = LoginResult(reply: LoginReply, failures: nat, lockouts: seq<Lockout>, user: Option<seq<byte>>)

  /** `effettuaLogin` on the request text `payload`, with the connection's
      failure count, the lockout file, the user table, the client address,
      the clock and the generator values for the session identifier, which
      is built with the corrected symbol map (`CorrectedMap`). */
  function Attempt(lockouts: seq<Lockout>, accounts: seq<Account>, addr: nat, now: int,
                   payload: seq<byte>, failures: nat, randoms: seq<nat>): (r: LoginResult)
    requires |randoms| >= SessionIdLength
  {
    if Blocked(lockouts, addr, now) then LoginResult(AddressBlocked, failures, lockouts, None)
    else
      match SplitAtSpace(CString(payload))
      case None => LoginResult(Aborted, failures, lockouts, None)
      case Some((name, password)) =>
        if Lookup(accounts, name) == Some(password) then
          LoginResult(Granted(SessionId(CorrectedMap, randoms)), failures, lockouts, Some(name))
        else if failures + 1 >= 3 then
          LoginResult(ThirdBadLogin, failures + 1, lockouts + [Lockout(addr, now)], None)
        else
          LoginResult(BadLogin, failures + 1, lockouts, None)
  }

  /** The outcome of a login: a blocked address is refused before the
      credentials are looked at and changes nothing; a request without a
      space aborts; a name and password the user table holds are granted the
      session built from the generator values with the corrected symbol map,
      and nothing else changes;
      any other name or password counts one failure and appends one lockout
      record for this address and time exactly when it is the third. */
  lemma AttemptSpec(lockouts: seq<Lockout>, accounts: seq<Account>, addr: nat, now: int,
                    payload: seq<byte>, failures: nat, randoms: seq<nat>)
    requires |randoms| >= SessionIdLength
    ensures var r := Attempt(lockouts, accounts, addr, now, payload, failures, randoms);
            && (r.reply == AddressBlocked <==> Blocked(lockouts, addr, now))
            && (r.reply == AddressBlocked ==>
                  r.failures == failures && r.lockouts == lockouts && r.user.None?)
            && (r.reply == Aborted <==> !Blocked(lockouts, addr, now) && Space !in CString(payload))
            && (r.reply == Aborted ==> r.failures == failures && r.lockouts == lockouts && r.user.None?)
    ensures var r := Attempt(lockouts, accounts, addr, now, payload, failures, randoms);
            forall name, password ::
              !Blocked(lockouts, addr, now) && CString(payload) == name + [Space] + password && Space !in name ==>
                if Lookup(accounts, name) == Some(password) then
                  && r.reply == Granted(SessionId(CorrectedMap, randoms)) && r.user == Some(name)
                  && r.failures == failures && r.lockouts == lockouts
                else
                  && r.failures == failures + 1 && r.user.None?
                  && r.reply == (if failures + 1 >= 3 then ThirdBadLogin else BadLogin)
                  && r.lockouts == (if failures + 1 >= 3 then lockouts + [Lockout(addr, now)] else lockouts)
    ensures var r := Attempt(lockouts, accounts, addr, now, payload, failures, randoms);
            && (r.reply.Granted? ==>
                  && r.user.Some?
                  && (exists i :: 0 <= i < |accounts| && accounts[i].name == r.user.value)
                  && CString(payload) == r.user.value + [Space] + Lookup(accounts, r.user.value).value
                  && r.failures == failures && r.lockouts == lockouts
                  && forall i :: 0 <= i < SessionIdLength ==> IsAlphanumeric(r.reply.id[i]))
            && (r.reply in {BadLogin, ThirdBadLogin} ==> r.failures == failures + 1 && r.user.None?)
            && (r.reply == ThirdBadLogin <==> r.lockouts != lockouts)
            && (r.reply == ThirdBadLogin ==> r.lockouts == lockouts + [Lockout(addr, now)] && r.failures >= 3)
            && (r.reply == BadLogin ==> r.failures < 3)
  {
    if !Blocked(lockouts, addr, now) {
      forall name, password | CString(payload) == name + [Space] + password && Space !in name
        ensures SplitAtSpace(CString(payload)) == Some((name, password))
      {
        SplitUnique(CString(payload), name, password);
      }
    }
  }

  /** The split at the first space is the only split whose first part holds
      no space. */
  lemma {:induction false} SplitUnique(s: seq<byte>, a: seq<byte>, b: seq<byte>)
    requires s == a + [Space] + b && Space !in a
    ensures SplitAtSpace(s) == Some((a, b))
    decreases |s|
  {
    if a != [] {
      assert s[1..] == a[1..] + [Space] + b;
      SplitUnique(s[1..], a[1..], b);
      assert [a[0]] + a[1..] == a;
    } else {
      assert s[1..] == b;
    }
  }

  /** After the third failure, every login from that address within the
      next 30 minutes is refused, whatever its credentials. */
  lemma ThirdFailureBlocks(lockouts: seq<Lockout>, accounts: seq<Account>, addr: nat, now: int,
                           payload: seq<byte>, failures: nat, randoms: seq<nat>,
                           later: int, payload': seq<byte>, failures': nat)
    requires |randoms| >= SessionIdLength
    requires Attempt(lockouts, accounts, addr, now, payload, failures, randoms).reply == ThirdBadLogin
    requires now <= later <= now + BlockMinutes * SecondsPerMinute
    ensures var r := Attempt(lockouts, accounts, addr, now, payload, failures, randoms);
            Attempt(r.lockouts, accounts, addr, later, payload', failures', randoms).reply == AddressBlocked
  {
    var r := Attempt(lockouts, accounts, addr, now, payload, failures, randoms);
    assert r.lockouts[|r.lockouts| - 1] == Lockout(addr, now);
    assert RecentFrom(r.lockouts, |r.lockouts| - 1, later);
  }
}

=== FILE: sorting.dfy ===
/** Ascending sort of integer arrays (the server's `qsort` with
    `ordine_crescente`), as a function on sequences. */
module Sorting {
  import opened Common

  /** Inserts `x` into an ascending sequence. */
  function Insert(x: int, s: seq<int>): (r: seq<int>)
    requires Ascending(s)
    ensures Ascending(r)
    ensures multiset(r) == multiset(s) + multiset{x}
    ensures |r| == |s| + 1
  {
    if s == [] then [x]
    else if x <= s[0] then [x] + s
    else
      var rest := Insert(x, s[1..]);
      assert s == [s[0]] + s[1..];
      assert forall k :: 0 <= k < |rest| ==> s[0] <= rest[k] by {
        forall k | 0 <= k < |rest| ensures s[0] <= rest[k] {
          assert rest[k] in multiset(rest);
          if rest[k] != x {
            assert rest[k] in multiset(s[1..]);
            var t :| 0 <= t < |s[1..]| && s[1..][t] == rest[k];
            assert s[t + 1] == rest[k];
          }
        }
      }
      [s[0]] + rest
  }

  /** The sorted permutation of `s`. */
  function Sort(s: seq<int>): (r: seq<int>)
    ensures Ascending(r)
    ensures multiset(r) == multiset(s)
    ensures |r| == |s|
  {
    if s == [] then []
    else
      assert s == [s[0]] + s[1..];
      Insert(s[0], Sort(s[1..]))
  }

  /** Sorting keeps exactly the same elements. */
  lemma SortSameElements(s: seq<int>, x: int)
    ensures x in Sort(s) <==> x in s
  {
    assert x in Sort(s) <==> x in multiset(Sort(s));
  }

  lemma {:induction false} DistinctCountsOne(s: seq<int>, x: int)
    requires PairwiseDistinct(s)
    ensures multiset(s)[x] <= 1
    decreases |s|
  {
    if s != [] {
      var init := s[..|s| - 1];
      assert s == init + [s[|s| - 1]];
      assert PairwiseDistinct(init);
      DistinctCountsOne(init, x);
      if s[|s| - 1] == x {
        assert x !in init;
        assert multiset(init)[x] == 0;
      }
    }
  }

  lemma RepeatCountsTwo(s: seq<int>, i: nat, j: nat)
    requires i < j < |s| && s[i] == s[j]
    ensures multiset(s)[s[i]] >= 2
  {
    var a, b, c := s[..j], [s[j]], s[j + 1..];
    assert s == a + b + c;
    assert s[i] in a;
  }

  /** A permutation of distinct values is distinct. */
  lemma PermutationKeepsDistinct(s: seq<int>, r: seq<int>)
    requires PairwiseDistinct(s) && multiset(r) == multiset(s)
    ensures PairwiseDistinct(r)
  {
    forall i, j | 0 <= i < j < |r| ensures r[i] != r[j] {
      if r[i] == r[j] {
        RepeatCountsTwo(r, i, j);
        DistinctCountsOne(s, r[i]);
      }
    }
  }

  /** Sorting distinct values yields a strictly ascending sequence. */
  lemma SortDistinct(s: seq<int>)
    requires PairwiseDistinct(s)
    ensures StrictlyAscending(Sort(s))
  {
    PermutationKeepsDistinct(s, Sort(s));
  }
}

=== FILE: sweep.dfy ===
/** `convalidaSchedineEstratte`: the bets a user has not checked yet, in
    submission order, are matched against the draws in the draw log, also
    in order.  A bet belongs to the draw whose interval (previous draw's
    time stamp, this draw's time stamp] holds its own time stamp; the
    first draw's interval is open to the left.  Each matched bet is
    evaluated against that draw with its numbers sorted per wheel. */
module Sweep {
  import opened Common
  import opened Constants
  import opened Codec
  import opened Sorting
  import opened Draws
  import opened Winnings
  import opened Ledger

  /** The interval test of the sweep: `time1` is 0 before the first draw has
      been passed, and then the previous draw's time stamp. */
  predicate InInterval(t: int, time1: int, time2: int) {
    (time1 == 0 && t <= time2) || (time1 != 0 && t <= time2 && t > time1)
  }

  /** The sweep as the loops run it, over the bets' and the draws' time
      stamps: the pairs (bet index, draw index) it evaluates, in order.  The
      inner loop takes bets while they fall in the current draw's interval;
      the outer loop stops when the bets or the draws run out. */
  function Assoc(ts: seq<int>, dts: seq<int>, bi: nat, di: nat, time1: int): seq<(nat, nat)>
    requires bi <= |ts| && di <= |dts|
    decreases |dts| - di, |ts| - bi
  {
    if di == |dts| then []
    else if bi < |ts| && InInterval(ts[bi], time1, dts[di]) then
      [(bi, di)] + Assoc(ts, dts, bi + 1, di, time1)
    else if bi == |ts| then []
    else Assoc(ts, dts, bi, di + 1, dts[di])
  }

  /** The nested loops of the source, computing the same pairs. */
  method Associate(ts: seq<int>, dts: seq<int>) returns (pairs: seq<(nat, nat)>)
    ensures pairs == Assoc(ts, dts, 0, 0, 0)
  {
    var time1 := 0;
    var bi: nat := 0;
    var di: nat := 0;
    pairs := [];
    while di < |dts|
      invariant bi <= |ts| && di <= |dts|
      invariant pairs + Assoc(ts, dts, bi, di, time1) == Assoc(ts, dts, 0, 0, 0)
      decreases |dts| - di
    {
      var time2 := dts[di];
      while bi < |ts| && InInterval(ts[bi], time1, time2)
        invariant bi <= |ts|
        invariant pairs + Assoc(ts, dts, bi, di, time1) == Assoc(ts, dts, 0, 0, 0)
        decreases |ts| - bi
      {
        assert Assoc(ts, dts, bi, di, time1) == [(bi, di)] + Assoc(ts, dts, bi + 1, di, time1);
        pairs := pairs + [(bi, di)];
        bi := bi + 1;
      }
      if bi == |ts| {
        assert Assoc(ts, dts, bi, di, time1) == [];
        assert pairs + [] == pairs;
        return;
      }
      time1 := time2;
      di := di + 1;
    }
    assert pairs + [] == pairs;
  }

  // ------------------------------------------------------------ reference

  /** Index of the first draw whose time stamp is at least `t`, or the
      number of draws when there is none. */
  function First(dts: seq<int>, t: int): (r: nat)
    ensures r <= |dts|
    ensures forall k :: 0 <= k < r ==> dts[k] < t
    ensures r == |dts| || dts[r] >= t
  {
    FirstFrom(dts, t, 0)
  }

  function FirstFrom(dts: seq<int>, t: int, j: nat): (r: nat)
    requires j <= |dts|
    requires forall k :: 0 <= k < j ==> dts[k] < t
    ensures j <= r <= |dts|
    ensures forall k :: 0 <= k < r ==> dts[k] < t
    ensures r == |dts| || dts[r] >= t
    decreases |dts| - j
  {
    if j == |dts| || dts[j] >= t then j else FirstFrom(dts, t, j + 1)
  }

  lemma FirstIs(dts: seq<int>, t: int, j: nat)
    requires j <= |dts|
    requires forall k :: 0 <= k < j ==> dts[k] < t
    requires j == |dts| || dts[j] >= t
    ensures First(dts, t) == j
  {
  }

  /** The intended matching: every bet with index `bi` or later goes to the
      first draw at or after its time stamp, if there is one. */
  function Ref(ts: seq<int>, dts: seq<int>, bi: nat): seq<(nat, nat)>
    requires bi <= |ts|
    decreases |ts| - bi
  {
    if bi == |ts| then []
    else
      var j := First(dts, ts[bi]);
      (if j < |dts| then [(bi, j)] else []) + Ref(ts, dts, bi + 1)
  }

  /** No bet from `bi` on has a draw at or after it. */
  lemma {:induction false} RefNothingLeft(ts: seq<int>, dts: seq<int>, bi: nat)
    requires Ascending(ts) && bi <= |ts|
    requires bi < |ts| ==> First(dts, ts[bi]) == |dts|
    ensures Ref(ts, dts, bi) == []
    decreases |ts| - bi
  {
    if bi < |ts| {
      if bi + 1 < |ts| {
        FirstIs(dts, ts[bi + 1], |dts|);
      }
      RefNothingLeft(ts, dts, bi + 1);
    }
  }

  /** The loops compute the intended matching from any point the sweep
      reaches: `time1` is the previous draw's time stamp (0 before the
      first), and the next bet is later than that draw. */
  lemma {:induction false} AssocRef(ts: seq<int>, dts: seq<int>, bi: nat, di: nat, time1: int)
    requires Ascending(ts) && StrictlyAscending(dts)
    requires bi <= |ts| && di <= |dts|
    requires time1 == (if di == 0 then 0 else dts[di - 1])
    requires di > 0 && bi < |ts| ==> ts[bi] > dts[di - 1]
    ensures Assoc(ts, dts, bi, di, time1) == Ref(ts, dts, bi)
    decreases |dts| - di, |ts| - bi
  {
    if di == |dts| {
      if bi < |ts| {
        FirstIs(dts, ts[bi], |dts|);
      }
      RefNothingLeft(ts, dts, bi);
    } else if bi < |ts| && InInterval(ts[bi], time1, dts[di]) {
      FirstIs(dts, ts[bi], di);
      AssocRef(ts, dts, bi + 1, di, time1);
    } else if bi == |ts| {
    } else {
      assert ts[bi] > dts[di];
      AssocRef(ts, dts, bi, di + 1, dts[di]);
    }
  }

  /** With bets in submission order and draws in strictly increasing time,
      the sweep pairs every bet with the first draw at or after it, in bet
      order, and skips the bets no draw has reached. */
  lemma SweepMatchesReference(ts: seq<int>, dts: seq<int>)
    requires Ascending(ts) && StrictlyAscending(dts)
    ensures Assoc(ts, dts, 0, 0, 0) == Ref(ts, dts, 0)
  {
    AssocRef(ts, dts, 0, 0, 0);
  }

  /** What the reference matching contains: a bet appears at most once (the
      bet indexes increase), with the first draw at or after it, and it
      appears exactly when such a draw exists. */
  lemma {:induction false} RefMembers(ts: seq<int>, dts: seq<int>, bi: nat)
    requires bi <= |ts|
    ensures forall p :: p in Ref(ts, dts, bi) <==>
              bi <= p.0 < |ts| && p.1 == First(dts, ts[p.0]) && p.1 < |dts|
    ensures forall k, l :: 0 <= k < l < |Ref(ts, dts, bi)| ==>
              Ref(ts, dts, bi)[k].0 < Ref(ts, dts, bi)[l].0
    decreases |ts| - bi
  {
    if bi < |ts| {
      RefMembers(ts, dts, bi + 1);
      var rest := Ref(ts, dts, bi + 1);
      var j := First(dts, ts[bi]);
      var head: seq<(nat, nat)> := if j < |dts| then [(bi, j)] else [];
      assert Ref(ts, dts, bi) == head + rest;
      forall k, l | 0 <= k < l < |head + rest|
        ensures (head + rest)[k].0 < (head + rest)[l].0
      {
        if k >= |head| {
          assert (head + rest)[k] == rest[k - |head|];
          assert (head + rest)[l] == rest[l - |head|];
        } else {
          assert (head + rest)[l] == rest[l - |head|];
          assert rest[l - |head|] in rest;
        }
      }
    }
  }

  // ----------------------------------------------------------- evaluation

  /** The draw's numbers with each wheel sorted, as the sweep reads them. */
  function SortedNumbers(d: Draw): (r: seq<seq<int>>)
    requires Shaped(d)
    ensures |r| == WheelCount
    ensures forall w :: 0 <= w < WheelCount ==>
              |r[w]| == DrawnPerWheel && Ascending(r[w]) && multiset(r[w]) == multiset(d.numbers[w])
  {
    seq(WheelCount, w requires 0 <= w < WheelCount => Sort(d.numbers[w]))
  }

  function Stamps(rs: seq<Record>): (ts: seq<int>)
    ensures |ts| == |rs| && forall i :: 0 <= i < |rs| ==> ts[i] == rs[i].ts
  {
    seq(|rs|, i requires 0 <= i < |rs| => rs[i].ts)
  }

  function DrawStamps(ds: seq<Draw>): (ts: seq<int>)
    ensures |ts| == |ds| && forall i :: 0 <= i < |ds| ==> ts[i] == ds[i].ts
  {
    seq(|ds|, i requires 0 <= i < |ds| => ds[i].ts)
  }

  /** The draws the sweep reads are each well formed. */
  predicate Evaluable(draws: seq<Draw>) {
    forall j :: 0 <= j < |draws| ==> Shaped(draws[j])
  }

  /** The outcome of one bet against one draw, with the evaluation `e`. */
  function Outcome(e: Evaluator, bets: seq<Record>, draws: seq<Draw>, i: nat, j: nat): Result<Option<WinRecord>>
    requires Evaluable(draws) && i < |bets| && j < |draws|
  {
    EvaluateWith(e, bets[i].bet, SortedNumbers(draws[j]), draws[j].ts)
  }

  /** The record an outcome writes: one for a win, none otherwise. */
  function Emit(o: Option<WinRecord>): (r: seq<WinRecord>)
    ensures |r| <= 1 && (r == [] <==> o.None?)
  {
    match o
    case None => []
    case Some(w) => [w]
  }

  /** One outcome followed by the records after it; an outcome that reads
      past the draw makes the whole sweep fail. */
  function Then(o: Result<Option<WinRecord>>, rest: Result<seq<WinRecord>>): (r: Result<seq<WinRecord>>)
    ensures r.Err? <==> o.Err? || rest.Err?
    ensures r.Ok? ==> r.value == Emit(o.value) + rest.value
  {
    match o
    case Err(x) => Err(x)
    case Ok(w) =>
      match rest
      case Err(x) => Err(x)
      case Ok(ws) => Ok(Emit(w) + ws)
  }

  /** The records written for a list of (bet, draw) pairs, in order. */
  function Written(e: Evaluator, bets: seq<Record>, draws: seq<Draw>, pairs: seq<(nat, nat)>): Result<seq<WinRecord>>
    requires Evaluable(draws)
    requires forall p :: p in pairs ==> p.0 < |bets| && p.1 < |draws|
  {
    if pairs == [] then Ok([])
    else Then(Outcome(e, bets, draws, pairs[0].0, pairs[0].1), Written(e, bets, draws, pairs[1..]))
  }

  lemma {:induction false} AssocInRange(ts: seq<int>, dts: seq<int>, bi: nat, di: nat, time1: int)
    requires bi <= |ts| && di <= |dts|
    ensures forall p :: p in Assoc(ts, dts, bi, di, time1) ==> p.0 < |ts| && p.1 < |dts|
    decreases |dts| - di, |ts| - bi
  {
    if di == |dts| {
    } else if bi < |ts| && InInterval(ts[bi], time1, dts[di]) {
      AssocInRange(ts, dts, bi + 1, di, time1);
    } else if bi == |ts| {
    } else {
      AssocInRange(ts, dts, bi, di + 1, dts[di]);
    }
  }

  /** The winnings records `convalidaSchedineEstratte` appends for the
      unchecked bets, in order, with the evaluation `e`. */
  function SweepRecords(e: Evaluator, bets: seq<Record>, draws: seq<Draw>): Result<seq<WinRecord>>
    requires Evaluable(draws)
  {
    AssocInRange(Stamps(bets), DrawStamps(draws), 0, 0, 0);
    Written(e, bets, draws, Assoc(Stamps(bets), DrawStamps(draws), 0, 0, 0))
  }

  /** Bet by bet, the outcome against the first draw at or after the bet,
      nothing for bets no draw has reached yet and nothing for bets that win
      nothing. */
  function Expected(e: Evaluator, bets: seq<Record>, draws: seq<Draw>, i: nat): Result<seq<WinRecord>>
    requires Evaluable(draws) && i <= |bets|
    decreases |bets| - i
  {
    if i == |bets| then Ok([])
    else
      var j := First(DrawStamps(draws), bets[i].ts);
      if j < |draws| then Then(Outcome(e, bets, draws, i, j), Expected(e, bets, draws, i + 1))
      else Expected(e, bets, draws, i + 1)
  }

  lemma RefStep(ts: seq<int>, dts: seq<int>, bi: nat)
    requires bi <= |ts|
    ensures bi == |ts| ==> Ref(ts, dts, bi) == []
    ensures bi < |ts| ==>
              var j := First(dts, ts[bi]);
              Ref(ts, dts, bi) == (if j < |dts| then [(bi, j)] else []) + Ref(ts, dts, bi + 1)
  {
    hide First;
  }

  lemma WrittenNil(e: Evaluator, bets: seq<Record>, draws: seq<Draw>)
    requires Evaluable(draws)
    ensures Written(e, bets, draws, []) == Ok([])
  {
  }

  lemma WrittenCons(e: Evaluator, bets: seq<Record>, draws: seq<Draw>, i: nat, j: nat, rest: seq<(nat, nat)>)
    requires Evaluable(draws) && i < |bets| && j < |draws|
    requires forall p :: p in rest ==> p.0 < |bets| && p.1 < |draws|
    ensures forall p :: p in [(i, j)] + rest ==> p.0 < |bets| && p.1 < |draws|
    ensures Written(e, bets, draws, [(i, j)] + rest) == Then(Outcome(e, bets, draws, i, j), Written(e, bets, draws, rest))
  {
    hide Outcome, Then;
    assert ([(i, j)] + rest)[1..] == rest;
  }

  lemma ExpectedStep(e: Evaluator, bets: seq<Record>, draws: seq<Draw>, i: nat)
    requires Evaluable(draws) && i <= |bets|
    ensures i == |bets| ==> Expected(e, bets, draws, i) == Ok([])
    ensures i < |bets| ==>
            var j := First(DrawStamps(draws), bets[i].ts);
            Expected(e, bets, draws, i) ==
              if j < |draws| then Then(Outcome(e, bets, draws, i, j), Expected(e, bets, draws, i + 1))
              else Expected(e, bets, draws, i + 1)
  {
    hide Outcome, Then, First;
  }

  lemma {:induction false} WrittenRef(e: Evaluator, bets: seq<Record>, draws: seq<Draw>, i: nat)
    requires Evaluable(draws) && i <= |bets|
    ensures forall p :: p in Ref(Stamps(bets), DrawStamps(draws), i) ==> p.0 < |bets| && p.1 < |draws|
    ensures Written(e, bets, draws, Ref(Stamps(bets), DrawStamps(draws), i)) == Expected(e, bets, draws, i)
    decreases |bets| - i
  {
    hide *;
    var ts, dts := Stamps(bets), DrawStamps(draws);
    RefMembers(ts, dts, i);
    if i < |bets| {
      WrittenRef(e, bets, draws, i + 1);
      ExpectedStep(e, bets, draws, i);
      var rest := Ref(ts, dts, i + 1);
      var j := First(dts, ts[i]);
      assert ts[i] == bets[i].ts && |dts| == |draws|;
      RefStep(ts, dts, i);
      if j < |dts| {
        WrittenCons(e, bets, draws, i, j, rest);
      } else {
        assert Ref(ts, dts, i) == rest;
      }
    } else {
      RefStep(ts, dts, i);
      ExpectedStep(e, bets, draws, i);
      WrittenNil(e, bets, draws);
    }
  }

  /** With bets in submission order and draws in strictly increasing time,
      the sweep, with either evaluation, pairs each bet with the first draw
      at or after it and writes that pair's outcome, bet by bet; it fails
      exactly when such an outcome fails. */
  lemma SweepSpec(e: Evaluator, bets: seq<Record>, draws: seq<Draw>)
    requires Evaluable(draws)
    requires Ascending(Stamps(bets)) && StrictlyAscending(DrawStamps(draws))
    ensures SweepRecords(e, bets, draws) == Expected(e, bets, draws, 0)
  {
    SweepMatchesReference(Stamps(bets), DrawStamps(draws));
    WrittenRef(e, bets, draws, 0);
  }

  /** No wheel of any bet selects Bari. */
  predicate NoBariBets(bets: seq<Record>) {
    forall i, k :: 0 <= i < |bets| && 0 <= k < |bets[i].bet.wheels| ==> WheelIndex(bets[i].bet.wheels[k]) != Bari
  }

  lemma {:induction false} WrittenAgree(bets: seq<Record>, draws: seq<Draw>, pairs: seq<(nat, nat)>)
    requires Evaluable(draws) && NoBariBets(bets)
    requires forall p :: p in pairs ==> p.0 < |bets| && p.1 < |draws|
    ensures Written(AsWritten, bets, draws, pairs) == Written(Corrected, bets, draws, pairs)
    decreases |pairs|
  {
    if pairs != [] {
      assert pairs[0] in pairs;
      var (i, j) := pairs[0];
      AsWrittenAgreesWithoutBari(bets[i].bet, SortedNumbers(draws[j]), draws[j].ts);
      WrittenAgree(bets, draws, pairs[1..]);
    }
  }

  /** When no unchecked bet covers Bari, the sweep as written appends the
      same records as the corrected one. */
  lemma SweepAgreesWithoutBari(bets: seq<Record>, draws: seq<Draw>)
    requires Evaluable(draws) && NoBariBets(bets)
    ensures SweepRecords(AsWritten, bets, draws) == SweepRecords(Corrected, bets, draws)
  {
    AssocInRange(Stamps(bets), DrawStamps(draws), 0, 0, 0);
    WrittenAgree(bets, draws, Assoc(Stamps(bets), DrawStamps(draws), 0, 0, 0));
  }
}

=== FILE: wheels.dfy ===
/** Wheel names and codes: `convertiRuotaStringToInt` and its inverse
    `convertiRuotaIntToString`. */
module Wheels {
  import opened Constants

  /** The wheel names, indexed by wheel code. */
  const Names: seq<string> := ["bari", "cagliari", "firenze", "genova", "milano", "napoli",
                               "palermo", "roma", "torino", "venezia", "nazionale"]

  /** A wheel code names one of the eleven wheels. */
  predicate IsWheel(code: int) {
    0 <= code < WheelCount
  }

  /** `convertiRuotaStringToInt`: the code of a wheel name, -1 for any other
      string.  The names are compared in the order of the codes. */
  function CodeOf(name: string): (code: int)
    ensures code == -1 || IsWheel(code)
    ensures IsWheel(code) ==> Names[code] == name
    ensures code == -1 <==> name !in Names
  {
    FirstIndex(name, 0)
  }

  function FirstIndex(name: string, from: nat): (code: int)
    requires from <= |Names|
    ensures code == -1 || from <= code < |Names|
    ensures code != -1 ==> Names[code] == name
    ensures code == -1 <==> (forall k :: from <= k < |Names| ==> Names[k] != name)
    decreases |Names| - from
  {
    if from == |Names| then -1
    else if Names[from] == name then from
    else FirstIndex(name, from + 1)
  }

  /** `convertiRuotaIntToString`: the name of a wheel code, "" for any other
      integer.  A name comes back exactly for the eleven codes, it is one of
      the wheel names, and `CodeOf` reads it back as the same code. */
  function NameOf(code: int): (name: string)
    ensures name != "" <==> IsWheel(code)
    ensures name == "" || name in Names
    ensures IsWheel(code) ==> CodeOf(name) == code
  {
    NamesDistinct();
    if IsWheel(code) then
      var c := CodeOf(Names[code]);
      assert Names[c] == Names[code];
      Names[code]
    else ""
  }

  /** The names are pairwise distinct and none is empty. */
  lemma NamesDistinct()
    ensures forall i, j :: 0 <= i < j < |Names| ==> Names[i] != Names[j]
    ensures forall i :: 0 <= i < |Names| ==> Names[i] != ""
  {
    assert |Names| == WheelCount;
  }

  /** Both round trips: the name of a code reads back as that code, and the
      code of a recognised name gives back the name. */
  lemma NameCodeRoundTrip(code: int, name: string)
    ensures IsWheel(code) ==> CodeOf(NameOf(code)) == code
    ensures CodeOf(name) != -1 ==> NameOf(CodeOf(name)) == name
  {
    NamesDistinct();
    if IsWheel(code) {
      var c := CodeOf(NameOf(code));
      assert Names[c] == Names[code];
    }
  }

  /** The code constants agree with the position of each name. */
  lemma CodesMatchConstants()
    ensures CodeOf("bari") == Bari && CodeOf("cagliari") == Cagliari
    ensures CodeOf("firenze") == Firenze && CodeOf("genova") == Genova
    ensures CodeOf("milano") == Milano && CodeOf("napoli") == Napoli
    ensures CodeOf("palermo") == Palermo && CodeOf("roma") == Roma
    ensures CodeOf("torino") == Torino && CodeOf("venezia") == Venezia
    ensures CodeOf("nazionale") == Nazionale
    ensures CodeOf("tutte") == -1 && CodeOf("") == -1
  {
    hide CodeOf;
    CodeAt(0); CodeAt(1); CodeAt(2); CodeAt(3); CodeAt(4); CodeAt(5);
    CodeAt(6); CodeAt(7); CodeAt(8); CodeAt(9); CodeAt(10);
    NamesDistinct();
    assert "tutte" !in Names;
  }

  /** Each name reads back as its position. */
  lemma CodeAt(k: nat)
    requires k < |Names|
    ensures CodeOf(Names[k]) == k
  {
    hide FirstIndex;
    NamesDistinct();
  }
}

=== FILE: winnings.dfy ===
/** The winnings engine (`elaboraVincitaSchedinaConEstrazione`): for every
    wheel of a bet, the numbers it shares with that wheel's draw and the
    payout of every prize tier the bet is evaluated for. */
module Winnings {
  import opened Common
  import opened Constants
  import opened Binomial
  import opened Sorting
  import opened Codec

  // ------------------------------------------------ two-pointer intersection

  /** The two-pointer walk over two ascending sequences: skip the smaller
      head, keep a common head and advance both. */
  function TwoPointer(played: seq<int>, drawn: seq<int>): (r: seq<int>)
    ensures |r| <= |played| && |r| <= |drawn|
    decreases |played| + |drawn|
  {
    if played == [] || drawn == [] then []
    else if played[0] < drawn[0] then TwoPointer(played[1..], drawn)
    else if drawn[0] < played[0] then TwoPointer(played, drawn[1..])
    else [played[0]] + TwoPointer(played[1..], drawn[1..])
  }

  /** On ascending inputs the walk keeps exactly the values present in both. */
  lemma {:induction false} TwoPointerMembers(played: seq<int>, drawn: seq<int>)
    requires Ascending(played) && Ascending(drawn)
    ensures forall x :: x in TwoPointer(played, drawn) <==> x in played && x in drawn
    decreases |played| + |drawn|
  {
    if played != [] && drawn != [] {
      var p, d := played[0], drawn[0];
      assert played == [p] + played[1..];
      assert drawn == [d] + drawn[1..];
      if p < d {
        TwoPointerMembers(played[1..], drawn);
        assert p !in drawn;
      } else if d < p {
        TwoPointerMembers(played, drawn[1..]);
        assert d !in played;
      } else {
        TwoPointerMembers(played[1..], drawn[1..]);
      }
    }
  }

  /** A head no larger (smaller) than every later element keeps a sequence
      ascending (strictly ascending). */
  lemma PrependAscending(p: int, rest: seq<int>, strict: bool)
    requires strict ==> StrictlyAscending(rest)
    requires Ascending(rest)
    requires forall k :: 0 <= k < |rest| ==> p <= rest[k] && (strict ==> p < rest[k])
    ensures Ascending([p] + rest)
    ensures strict ==> StrictlyAscending([p] + rest)
  {
    forall i, j | 0 <= i < j < |[p] + rest|
      ensures ([p] + rest)[i] <= ([p] + rest)[j]
      ensures strict ==> ([p] + rest)[i] < ([p] + rest)[j]
    {
      if i > 0 {
        assert ([p] + rest)[i] == rest[i - 1] && ([p] + rest)[j] == rest[j - 1];
      } else {
        assert ([p] + rest)[j] == rest[j - 1];
      }
    }
  }

  /** On ascending inputs the walk keeps exactly the values present in both,
      each drawn value at most once when the draw is strictly ascending, and
      in increasing order. */
  lemma {:induction false} TwoPointerIsIntersection(played: seq<int>, drawn: seq<int>)
    requires Ascending(played) && Ascending(drawn)
    ensures forall x :: x in TwoPointer(played, drawn) <==> x in played && x in drawn
    ensures Ascending(TwoPointer(played, drawn))
    ensures StrictlyAscending(drawn) ==> StrictlyAscending(TwoPointer(played, drawn))
    decreases |played| + |drawn|
  {
    TwoPointerMembers(played, drawn);
    if played != [] && drawn != [] {
      var p, d := played[0], drawn[0];
      if p < d {
        TwoPointerIsIntersection(played[1..], drawn);
      } else if d < p {
        TwoPointerIsIntersection(played, drawn[1..]);
      } else {
        var rest := TwoPointer(played[1..], drawn[1..]);
        TwoPointerIsIntersection(played[1..], drawn[1..]);
        var strict := StrictlyAscending(drawn);
        forall k | 0 <= k < |rest|
          ensures p <= rest[k] && (strict ==> p < rest[k])
        {
          assert rest[k] in rest;
          var t :| 0 <= t < |drawn[1..]| && drawn[1..][t] == rest[k];
          assert rest[k] == drawn[t + 1];
        }
        PrependAscending(p, rest, strict);
      }
    }
  }

  /** The merge loop of the source over index cursors. */
  method Intersect(played: seq<int>, drawn: seq<int>) returns (r: seq<int>)
    requires Ascending(played) && StrictlyAscending(drawn)
    ensures r == TwoPointer(played, drawn)
    ensures forall x :: x in r <==> x in played && x in drawn
    ensures StrictlyAscending(r)
    ensures |r| <= |played| && |r| <= |drawn|
  {
    var i, j := 0, 0;
    r := [];
    while i < |played| && j < |drawn|
      invariant 0 <= i <= |played| && 0 <= j <= |drawn|
      invariant r + TwoPointer(played[i..], drawn[j..]) == TwoPointer(played, drawn)
    {
      assert played[i..] == [played[i]] + played[i + 1..];
      assert drawn[j..] == [drawn[j]] + drawn[j + 1..];
      if played[i] < drawn[j] {
        i := i + 1;
      } else if drawn[j] < played[i] {
        j := j + 1;
      } else {
        r := r + [played[i]];
        i, j := i + 1, j + 1;
      }
    }
    assert TwoPointer(played[i..], drawn[j..]) == [];
    assert r + [] == r;
    TwoPointerIsIntersection(played, drawn);
  }

  // ------------------------------------------------------------- payouts

  /** `moltiplicatorePremio` scaled to cents: the prize per euro of each
      tier (single, pair, triple, quadruple, quintuple), 1.00 elsewhere. */
  function MultiplierCents(j: int): (m: nat)
    ensures 0 <= j < PrizeTierCount ==> m >= 1123
    ensures !(0 <= j < PrizeTierCount) ==> m == 100
  {
    if j == 0 then 1123
    else if j == 1 then 25000
    else if j == 2 then 450000
    else if j == 3 then 12000000
    else if j == 4 then 600000000
    else 100
  }

  /** An exact payout: `num / den` cents. */
  datatype Payout = Payout(num: nat, den: nat)

  /** The payout of tier `j` for `k` hits out of `m` played numbers on a bet
      covering `wheels` wheels: C(k, j+1) * multiplier / (C(m, j+1) * wheels),
      with each binomial taken as the source computes it (the falling product
      over the factorial, in 32-bit unsigned arithmetic). */
  function TierPayout(k: nat, m: nat, j: nat, wheels: nat): Payout
    requires j + 1 <= k <= m
  {
    var (fk, dk) := Factors(k, j + 1).value;
    var (fm, dm) := Factors(m, j + 1).value;
    var mult := MultiplierCents(j);
    NatProduct(fk, dm, mult);
    NatProduct(dk, fm, wheels);
    Payout(fk * dm * mult, dk * fm * wheels)
  }

  /** The payouts of tiers 0 .. tiers-1. */
  function TierPayouts(k: nat, m: nat, wheels: nat, tiers: nat): (r: seq<Payout>)
    requires tiers <= k <= m
    ensures |r| == tiers
    ensures forall j :: 0 <= j < tiers ==> r[j] == TierPayout(k, m, j, wheels)
  {
    if tiers == 0 then [] else TierPayouts(k, m, wheels, tiers - 1) + [TierPayout(k, m, tiers - 1, wheels)]
  }

  /** Every tier the engine evaluates stays inside both binomials and inside
      the prize table: neither coefficient takes its -1 branch and the
      default multiplier is never used. */
  lemma EvaluatedTiersInRange(stakes: nat, hits: nat, m: nat, j: nat)
    requires hits <= m && hits <= DrawnPerWheel
    requires j < Min(stakes, hits)
    ensures Factors(hits, j + 1).Some? && Factors(m, j + 1).Some?
    ensures j < PrizeTierCount && MultiplierCents(j) != 100
  {
  }

  /** With at most twelve numbers played nothing wraps and the payout is the
      exact rational C(k, j+1) * multiplier / (C(m, j+1) * wheels). */
  lemma TierPayoutExact(k: nat, m: nat, j: nat, wheels: nat)
    requires j + 1 <= k <= m <= 12 && wheels >= 1
    ensures TierPayout(k, m, j, wheels).den > 0
    ensures TierPayout(k, m, j, wheels).num * (Choose(m, j + 1) * wheels)
         == TierPayout(k, m, j, wheels).den * (Choose(k, j + 1) * MultiplierCents(j))
  {
    FactorsExact(k, j + 1);
    FactorsExact(m, j + 1);
    ChoosePositive(m, j + 1);
    var ck, cm, f, mult := Choose(k, j + 1), Choose(m, j + 1), Factorial(j + 1), MultiplierCents(j);
    var p := TierPayout(k, m, j, wheels);
    hide Falling, Factorial, Choose, Factors;
    assert p.num == (ck * f) * f * mult;
    assert p.den == f * (cm * f) * wheels;
    CrossMultiply(ck, cm, f, mult, wheels);
  }

  lemma CrossMultiply(ck: nat, cm: nat, f: nat, mult: nat, wheels: nat)
    requires f >= 1 && cm >= 1 && wheels >= 1
    ensures f * (cm * f) * wheels > 0
    ensures (ck * f) * f * mult * (cm * wheels) == f * (cm * f) * wheels * (ck * mult)
  {
    var ff := f * f;
    PositiveProduct(f, f);
    PositiveProduct(cm, wheels);
    PositiveProduct(ff, cm * wheels);
    assert f * (cm * f) * wheels == ff * (cm * wheels);
    assert (ck * f) * f * mult == ff * (ck * mult);
  }

  lemma NatProduct(a: nat, b: nat, c: nat)
    ensures a * b * c >= 0
  {
  }

  lemma PositiveProduct(a: nat, b: nat)
    requires a > 0 && b > 0
    ensures a * b > 0
  {
  }

  lemma {:induction false} ChoosePositive(n: nat, k: nat)
    requires k <= n
    ensures Choose(n, k) > 0
    decreases n
  {
    if k > 0 { ChoosePositive(n - 1, k - 1); }
  }

  // ------------------------------------------------------- bet evaluation

  /** What one winning wheel of a bet records. */
  datatype WheelWin = WheelWin(wheel: int, hits: seq<int>, payouts: seq<Payout>)

  /** A winnings record: the draw's time stamp, the number of winning wheels
      written in its header, and the wheels listed after it. */
  datatype WinRecord = WinRecord(ts: int, declared: nat, wins: seq<WheelWin>)

  /** The wheel a stored wheel code selects: the source keeps it in an
      8-bit unsigned variable, so the code is taken modulo 256 (the code -1
      that the client gives "tutte" becomes 255). */
  function WheelIndex(code: int): (w: nat)
    ensures w < 0x100
    ensures 0 <= code < 0x100 ==> w == code
    ensures code < 0 && code >= -0x100 ==> w == code + 0x100
  {
    code % 0x100
  }

  /** Every wheel of the bet selects one of the eleven wheels of the draw. */
  predicate CoversKnownWheels(b: Bet) {
    forall i :: 0 <= i < |b.wheels| ==> WheelIndex(b.wheels[i]) < WheelCount
  }

  /** The outcome of one wheel of the bet: an error when its index lies
      past the draw (the source then reads outside the draw's array),
      nothing when no number matches, otherwise the wheel's index, the
      matched numbers and min(stakes, hits) tier payouts. */
  function WheelOutcome(b: Bet, drawn: seq<seq<int>>, i: nat): (o: Result<Option<WheelWin>>)
    requires |drawn| == WheelCount && i < |b.wheels|
    requires forall w :: 0 <= w < |drawn| ==> |drawn[w]| == DrawnPerWheel
    ensures o.Err? <==> WheelIndex(b.wheels[i]) >= WheelCount
    ensures o.Err? ==> o.error == WheelOutOfRange
    ensures o.Ok? && o.value.Some? ==>
              var e := o.value.value;
              && e.wheel == WheelIndex(b.wheels[i]) < WheelCount && e.hits != []
              && |e.hits| <= |b.numbers| && |e.hits| <= DrawnPerWheel
              && |e.payouts| == Min(|b.stakes|, |e.hits|)
  {
    var w := WheelIndex(b.wheels[i]);
    if w >= WheelCount then Err(WheelOutOfRange)
    else
      var hits := TwoPointer(Sort(b.numbers), drawn[w]);
      if hits == [] then Ok(None)
      else
        var tiers := Min(|b.stakes|, |hits|);
        Ok(Some(WheelWin(w, hits, TierPayouts(|hits|, |b.numbers|, |b.wheels|, tiers))))
  }

  /** The outcomes of the bet's wheels, in the bet's order, when every wheel
      lies within the draw. */
  function Outcomes(b: Bet, drawn: seq<seq<int>>, n: nat): (r: seq<Option<WheelWin>>)
    requires CoversKnownWheels(b) && |drawn| == WheelCount && n <= |b.wheels|
    requires forall w :: 0 <= w < |drawn| ==> |drawn[w]| == DrawnPerWheel
    ensures |r| == n
    ensures forall i :: 0 <= i < n ==> Ok(r[i]) == WheelOutcome(b, drawn, i)
  {
    if n == 0 then [] else Outcomes(b, drawn, n - 1) + [WheelOutcome(b, drawn, n - 1).value]
  }

  /** The winning wheels, in order. */
  function Winners(os: seq<Option<WheelWin>>): (r: seq<WheelWin>)
    ensures |r| <= |os|
    ensures forall w :: w in r <==> Some(w) in os
  {
    if os == [] then []
    else
      var init := Winners(os[..|os| - 1]);
      assert os == os[..|os| - 1] + [os[|os| - 1]];
      match os[|os| - 1]
      case None => init
      case Some(w) => init + [w]
  }

  /** The winning wheels whose code is not 0: what the source writes after
      the header, since it uses 0 to mean "this wheel did not win". */
  function WinnersCodeNotZero(os: seq<Option<WheelWin>>): (r: seq<WheelWin>)
    ensures forall w :: w in r <==> Some(w) in os && w.wheel != 0
  {
    if os == [] then []
    else
      var init := WinnersCodeNotZero(os[..|os| - 1]);
      assert os == os[..|os| - 1] + [os[|os| - 1]];
      match os[|os| - 1]
      case None => init
      case Some(w) => if w.wheel == 0 then init else init + [w]
  }

  /** The evaluation as the source writes it: an error when some wheel lies
      past the draw; nothing when no wheel wins; otherwise a record whose
      header counts every winning wheel but whose list skips the winning
      wheels with code 0 (Bari). */
  function EvaluateAsWritten(b: Bet, drawn: seq<seq<int>>, ts: int): (r: Result<Option<WinRecord>>)
    requires |drawn| == WheelCount
    requires forall w :: 0 <= w < |drawn| ==> |drawn[w]| == DrawnPerWheel
  {
    if !CoversKnownWheels(b) then Err(WheelOutOfRange)
    else
      var os := Outcomes(b, drawn, |b.wheels|);
      var winners := Winners(os);
      if winners == [] then Ok(None)
      else Ok(Some(WinRecord(ts, |winners|, WinnersCodeNotZero(os))))
  }

  /** The evaluation the source intends: every winning wheel is listed, so
      the header count matches the list. */
  function Evaluate(b: Bet, drawn: seq<seq<int>>, ts: int): (r: Result<Option<WinRecord>>)
    requires |drawn| == WheelCount
    requires forall w :: 0 <= w < |drawn| ==> |drawn[w]| == DrawnPerWheel
  {
    if !CoversKnownWheels(b) then Err(WheelOutOfRange)
    else
      var winners := Winners(Outcomes(b, drawn, |b.wheels|));
      if winners == [] then Ok(None) else Ok(Some(WinRecord(ts, |winners|, winners)))
  }

  /** Which of the two evaluations a caller runs. */
  datatype Evaluator = AsWritten | Corrected

  function EvaluateWith(e: Evaluator, b: Bet, drawn: seq<seq<int>>, ts: int): (r: Result<Option<WinRecord>>)
    requires |drawn| == WheelCount
    requires forall w :: 0 <= w < |drawn| ==> |drawn[w]| == DrawnPerWheel
  {
    match e
    case AsWritten => EvaluateAsWritten(b, drawn, ts)
    case Corrected => Evaluate(b, drawn, ts)
  }

  /** The corrected evaluation fails exactly when some wheel of the bet lies
      past the draw; otherwise the record is written exactly when some wheel
      matches a number; its header counts its entries; every entry lists
      matched numbers that are in both the bet and that wheel's draw, in
      increasing order, and min(stakes, hits) payouts. */
  lemma EvaluateSpec(b: Bet, drawn: seq<seq<int>>, ts: int)
    requires |drawn| == WheelCount
    requires forall w :: 0 <= w < |drawn| ==> |drawn[w]| == DrawnPerWheel
    requires forall w :: 0 <= w < |drawn| ==> StrictlyAscending(drawn[w])
    ensures Evaluate(b, drawn, ts).Err? <==>
              exists i :: 0 <= i < |b.wheels| && WheelOutcome(b, drawn, i).Err?
    ensures Evaluate(b, drawn, ts) == Ok(None) <==>
              forall i :: 0 <= i < |b.wheels| ==> WheelOutcome(b, drawn, i) == Ok(None)
    ensures var r := Evaluate(b, drawn, ts);
            r.Ok? && r.value.Some? ==>
              var rec := r.value.value;
              && rec.ts == ts && rec.declared == |rec.wins| <= |b.wheels|
              && forall e :: e in rec.wins ==>
                   && 0 <= e.wheel < WheelCount
                   && (forall x :: x in e.hits <==> x in b.numbers && x in drawn[e.wheel])
                   && StrictlyAscending(e.hits)
                   && |e.payouts| == Min(|b.stakes|, |e.hits|)
  {
    hide WheelOutcome, Outcomes, Winners;
    if !CoversKnownWheels(b) {
      var i :| 0 <= i < |b.wheels| && WheelIndex(b.wheels[i]) >= WheelCount;
      assert WheelOutcome(b, drawn, i).Err? && WheelOutcome(b, drawn, i) != Ok(None);
      assert Evaluate(b, drawn, ts) == Err(WheelOutOfRange);
      return;
    }
    var os := Outcomes(b, drawn, |b.wheels|);
    var winners := Winners(os);
    if winners == [] {
      assert forall i :: 0 <= i < |os| ==> os[i] in os;
    } else {
      assert winners[0] in winners;
      var i0 :| 0 <= i0 < |os| && os[i0] == Some(winners[0]);
      assert WheelOutcome(b, drawn, i0) != Ok(None);
      forall e | e in winners
        ensures 0 <= e.wheel < WheelCount
        ensures forall x :: x in e.hits <==> x in b.numbers && x in drawn[e.wheel]
        ensures StrictlyAscending(e.hits)
        ensures |e.payouts| == Min(|b.stakes|, |e.hits|)
      {
        var i :| 0 <= i < |os| && os[i] == Some(e);
        WheelOutcomeHits(b, drawn, i);
      }
    }
  }

  /** A winning wheel lists exactly the numbers in both the bet and that
      wheel's draw, in increasing order. */
  lemma WheelOutcomeHits(b: Bet, drawn: seq<seq<int>>, i: nat)
    requires |drawn| == WheelCount && i < |b.wheels|
    requires forall w :: 0 <= w < |drawn| ==> |drawn[w]| == DrawnPerWheel
    requires forall w :: 0 <= w < |drawn| ==> StrictlyAscending(drawn[w])
    ensures var o := WheelOutcome(b, drawn, i);
            o.Ok? && o.value.Some? ==>
              && 0 <= o.value.value.wheel < WheelCount
              && (forall x :: x in o.value.value.hits <==> x in b.numbers && x in drawn[o.value.value.wheel])
              && StrictlyAscending(o.value.value.hits)
  {
    hide TierPayouts, TwoPointer, Sort;
    var w := WheelIndex(b.wheels[i]);
    if w < WheelCount {
      var played := Sort(b.numbers);
      TwoPointerIsIntersection(played, drawn[w]);
      forall x ensures x in played <==> x in b.numbers { SortSameElements(b.numbers, x); }
    }
  }

  /** The payouts do not depend on the amounts staked, only on how many
      stakes the bet declares. */
  lemma StakeAmountsIgnored(b: Bet, stakes: seq<nat>, drawn: seq<seq<int>>, ts: int)
    requires |drawn| == WheelCount
    requires forall w :: 0 <= w < |drawn| ==> |drawn[w]| == DrawnPerWheel
    requires |stakes| == |b.stakes|
    ensures Evaluate(b.(stakes := stakes), drawn, ts) == Evaluate(b, drawn, ts)
  {
    var b2 := b.(stakes := stakes);
    if CoversKnownWheels(b) {
      assert CoversKnownWheels(b2);
      assert Outcomes(b2, drawn, |b.wheels|) == Outcomes(b, drawn, |b.wheels|);
    }
  }

  /** When no wheel of the bet selects Bari the record as written is the
      corrected one. */
  lemma AsWrittenAgreesWithoutBari(b: Bet, drawn: seq<seq<int>>, ts: int)
    requires |drawn| == WheelCount
    requires forall w :: 0 <= w < |drawn| ==> |drawn[w]| == DrawnPerWheel
    requires forall i :: 0 <= i < |b.wheels| ==> WheelIndex(b.wheels[i]) != Bari
    ensures EvaluateAsWritten(b, drawn, ts) == Evaluate(b, drawn, ts)
  {
    if CoversKnownWheels(b) {
      var os := Outcomes(b, drawn, |b.wheels|);
      NoZeroWheel(os);
    }
  }

  lemma {:induction false} NoZeroWheel(os: seq<Option<WheelWin>>)
    requires forall k :: 0 <= k < |os| ==> os[k].Some? ==> os[k].value.wheel != Bari
    ensures WinnersCodeNotZero(os) == Winners(os)
    decreases |os|
  {
    if os != [] {
      NoZeroWheel(os[..|os| - 1]);
    }
  }

  /** A bet on Bari alone whose number 1 is drawn there: the header written
      by the source announces one winning wheel but lists none. */
  lemma BariWinDropped()
    ensures var b := Bet([Bari], [1], [100]);
            var drawn := seq(WheelCount, w => [1, 2, 3, 4, 5]);
            && CoversKnownWheels(b)
            && EvaluateAsWritten(b, drawn, 0) == Ok(Some(WinRecord(0, 1, [])))
            && Evaluate(b, drawn, 0).value.value.declared == |Evaluate(b, drawn, 0).value.value.wins| == 1
  {
    var b := Bet([Bari], [1], [100]);
    var drawn := seq(WheelCount, w => [1, 2, 3, 4, 5]);
    assert Sort([1]) == [1];
    assert TwoPointer([1], [1, 2, 3, 4, 5]) == [1];
    var o := WheelOutcome(b, drawn, 0).value;
    assert o.Some? && o.value.wheel == 0;
    var os := Outcomes(b, drawn, 1);
    assert os == [o];
    assert Winners(os) == [o.value];
    assert WinnersCodeNotZero(os) == [];
  }

  /** The code -1 that the client stores for "tutte" selects wheel index
      255: both evaluations of a bet carrying it fail, whatever the draw. */
  lemma TutteCodeOutOfRange(b: Bet, drawn: seq<seq<int>>, ts: int)
    requires |drawn| == WheelCount
    requires forall w :: 0 <= w < |drawn| ==> |drawn[w]| == DrawnPerWheel
    requires -1 in b.wheels
    ensures WheelIndex(-1) == 255 && !CoversKnownWheels(b)
    ensures EvaluateAsWritten(b, drawn, ts) == Evaluate(b, drawn, ts) == Err(WheelOutOfRange)
  {
    var i :| 0 <= i < |b.wheels| && b.wheels[i] == -1;
    assert WheelIndex(b.wheels[i]) == 255;
  }
}
